=== FILE: README.md ===
# Travel booking backend — a Dafny model of its core

This project models the request handlers and storage layer of a travel
booking backend written in TypeScript on Express and MongoDB. Travellers plan
trips and ask vendors for quotations. They pay through the Razorpay gateway
and log in with one-time passwords. The model covers:

- **Payment reconciliation**: creating a gateway order together with its
  booking and payment, verifying the client's payment signature, and the
  webhook with its four event handlers.
- **OTP login**: sending and re-sending codes, validating them, finding or
  creating the user, issuing tokens, and refreshing an access token.
- **Quotations**: creating one (status chosen by role, trip duplicated for
  a traveller who did not create it), quoting or rejecting by cloning, and
  reading and soft-deleting.
- **Assets**: filtered listings, per-category price ranges and stay and
  transport minimums per location, and create, bulk insert, update and
  soft delete.
- **Users**: reading and updating a profile, with the status codes the
  controller chooses.
- **Trips**: page arithmetic, the role dispatch of the trip listing, the
  trip page, the wishlist toggle, and the wishlisted-trips and
  created-trips listings.
- **Small pure pieces**: query pagination, the preference lists both
  prompt builders assemble, code-fence stripping of a language-model reply,
  role authorisation, `Authorization` header handling, and the mapping of
  validation errors.

A MongoDB collection is a `Table` or `Store`: a sequence of documents in
insertion order, plus the next id to allocate. `findOne` and `updateOne`
act on the first matching document. A missing field is `None`. Each handler
is a pure function from the collections and the request to a status code and
the collections afterwards. Library code and effects become parameters:

- the clock;
- `Math.random()`;
- HMAC digests and the serialisation of a webhook body;
- the Razorpay order call;
- JWT signing and verification;
- regular-expression matching;
- `JSON.parse`.

Two behaviours of the code are easy to miss, and the model keeps both:

- `createOrder` inserts the booking and then the payment without a session,
  so a failed payment insert leaves the booking in place
  (`PaymentInsertFailureOrphansBooking`).
- The webhook handlers update payments with an upsert, so an event for an
  order no payment matches inserts a payment (`CapturedMissesCreatedPayment`).

Files, one module each:

| file | module | source |
|---|---|---|
| common.dfy | Common | shared helpers: options, results, first-match search, filters, collecting |
| text.dfy | Text | JavaScript string built-ins: `includes`, `trim`, `toUpperCase`, `split`, `String(n)` |
| pagination.dfy | Pagination | src/utils/pagination.ts and `parseInt` |
| payments_store.dfy | PaymentsStore | src/storage/payments.ts |
| bookings_store.dfy | BookingsStore | src/storage/bookings.ts |
| payments_controller.dfy | PaymentsController | src/controllers/payments.ts |
| otp_auth.dfy | OtpAuth | src/controllers/auth.ts |
| users_store.dfy | UsersStore | src/storage/user.ts |
| user_controller.dfy | UserController | src/controllers/user.ts |
| roles.dfy | Roles | src/types/enum.ts (user roles) |
| trips_store.dfy | TripsStore | src/storage/trip.ts |
| wishlist_store.dfy | WishlistStore | src/storage/wishlist.ts |
| quotations_store.dfy | QuotationsStore | src/storage/quotation.ts |
| quotation_controller.dfy | QuotationController | src/controllers/quotation.ts |
| trip_controller.dfy | TripController | src/controllers/trip.ts |
| assets_store.dfy | AssetsStore | src/storage/assets.ts |
| assets_controller.dfy | AssetsController | src/controllers/assets.ts |
| formatters.dfy | Formatters | src/utils/formatters.ts |
| middleware.dfy | Middleware | src/middlewares/auth.ts, src/middlewares/validate.ts |

## Model

| member | source | states |
|---|---|---|
| PaymentsStore.Create | src/storage/payments.ts:13-22 | the stored payment is the draft plus both timestamps and a fresh `_id`, and it is returned exactly as stored; the nested `razorpay` details hold the order id and no top-level order id is written |
| Common.FindOne | src/storage/payments.ts:24-26 | `findOne` of both the payments and the bookings storage (src/storage/bookings.ts:23-25): a document is returned iff some document matches the filter, and it is the first that matches |
| PaymentsStore.FindByOrderId | src/controllers/payments.ts:197 | the abstract lookup: found iff some payment's nested `razorpay.order_id` equals the id |
| PaymentsStore.FindByPaymentId | src/controllers/payments.ts:285 | the abstract lookup: found iff some payment's nested `razorpay.payment_id` equals the id |
| PaymentsStore.ApplyPatch | src/storage/payments.ts:28-34 | a `$set` changes exactly the given fields; every other field keeps its value |
| PaymentsStore.ApplyPatchIdempotent | src/storage/payments.ts:28-34 | applying the same `$set` twice is applying it once |
| PaymentsStore.Update | src/controllers/payments.ts:111-119 | the abstract update patches only a payment carrying the nested order id, never inserts, and changes nothing when none exists; when the patch keeps the order id, the lookup by order id afterwards returns the patched document |
| PaymentsStore.UpdateIdempotent | src/controllers/payments.ts:111-119 | repeating an update whose patch keeps the order id changes nothing more |
| PaymentsStore.UpdateByOrderId | src/storage/payments.ts:28-34 | with a top-level `razorpay_order_id` match, only the first match is patched and nothing is inserted; with none, exactly one document is inserted that holds the filter field and the `$set` fields; ids stay distinct |
| PaymentsStore.UpdateByOrderIdIdempotent | src/storage/payments.ts:28-34 | a second identical call changes nothing, including after an upsert |
| PaymentsStore.UpdateByOrderIdSkipsNestedOnly | src/storage/payments.ts:28-34 | payments without the top-level field are never touched, and when every payment lacks it a new document is inserted |
| PaymentsStore.UpdateByOrderIdKeepsNested | src/storage/payments.ts:28-34 | a status-only update leaves the lookup by nested payment id finding a payment iff it did before, under the same nested order id |
| PaymentsStore.UpdateByOrderIdSetsStatus | src/storage/payments.ts:28-34 | afterwards the first document the filter finds has the status that was set |
| PaymentsStore.MarkCaptured | src/storage/payments.ts:36-41 | only the first payment whose top-level `razorpay_payment_id` matches changes, to CAPTURED with `captured_at`; every other document keeps its value; nothing changes or is inserted when none matches; ids stay distinct |
| PaymentsStore.MarkCapturedFound | src/storage/payments.ts:36-41 | afterwards the same filter finds a payment iff it did before, and finds that payment CAPTURED at the given time; a second call at the same instant changes nothing |
| BookingsStore.Create | src/storage/bookings.ts:12-21 | the stored booking is the draft plus both timestamps and a fresh `_id`, returned as stored |
| BookingsStore.GetAllByUser | src/storage/bookings.ts:27-30 | exactly the bookings whose `user_id` is the argument, each as often as it is stored and in store order (`Common.SelectsUnique`: no other list satisfies this) |
| Common.FilterSelects | src/storage/bookings.ts:27-30 | a `find(filter).toArray()` read keeps every matching document as often as it is stored, in store order, and nothing else |
| Common.SelectsUnique | src/storage/bookings.ts:27-30 | only one list is such a selection of a collection, so every listing stated as a selection is fully determined |
| BookingsStore.UpdateStatus | src/storage/bookings.ts:32-37 | only the first booking with that `_id` changes, and only its `status` (not `modified_at`); nothing is inserted |
| BookingsStore.UpdateStatusFound | src/storage/bookings.ts:32-37 | the booking with that id is found afterwards iff it was found before, and then carries the new status and is otherwise unchanged |
| BookingsStore.SetStatusForOrder | src/controllers/payments.ts:121-123 | the abstract booking update reaches the booking through the payment found by nested order id and its `booking_id`; nothing changes without one |
| BookingsStore.SetStatusForOrderIdempotent | src/controllers/payments.ts:121-123 | setting a booking status twice is setting it once |
| PaymentsController.OrderOptions | src/controllers/payments.ts:45-49 | the gateway receives `amount * 100`; the currency defaults to INR only when absent; the receipt defaults to `rcpt_<now>` when absent or empty |
| PaymentsController.CreateOrder | src/controllers/payments.ts:29-99 | a falsy amount or a missing id gives 400 with no write; a gateway failure gives 500 with no write; 200 iff the checks, the gateway and both inserts succeed, and then one CREATED booking with the given ids and unmultiplied amount and one CREATED payment pointing at it with `razorpay = {order_id, null, null}` are appended; a failure never adds a payment |
| PaymentsController.PaymentInsertFailureOrphansBooking | src/controllers/payments.ts:54-77 | when the payment insert fails, the reply is 500, the booking insert stays, and no payment exists for it |
| PaymentsController.VerifyPayment | src/controllers/payments.ts:102-135 | 200 iff the signature equals HMAC(key secret, `order_id + "\|" + payment_id`); otherwise 400 with no write; on 200 the order's payment becomes COMPLETED with the payment id and signature stored, and its booking is set to COMPLETED; every other payment is left as it was |
| PaymentsController.VerifiedPaymentIsRefundable | src/controllers/payments.ts:110-118 | after a 200 from `verifyPayment` on a stored order, the payment id it wrote is what a `refund.created` event looks up: the lookup by payment id finds a payment, and the corrected refund handler leaves that payment's order REFUNDED |
| PaymentsController.VerifyTwiceIsOnce | src/controllers/payments.ts:102-135 | verifying the same body a second time gives the same reply and changes nothing more |
| PaymentsController.HandleCaptured | src/controllers/payments.ts:192-227 | no change when the payment found by order id is already SUCCESS; otherwise SUCCESS through `updateByOrderId` (payment id recorded, signature null) and the booking CONFIRMED |
| PaymentsController.HandleFailed | src/controllers/payments.ts:229-256 | the payments afterwards are exactly those of `updateByOrderId` with the payment details and FAILED, so the first document with that top-level order id is FAILED; the booking reached through the updated payments is CANCELLED; there is no status guard |
| PaymentsController.HandleAuthorized | src/controllers/payments.ts:258-278 | the payments afterwards are exactly those of `updateByOrderId` with the payment details and AUTHORIZED; bookings are untouched |
| PaymentsController.HandleRefund | src/controllers/payments.ts:280-306 | nothing changes when no payment carries the refunded payment id; otherwise the payments are exactly those of a status-only `updateByOrderId` to REFUNDED on that payment's nested order id, and the booking reached through them is CANCELLED |
| PaymentsController.ProcessWebhook | src/controllers/payments.ts:162-190 | each event name goes to its handler, and unknown events change nothing |
| PaymentsController.Webhook | src/controllers/payments.ts:137-160 | 200 iff the header equals HMAC(webhook secret, serialised body), and then the event is processed; otherwise 400 and nothing is processed |
| PaymentsController.WebhookNeedsSignature | src/controllers/payments.ts:142-149 | a request without the signature header is refused and nothing changes |
| PaymentsController.CapturedTwiceIsOnce | src/controllers/payments.ts:197-216 | delivering the same captured event twice equals delivering it once |
| PaymentsController.FailedTwiceIsOnce | src/controllers/payments.ts:229-256 | delivering the same failure event twice equals delivering it once |
| PaymentsController.AuthorizedTwiceIsOnce | src/controllers/payments.ts:258-278 | delivering the same authorisation event twice equals delivering it once |
| PaymentsController.RefundTwiceIsOnce | src/controllers/payments.ts:280-306 | delivering the same refund event twice equals delivering it once |
| PaymentsController.CaptureThenFailure | src/controllers/payments.ts:192-256 | a failure after a capture of the same order leaves the payment the upsert filter finds FAILED and the booking reached through it CANCELLED |
| PaymentsController.CapturedMissesCreatedPayment | src/controllers/payments.ts:204-211 | as written, a capture for an order `createOrder` stored leaves that payment unchanged and appends a second payment document |
| PaymentsController.HandleCapturedFixed | src/controllers/payments.ts:192-227 | the corrected capture patches the stored payment found by nested order id to SUCCESS and inserts nothing |
| PaymentsController.HandleFailedFixed | src/controllers/payments.ts:229-256 | the corrected failure handler sets the stored payment FAILED and inserts nothing |
| PaymentsController.HandleAuthorizedFixed | src/controllers/payments.ts:258-278 | the corrected authorisation handler sets the stored payment AUTHORIZED, inserts nothing and leaves bookings alone |
| PaymentsController.HandleRefundFixed | src/controllers/payments.ts:280-306 | the corrected refund handler sets the refunded payment REFUNDED, inserts nothing, and changes nothing when no payment matches |
| PaymentsController.ProcessWebhookFixed | src/controllers/payments.ts:162-190 | with the corrected handlers no event adds a payment, and unknown events change nothing |
| PaymentsController.CapturedReachesCreatedPayment | src/controllers/payments.ts:192-227 | with the corrected handler, the created payment itself becomes SUCCESS, no document is added, and a redelivery changes nothing |
| OtpAuth.MarkFirstWithCode | src/controllers/auth.ts:44-47 | only the first token carrying the code changes, and only its status; with no such token nothing changes |
| OtpAuth.ValidateOtp | src/controllers/auth.ts:23-50 | only the last token is examined; succeeds iff it carries the code, is ACTIVE and is not expired; "Invalid or Expired OTP" and "OTP already used or expired" write nothing; an expired code is marked EXPIRED and a redeemed one used, both through the first-token-with-the-code update |
| OtpAuth.UniqueCodeIsSpent | src/controllers/auth.ts:31-47 | when no earlier token shares the code, a redeemed code is refused the second time |
| OtpAuth.SharedCodeAllowsReplay | src/controllers/auth.ts:44-47 | as written, when an earlier token shares the latest code, the same code validates twice |
| OtpAuth.ReplayExample | src/controllers/auth.ts:44-47 | two tokens with code "1234": both validations succeed |
| OtpAuth.ValidateOtpFixed | src/controllers/auth.ts:23-50 | the corrected validation gives the same verdicts and marks the examined (last) token |
| OtpAuth.ValidatedCodeIsSpent | src/controllers/auth.ts:31-47 | with the corrected marks, a redeemed code is always refused the second time |
| OtpAuth.OtpNumber | src/controllers/auth.ts:162 | the code is between 1000 and 9999 |
| OtpAuth.FourDigits | src/controllers/auth.ts:162 | such a code prints as exactly four digits |
| OtpAuth.SendOtp | src/controllers/auth.ts:155-203 | 400 with no write without an identifier; otherwise a four-digit code, appended as an ACTIVE token to the identifier's record (which becomes ACTIVE), or stored in a new record holding exactly that token |
| OtpAuth.SentCodeIsRedeemable | src/controllers/auth.ts:164-199 | right after sending, the sent code is the identifier's latest token and is redeemable until exactly five minutes later and not after |
| OtpAuth.ResendFirstWithCode | src/controllers/auth.ts:257-265 | only the first token carrying the code changes, and only its count and expiry; with no such token nothing changes |
| OtpAuth.ResendOnTokens | src/controllers/auth.ts:241-271 | 400 with no tokens; 429 with nothing persisted iff the last token's count plus one exceeds 3; otherwise the same code is returned and the new count and now + 5 minutes are written through the first-token-with-the-code update |
| OtpAuth.ResendOtp | src/controllers/auth.ts:231-275 | 400 without an identifier and 404 without a record, both writing nothing; any non-200 writes nothing; no record is added |
| OtpAuth.UniqueCodeResendLimit | src/controllers/auth.ts:246-251 | when no earlier token shares the code, the fourth resend is refused with 429 |
| OtpAuth.SharedCodeDefeatsResendLimit | src/controllers/auth.ts:257-265 | as written, when an earlier token shares the code, a resend succeeds and leaves the last token's count untouched |
| OtpAuth.ResendOnTokensFixed | src/controllers/auth.ts:244-265 | the corrected resend gives the same replies and writes the count and expiry to the last token |
| OtpAuth.ResendLimitHolds | src/controllers/auth.ts:246-251 | with the corrected update, the fourth resend of a fresh code is always refused |
| OtpAuth.ExistingUser | src/controllers/auth.ts:56 | a user matched by mobile is preferred over one matched by email; none iff no user has either |
| OtpAuth.GetOrCreateUser | src/controllers/auth.ts:54-88 | an existing user is returned unchanged; with no user and no role the error is thrown and nothing is written; otherwise one user is appended with the role, `email` iff the identifier has '@' (else `mobile`), `email_verified` saying whether it has '@', and the name defaulting to "Guest" |
| OtpAuth.CreatedUserIsFoundAgain | src/controllers/auth.ts:56-84 | a user created for an identifier is found, unchanged, at the next login |
| OtpAuth.CreateTokens | src/controllers/auth.ts:91-121 | one ACTIVE refresh record and one ACTIVE access record pointing at it are appended for the user, both expiring 30 days after now; the returned tokens are signed with the user's id and role |
| OtpAuth.Refresh | src/controllers/auth.ts:124-148 | 200 iff an ACTIVE refresh record holds the token, else 401 with no write; on 200 one access record is appended, signed without a role and without expiry |
| OtpAuth.RefreshAcceptsCreatedToken | src/controllers/auth.ts:91-148 | a refresh token `createTokens` just stored is accepted with 200; when no earlier ACTIVE record holds the same value, the new access token is signed for the same user and its record points at the stored refresh record |
| OtpAuth.OtpLogin | src/controllers/auth.ts:207-229 | 404 and no write without a record; with one, its tokens are replaced by the marks validation makes whatever the reply, and the reply is 200 iff the latest code was redeemable and the user exists or a role is given; on 200 the user is the one found or created and the reply carries tokens signed for that user and its id, with one refresh and one access record added; every other reply adds no tokens or users |
| OtpAuth.RoleMissingStillSpendsCode | src/controllers/auth.ts:214-216 | a first login without a role fails with 400, yet the code is no longer redeemable |
| OtpAuth.LoginCodeWorksOnce | src/controllers/auth.ts:207-229 | when no earlier token shares the latest code, a code that logged in once is refused with 400 at any later time and issues no tokens |
| UsersStore.GetUserById | src/storage/user.ts:13-17 | never returns a soft-deleted user; none iff no live user has the id |
| UsersStore.ApplyPatch | src/storage/user.ts:20-28 | each field the body carries, `is_deleted` and `created_at` included, overwrites the stored value; other body keys are merged into the document; `_id` is kept and `modified_at` is now |
| UsersStore.ApplyPatchIdempotent | src/storage/user.ts:20-28 | applying the same body twice at the same instant is applying it once |
| UsersStore.UpdateUserWith | src/storage/user.ts:20-37 | an error iff no live user has the id, and then nothing changes; otherwise that user is patched and returned as it is after the update, and found again by id unless the body set `is_deleted`; no other document changes |
| UsersStore.UpdateUser | src/storage/user.ts:20-37 | a missing or soft-deleted user yields "No matching trip found to update" and no change; otherwise the patched user is returned |
| UsersStore.SelfDeleteHidesUser | src/storage/user.ts:20-37 | a body with `is_deleted: true` is accepted, after which the user is no longer found and a repeated update fails |
| UsersStore.UpdateUserFixed | src/storage/user.ts:32-34 | the corrected update throws "No matching user found to update" and otherwise behaves as written |
| UsersStore.DeletedUserUntouched | src/storage/user.ts:26-27 | a soft-deleted user is neither returned nor modified |
| UserController.GetUser | src/controllers/user.ts:15-27 | 401 without a caller id; 404 when the storage returns null; 200 iff a live user exists, with exactly that user |
| UserController.ErrorCode | src/controllers/user.ts:37-41 | 404 iff the error text contains "No matching user found", 500 otherwise |
| UserController.UpdateUserReply | src/controllers/user.ts:30-43 | 401 without a caller id; the updated document with 200; otherwise the error's code |
| UserController.UpdateUserHandler | src/controllers/user.ts:30-43 | the reply and the collection are those of the storage update, mapped by the reply rules |
| UserController.AsWrittenMessageLacksMarker | src/storage/user.ts:33 | the storage's message does not contain the controller's marker |
| UserController.MissingUserGets500 | src/controllers/user.ts:37-41 | as written, a missing or soft-deleted user gets 500, never 404 |
| UserController.UpdateUserHandlerFixed | src/controllers/user.ts:30-43 | the handler over the corrected storage update |
| UserController.MissingUserGets404 | src/controllers/user.ts:37-41 | with the corrected message, a missing user gets 404 and a live user is updated as before |
| Pagination.AtLeastOne | src/utils/pagination.ts:13-14 | NaN and 0 give the default; a negative value gives 1; a positive value is kept |
| Pagination.Window | src/utils/pagination.ts:15 | `skip = (page - 1) * limit`, never negative |
| Pagination.ParsePagination | src/utils/pagination.ts:12-18 | `page >= 1`, `limit >= 1`, `skip = (page - 1) * limit >= 0` |
| Pagination.MissingIsNaN | src/utils/pagination.ts:13 | a missing parameter parses as NaN |
| Pagination.IdeographicSpaceSkipped | src/utils/pagination.ts:13 | leading Unicode space separators are skipped: an ideographic space before "5" gives page 5 |
| Pagination.DefaultsAndClamping | src/utils/pagination.ts:13-14 | an unparseable or zero page gives 1 and limit gives 10; a negative limit gives 1; no parameters give page 1, limit 10, skip 0 |
| Pagination.ParseIntReadsDecimalPrefix | src/utils/pagination.ts:13 | `parseInt` reads the decimal text of n back as n, whatever non-digit text follows |
| Pagination.ParseIntRoundTrip | src/utils/pagination.ts:13 | `parseInt(String(x)) == x` for every integer |
| Pagination.PositivePageIsKept | src/utils/pagination.ts:13-15 | a positive page number is kept, and the skip is the items of the preceding pages |
| Roles.VendorTestMisclassifies | src/controllers/quotation.ts:33 | the written vendor test and the intended one disagree exactly on vendor tokens and on tokens without a role |
| TripsStore.Create | src/storage/trip.ts:12-19 | the stored trip has a fresh `_id` and both timestamps; the returned value lacks the stored timestamps |
| TripsStore.GetTripById | src/storage/trip.ts:33-36 | found iff some trip has the id, and the returned one has it |
| TripsStore.FindByIds | src/controllers/trip.ts:156-159 | exactly the trips whose id is listed, each as often as stored and in store order |
| TripsStore.FindByCreator | src/controllers/trip.ts:185-191 | exactly the trips whose creator is the caller's `ObjectId`, each as often as stored and in store order |
| TripsStore.AddTripView | src/controllers/trip.ts:92-94 | one view record is appended |
| WishlistStore.Create | src/storage/wishlist.ts:12-18 | one entry for the pair is appended, so the pair is listed |
| WishlistStore.FindOne | src/controllers/trip.ts:114 | found iff the pair is listed |
| WishlistStore.Delete | src/controllers/trip.ts:117 | the pair is no longer listed; every other entry is kept, in order and with its multiplicity; nothing is added |
| WishlistStore.GetAllByUser | src/storage/wishlist.ts:20-23 | exactly the user's entries, each as often as stored and in store order |
| TripController.TotalPages | src/controllers/trip.ts:53 | `ceil(total / limit)`: the pages hold every item, and one page fewer would not |
| TripController.TotalPagesCoversItems | src/controllers/trip.ts:53 | zero pages iff zero items; every item's page number is among the counted pages |
| TripController.LastPageStartsInside | src/controllers/trip.ts:53 | the last page's window starts inside the listing and reaches its end |
| TripController.GetTripsWith | src/controllers/trip.ts:34-59 | the listing source chosen by the vendor test is called with the parsed window; page count from its total |
| TripController.GetTrips | src/controllers/trip.ts:42-46 | as written, a token without a role gets the vendor listing and every other token, vendors included, gets the user listing |
| TripController.GetTripsFixed | src/controllers/trip.ts:42-46 | with the intended test, vendors get the vendor listing and everyone else the user listing |
| TripController.TripsDispatchAgreesElsewhere | src/controllers/trip.ts:42-46 | the two dispatches agree for every token that carries a role other than the vendor role |
| TripController.GetTripById | src/controllers/trip.ts:79-105 | 400 without an id, 404 for an unknown trip, both without a view logged; on 200 the trip with exactly its live quotations, each once as stored and in store order, and one view logged iff the caller has an id |
| TripController.RereadLogsEachView | src/controllers/trip.ts:79-105 | reading a trip changes only the view log: a second read returns the same trip and quotations, and with a caller each read appends its own view |
| TripController.ToggleWishlist | src/controllers/trip.ts:107-127 | "removed" iff the pair was listed; afterwards it is listed iff it was not; a removal keeps exactly the other entries, each as often and in the order they were stored; an addition appends exactly one entry for the pair under the next id and nothing else |
| TripController.ToggleTwice | src/controllers/trip.ts:114-122 | two toggles give opposite actions and restore membership, and restore the entries exactly when the pair was not listed |
| TripController.TripIdsOf | src/controllers/trip.ts:141 | the trip ids of the entries, position by position |
| TripController.WishlistedTrips | src/controllers/trip.ts:130-177 | exactly the trips the caller has wishlisted, each as often as stored and in store order, with their number as the total and the page count derived from it |
| TripController.MyCreatedTrips | src/controllers/trip.ts:178-209 | exactly the trips whose creator is the caller's `ObjectId`, each as often as stored and in store order, with their number as the total and the page count derived from it |
| TripController.TextCreatorNotListed | src/controllers/trip.ts:185 | a trip whose creator was stored as text is never among its creator's trips |
| QuotationsStore.Create | src/storage/quotation.ts:12-19 | the stored quotation has a fresh `_id` and both timestamps; the returned value is the input with the `_id` only |
| QuotationsStore.GetAllByUser | src/storage/quotation.ts:21-24 | exactly the user's quotations with `is_deleted: false`, each as often as stored and in store order |
| QuotationsStore.TripIds | src/storage/quotation.ts:44-46 | an id is listed iff some quotation holds it as `trip_id`, and never more ids than quotations |
| QuotationsStore.TripIdsCount | src/storage/quotation.ts:44-46 | each trip id is listed once per quotation holding it |
| QuotationsStore.TripIdsAppend | src/storage/quotation.ts:44-46 | the ids of concatenated quotation lists are the concatenated ids, so order follows the quotations |
| QuotationsStore.GetVendorTripIdsByStatus | src/storage/quotation.ts:27-47 | the trip ids of live quotations with the status, restricted to the vendor's own only for QUOTE_IN_PROGRESS and REJECTED; a trip id is listed once per matching quotation |
| QuotationsStore.CreateExtendsVendorTripIds | src/storage/quotation.ts:12-47 | creating a quotation appends its trip id to exactly the vendor listings whose filter it meets and leaves every other listing as it was |
| QuotationsStore.GetById | src/storage/quotation.ts:49-55 | a live quotation with the id, and the user's only when a user id is given; none iff no such quotation |
| QuotationsStore.DeleteById | src/storage/quotation.ts:57-68 | true iff a matching live quotation existed; on true one matching live quotation is flipped to deleted with `deleted_at` and `modified_at`, and no non-matching one changes; nothing changes on false |
| QuotationsStore.DeleteTwice | src/storage/quotation.ts:57-68 | a second delete returns false and changes nothing, and the quotation is no longer found |
| QuotationsStore.GetQuotationsByTripId | src/storage/quotation.ts:70-75 | exactly the trip's live quotations, each as often as stored and in store order |
| QuotationsStore.ReadsSkipDeleted | src/storage/quotation.ts:21-75 | no read returns a soft-deleted quotation |
| QuotationController.DuplicateFor | src/controllers/quotation.ts:39-45 | the copy names the caller, as text, as creator and user, keeps the trip's details and takes a new `created_at` |
| QuotationController.CreateQuotationWith | src/controllers/quotation.ts:17-68 | 404 iff the trip id is missing or unknown, with no write; otherwise one quotation holding the trip's creator, the caller as user and the role's status; a vendor or the trip's creator quotes the trip itself, anyone else a new copy of it |
| QuotationController.CreateQuotation | src/controllers/quotation.ts:17-68 | as written: QUOTE_IN_PROGRESS iff the token has no role, and `is_deleted` is whatever the body says |
| QuotationController.CreateQuotationFixed | src/controllers/quotation.ts:17-68 | as intended: QUOTE_IN_PROGRESS iff the role is the vendor role, and the quotation is live unless the body says otherwise |
| QuotationController.CreatedQuotationIsHidden | src/controllers/quotation.ts:52-62 | as written, a quotation created without `is_deleted` is not live and leaves every user's listing unchanged |
| QuotationController.CreatedQuotationIsListed | src/controllers/quotation.ts:52-62 | as intended, the new quotation is live and in the caller's listing |
| QuotationController.VendorTreatedAsTraveller | src/controllers/quotation.ts:33-48 | as written, a vendor gets REQUESTED and a role-less token QUOTE_IN_PROGRESS; the corrected handler gives a vendor QUOTE_IN_PROGRESS without duplicating the trip |
| QuotationController.RouteStatus | src/controllers/quotation.ts:78-85 | "quote" selects QUOTE_IN_PROGRESS and is checked first, "reject" selects REJECTED, anything else nothing |
| QuotationController.QuoteOrReject | src/controllers/quotation.ts:72-107 | 400 for another route and 404 for an unknown quotation, with no write; otherwise exactly one clone is appended, owned by the caller, with the route's status and fresh timestamps (the handler is not mounted by src/routes/quotation.ts) |
| QuotationController.QuoteCopyIsFound | src/controllers/quotation.ts:88-103 | the clone is found by the caller by its id with the route's status, and the original is found as before |
| QuotationController.GetUserQuotations | src/controllers/quotation.ts:110-118 | 200 with exactly the caller's live quotations, each as often as stored and in store order |
| QuotationController.GetQuotationById | src/controllers/quotation.ts:120-130 | 404 iff the caller has no live quotation with the id; otherwise 200 with that quotation |
| QuotationController.DeleteQuotationById | src/controllers/quotation.ts:132-142 | 200 iff the caller's live quotation existed, and then one such quotation is flipped to deleted with `deleted_at` and `modified_at` while no other changes; 404 changes nothing |
| QuotationController.DeleteThenDeleteAgain | src/controllers/quotation.ts:132-142 | a delete answers 200, and repeating it answers 404 and changes nothing |
| AssetsStore.ForceLive | src/storage/assets.ts:15 | the caller's `is_deleted` is replaced by false; the other filters are kept |
| AssetsStore.GetAssets | src/storage/assets.ts:13-22 | only live matching assets; the result is the run of the live matching assets (in store order) that starts at position `skip` and holds at most `limit` of them, where a zero skip or limit is not applied |
| AssetsStore.PagesTile | src/storage/assets.ts:13-22 | for non-zero n and m, a page of n followed by the next page of m is the page of n + m from the same start |
| AssetsStore.CallerCannotSeeDeleted | src/storage/assets.ts:15 | asking for deleted assets returns the same live assets |
| AssetsStore.MinOf | src/storage/assets.ts:32 | the minimum is one of the prices and no price is below it |
| AssetsStore.MaxOf | src/storage/assets.ts:33 | the maximum is one of the prices and no price is above it |
| AssetsStore.RangeForIsRange | src/storage/assets.ts:27-35 | a category's range exists iff the location has a live asset of it, and its bounds are that group's minimum and maximum price |
| AssetsStore.GetPriceRangesByLocation | src/storage/assets.ts:24-46 | one entry per category present at the location, each with that group's min and max (so min <= max), sorted by category name |
| AssetsStore.GetMinPricesForStayAndTransport | src/storage/assets.ts:48-82 | each minimum is null iff no live stay or transport matches the location, else the smallest such price |
| AssetsStore.MinPricesAgreeWithRanges | src/storage/assets.ts:48-82 | the stay and transport minimums equal the `minPrice` of those categories' ranges |
| AssetsStore.GetAssetById | src/storage/assets.ts:85-88 | never a soft-deleted asset; none iff no live asset has the id |
| AssetsStore.CreateAsset | src/storage/assets.ts:91-101 | the stored asset is live with `created_at = modified_at = now` and, when the collection's ids were distinct, is found by its new id |
| AssetsStore.Stamped | src/storage/assets.ts:112-117 | each inserted asset is live and stamped with now, with consecutive fresh ids |
| AssetsStore.BulkInsert | src/storage/assets.ts:104-121 | with `replaceAll` every existing asset is removed, even when nothing is inserted; every inserted asset is live; ids stay distinct |
| AssetsStore.PatchAsset | src/storage/assets.ts:124-131 | each field the body carries (`user_id`, `category`, `location` and the others) overwrites the stored value; `_id` is kept and `modified_at` is now |
| AssetsStore.PatchAssetIdempotent | src/storage/assets.ts:124-131 | applying the same body twice at the same instant is applying it once; an empty body only stamps `modified_at` |
| AssetsStore.UpdateAsset | src/storage/assets.ts:124-131 | null and no change iff no live asset has the id; otherwise that asset is patched and returned as it is after the update; ids stay distinct |
| AssetsStore.DeleteAsset | src/storage/assets.ts:134-141 | true iff a live asset with the id existed; on true one such asset is flipped to deleted with `deleted_at` and `modified_at`, and no other asset changes; ids stay distinct |
| AssetsStore.DeleteAssetTwice | src/storage/assets.ts:134-141 | a repeated delete returns false, and the deleted asset is neither found nor updatable |
| AssetsStore.FindDuplicate | src/storage/assets.ts:144-150 | a live asset with the same name and category; none iff there is none |
| AssetsController.ParseCategory | src/controllers/assets.ts:26 | a name is accepted iff it is one of the four category names, and it maps to the category of that name |
| AssetsController.ParseCategoryName | src/models/assets.ts:4-9 | every category's name parses back to it |
| AssetsController.BuildFilter | src/controllers/assets.ts:23-38 | rejected iff a string category upper-cases to no category name; a location filter iff the location is a string that is not blank after trimming the ECMAScript white space and line terminators |
| AssetsController.IdeographicSpaceLocationIgnored | src/controllers/assets.ts:36 | a location made only of an ideographic space adds no filter |
| AssetsController.GetAssetsByCategory | src/controllers/assets.ts:16-46 | 400 iff the category is invalid, with the allowed names; otherwise 200 with exactly the live assets matching the category and location, each as often as stored and in store order, and `count` their number |
| AssetsController.LowerCaseCategoryAccepted | src/controllers/assets.ts:24-26 | "stay" is accepted and lists only stays |
| AssetsController.BlankLocationIgnored | src/controllers/assets.ts:36 | a blank location lists what no location lists |
| AssetsController.GetAssetPriceRange | src/controllers/assets.ts:48-64 | 400 iff the location is not a non-empty string; otherwise the location's price ranges |
| AssetsController.BlankLocationIsAPattern | src/controllers/assets.ts:52 | a blank location is accepted by the price-range endpoint |
| Formatters.Entry | src/utils/formatters.ts:13-35 | an entry for a field always names that field |
| Formatters.InfoEntry | src/utils/formatters.ts:17-35 | an entry for a `trip_info` field always names that field |
| Formatters.Names | src/utils/formatters.ts:34 | the names of the places, position by position |
| Formatters.ItineraryPreferences | src/utils/formatters.ts:11-36 | one entry per field whose guard is truthy, carrying that field's text, in the order the code adds them |
| Formatters.SuggestionPreferences | src/utils/formatters.ts:83-105 | every entry is a truthy field's entry and never the places to include |
| Formatters.SuggestionsDropOnlyPlaces | src/utils/formatters.ts:83-105 | the suggested-places list is the itinerary list with the "must include places" entry removed |
| Formatters.FalsyValuesThatStillCount | src/utils/formatters.ts:14-26 | `has_kids = false` still yields "travelling with kids: no", while `days = 0` yields no duration |
| Formatters.PaceReadsPriceField | src/utils/formatters.ts:22 | the "preferred pace" entry carries `preferred_price` |
| Formatters.Rendered | src/utils/formatters.ts:13-42 | each entry is printed as `label: text`, in order |
| Formatters.DropOpeningFence | src/utils/formatters.ts:133 | removes a leading "```json" or "```" line, and nothing else |
| Formatters.DropClosingFence | src/utils/formatters.ts:133 | removes a trailing "```" line, and nothing else |
| Formatters.FencedBlockRoundTrip | src/utils/formatters.ts:133 | stripping a fenced block gives back exactly its content |
| Formatters.UnfencedTextUnchanged | src/utils/formatters.ts:133 | text without fences is left alone |
| Formatters.ExtractText | src/utils/formatters.ts:131-143 | the trimmed, unfenced text is parsed; a parse failure gives null; a string result is parsed once more |
| Formatters.FencedReplyReadsBody | src/utils/formatters.ts:131-143 | a fenced reply is read as the parse of its content |
| Formatters.TrimKeepsUnpadded | src/utils/formatters.ts:132 | trimming text without surrounding white space changes nothing |
| Text.Trim | src/controllers/assets.ts:36 | `String.prototype.trim` with the ECMAScript white-space set: the result is a slice of the input with only white space before and after it, it neither starts nor ends with white space, and it is empty exactly when the input is all white space |
| Middleware.AuthorizeRoles | src/middlewares/auth.ts:6-22 | 401 iff no user; 403 naming the role when the role is not listed; `next()` iff the user's role is listed |
| Middleware.EmptyListRefusesAll | src/middlewares/auth.ts:14-18 | an empty list refuses every user, and a token without a role is refused by every list |
| Middleware.MoreRolesAdmitMore | src/middlewares/auth.ts:14 | listing more roles never refuses a user that was admitted |
| Middleware.TokenOf | src/middlewares/auth.ts:29 | a token exists iff the header has a space, and it contains no space |
| Middleware.AuthenticateJwt | src/middlewares/auth.ts:25-37 | 401 "No token provided" iff the header is missing or empty; `next()` iff the second segment verifies, and then its claims become the user; otherwise 403 "Invalid token" |
| Middleware.TokenFollowsScheme | src/middlewares/auth.ts:29 | the token is the text after the first space |
| Middleware.SchemeIsNotChecked | src/middlewares/auth.ts:29-33 | any scheme word authenticates exactly as "Bearer" does |
| Middleware.Protect | src/middlewares/auth.ts:6-37 | a route behind both guards is reached iff the token verifies and its role is listed |
| Middleware.EntryFor | src/middlewares/validate.ts:9-16 | field errors keep path and message; any other error becomes {"unknown", "Validation error"} |
| Middleware.ErrorEntries | src/middlewares/validate.ts:8-17 | one entry per error, in order |
| Middleware.Validate | src/middlewares/validate.ts:4-21 | `next()` iff there are no errors; otherwise 400 with one mapped entry per error, in order |
| Middleware.ErrorEntriesAppend | src/middlewares/validate.ts:8-17 | mapping concatenated error lists is concatenating the mapped lists |
| Middleware.OtherKindsAreIndistinct | src/middlewares/validate.ts:16 | errors that differ only in the kind of their non-field entries get the same reply |

## Left out

- MongoDB sessions, `withTransaction` and its retries are left out. Each request is one sequential step, and the inserts of `createOrder` take no session in the code anyway.
- The webhook's processing runs after the 200 reply without being awaited. The model processes it inside the request, and a failure in it never reaches the reply.
- Exceptions thrown by the database driver, by `new ObjectId(...)` on malformed ids, and the resulting `catch` replies (500, or 400 in `createQuotation`) are modelled only where a handler itself chooses an error code. `createOrder`'s 500 on an insert failure is modelled through `InsertFault`.
- HMAC-SHA256, `JSON.stringify` of the webhook body, `JSON.parse`, JWT signing and verification, the Razorpay order call, `Math.random()`, `crypto.randomBytes` and the clock are parameters. `JWT_SECRET` and its default are part of the verifier parameter.
- Regular-expression matching of locations is the parameter `matches`. No claim is made about which patterns match.
- Case conversion is ASCII only. JavaScript's Unicode `toUpperCase` is library code.
- JavaScript numbers are unbounded integers here. Fractional amounts and prices, `NaN` prices and IEEE rounding of `amount * 100` are not modelled.
- `getAssets` sorting and the `sort` options of the trip listings are left out: no caller in the model orders results.
- `TripStorage.find` takes only a filter, so the wishlisted-trips and created-trips listings return every match. The `total` is the number of matches, because `count` is not defined in the storage.
- Storage methods the controllers call but the storage files do not define get the abstract meanings stated in their doc comments:
  - payments `update`, `findByOrderId`, `findByPaymentId`;
  - bookings `update`, `updateByOrderId`;
  - trips `getTripById`, `addTripView`, `count`, `getVendorTrips`, `getUserTrips`;
  - quotations `getQuotations`;
  - wishlist `findOne`, `delete`.
- `Helper.generateBookingId` is a parameter: src/utils/helper.ts, which the payments controller imports it from, does not define it, so it is treated like the undefined storage methods above.
- The booking status enum lacks CONFIRMED, yet the capture handler writes it. The model's booking status includes it.
- The token status enum lacks USED. The "mark used" update writes `undefined`, modelled as a missing status.
- The `!tripIds` early return of the wishlisted-trips handler cannot be taken, because `map` always returns an array. It is not modelled.
- The itinerary and suggested-places generators, `getItineraryByIdHandler`, the OpenAI and Unsplash clients and `src/utils/helper.ts` are network round trips with no decision logic.
- The prompt template text around the preference list is left out.
- `extractTextFromOpenAI` on a reply with no choices throws before its `try`. The model takes the first choice's message as its input.
- The validators behind `validate` are left out; `validate` receives their error list as input.
- Console logging is left out.
- A body value that is JSON `null` is not modelled. `Option` has only a present string or `undefined`, so `PaymentsController.JsText` never produces the text "null" that string concatenation gives in the code.
- `_id` is not a field of `UsersStore.UserPatch` or `AssetsStore.AssetPatch`. MongoDB refuses a `$set` on `_id`, and that driver error is not modelled.
- Body values of a user update are typed as the user schema types them. A body that sets a schema field to a value of another JSON type is not modelled.
- Webhook bodies are the subset type `PaymentsController.Event`. A body whose `event` names a handled event always carries that handler's payload, so a handled name with a missing payload, which throws in the code, is not modelled.
- PaymentsController.ProcessWebhookFixed: states only that no payment is added and that unknown events change nothing. The per-event effects are stated on the four corrected handlers it dispatches to.
- Formatters.SuggestionPreferences: its own contract states only soundness. Completeness and order follow from `Formatters.SuggestionsDropOnlyPlaces` together with `Formatters.ItineraryPreferences`.
- Formatters.Entry: its contract states only that an entry names its field. Which fields are truthy is stated by `Formatters.FalsyValuesThatStillCount` and `Formatters.PaceReadsPriceField` for the cases the code treats specially.

## Findings

| source | as written | input that shows it | evidently intended | confidence | as-written member | corrected member |
|---|---|---|---|---|---|---|
| src/controllers/payments.ts:204-211 | the webhook handlers update payments through `updateByOrderId`, which filters on a top-level `razorpay_order_id` with upsert, while `createOrder` stores the order id only under `razorpay.order_id` | a `payment.captured` event for an order just created by `createOrder` | the stored payment is found and updated, and nothing is inserted | not executed | PaymentsController.CapturedMissesCreatedPayment | PaymentsController.CapturedReachesCreatedPayment |
| src/storage/user.ts:33 | `updateUser` throws "No matching trip found to update", but the controller answers 404 only for messages containing "No matching user found" | a profile update by a caller whose user is soft-deleted | 404 "User not found" | not executed | UserController.MissingUserGets500 | UserController.MissingUserGets404 |
| src/controllers/auth.ts:44-47 | the "mark used" update is positional on `tokens.code`, so it marks the first token with that code, not the last one that was checked | two codes "1234" sent in a row: the same code logs in twice | the checked (last) token is marked used, so a code works once | not executed | OtpAuth.SharedCodeAllowsReplay | OtpAuth.ValidatedCodeIsSpent |
| src/controllers/auth.ts:257-265 | the resend count is written positionally to the first token with the latest code | an earlier token with the same code as the latest: the count of the latest never grows | the count is written to the last token, so the fourth resend is refused | not executed | OtpAuth.SharedCodeDefeatsResendLimit | OtpAuth.ResendLimitHolds |
| src/controllers/quotation.ts:33 | the vendor test compares with `UserRole.VENDOR`, which the enum does not define (it spells `VENDER`), so it holds only for tokens without a role | a caller whose token carries role "VENDER" | vendors get QUOTE_IN_PROGRESS and no trip copy; in the trip listing, vendors get the vendor listing | not executed | QuotationController.VendorTreatedAsTraveller | QuotationController.CreateQuotationFixed |
| src/controllers/quotation.ts:52-59 | the quotation is stored without `is_deleted`, and every read filters on `is_deleted: false` | creating a quotation from a body without `is_deleted`, then listing the caller's quotations | a new quotation is live and listed | not executed | QuotationController.CreatedQuotationIsHidden | QuotationController.CreatedQuotationIsListed |

=== FILE: assets_controller.dfy ===
/** The asset endpoints (src/controllers/assets.ts): a filtered listing and
    the price ranges of a location. A query value arrives as a string, a
    list of strings or a nested object; only strings are used. */
module AssetsController {
  import opened Common
  import opened Text
  import opened AssetsStore

  /** The category names in the enum's declaration order, which is the
      order `Object.values` lists them in. */
  const CategoryNames: seq<string> := ["STAY", "TRANSPORT", "FOOD", "EXPERIENCE"]

  /** `Object.values(AssetCategory).includes(name)`, as the category of
      that name. */
  function ParseCategory(name: string): (r: Option<AssetCategory>)
    ensures r.Some? ==> CategoryName(r.value) == name
    ensures r.None? <==> name !in CategoryNames
  {
    if name == "STAY" then Some(Stay)
    else if name == "TRANSPORT" then Some(Transport)
    else if name == "FOOD" then Some(Food)
    else if name == "EXPERIENCE" then Some(Experience)
    else None
  }

  /** Every category's name parses back to it, and the enum's values are
      exactly the category names. */
  lemma ParseCategoryName(c: AssetCategory)
    ensures ParseCategory(CategoryName(c)) == Some(c)
    ensures CategoryName(c) in CategoryNames
  {
  }

  /** The 400 message for an unknown category. */
  const InvalidCategory: string := "Invalid category. Allowed: " + Join(CategoryNames, ", ")

  /** A listing reply: 200 with the assets and their count, or 400 with an
      error message. */
  datatype ListReply = ListReply(code: int, count: nat, data: seq<Asset>, error: Option<string>)

  /** The filter built from the query: a string category is upper-cased
      and must name a category; a location is used as the pattern when it
      is a string that is not blank after trimming. `None` is the 400
      reply. */
  function BuildFilter(category: QueryParam, location: QueryParam): (r: Option<AssetQuery>)
    ensures r.None? <==> category.Text? && ToUpper(category.s) !in CategoryNames
    ensures r.Some? ==> r.value.isDeleted.None?
    ensures r.Some? ==> (r.value.category.Some? <==> category.Text?)
    ensures r.Some? && r.value.category.Some? ==> CategoryName(r.value.category.value) == ToUpper(category.s)
    ensures r.Some? ==> r.value.location == (if location.Text? && Trim(location.s) != "" then Some(location.s) else None)
  {
    var loc := if location.Text? && Trim(location.s) != "" then Some(location.s) else None;
    if category.Text? then
      match ParseCategory(ToUpper(category.s))
      case None => None
      case Some(c) => Some(AssetQuery(Some(c), loc, None))
    else Some(AssetQuery(None, loc, None))
  }

  /** The assets a listing request asks for: live ones, of the named
      category in any letter case, at the location unless it is blank. */
  function Requested(category: QueryParam, location: QueryParam, matches: Matcher): Asset -> bool
  {
    (a: Asset) =>
      && Live(a)
      && (category.Text? ==> CategoryName(a.category) == ToUpper(category.s))
      && (location.Text? && Trim(location.s) != "" ==> AtLocation(a, location.s, matches))
  }

  /** `getAssetsByCategory`: 400 for a string category that is not a
      category name in any letter case, without querying the storage;
      otherwise every live asset matching the filters, with its count. */
  function GetAssetsByCategory(s: Table<Asset>, category: QueryParam, location: QueryParam, matches: Matcher): (r: ListReply)
    ensures r.code == 400 <==> category.Text? && ToUpper(category.s) !in CategoryNames
    ensures r.code == 400 ==> r.error == Some(InvalidCategory) && r.data == []
    ensures r.code != 400 ==> r.code == 200 && r.error.None? && r.count == |r.data|
    ensures forall a :: a in r.data ==>
              && a in s.docs && Live(a)
              && (category.Text? ==> CategoryName(a.category) == ToUpper(category.s))
              && (location.Text? && Trim(location.s) != "" ==> AtLocation(a, location.s, matches))
    ensures r.code == 200 ==>
              forall j :: 0 <= j < |s.docs| && Live(s.docs[j])
                          && (category.Text? ==> CategoryName(s.docs[j].category) == ToUpper(category.s))
                          && (location.Text? && Trim(location.s) != "" ==> AtLocation(s.docs[j], location.s, matches))
                ==> s.docs[j] in r.data
    ensures r.code == 200 ==> Selects(r.data, s.docs, Requested(category, location, matches))
  {
    match BuildFilter(category, location)
    case None => ListReply(400, 0, [], Some(InvalidCategory))
    case Some(q) =>
      var data := GetAssets(s, q, 0, 0, matches);
      assert q.(isDeleted := None) == q;
      var all := Filter(s.docs, Listable(q, matches));
      assert data == all;
      FilterSelects(s.docs, Listable(q, matches));
      forall a: Asset
        ensures Listable(q, matches)(a) == Requested(category, location, matches)(a)
      {
        if q.category.Some? {
          ParseCategoryName(a.category);
        }
      }
      SelectsSameTest(data, s.docs, Listable(q, matches), Requested(category, location, matches));
      forall j | 0 <= j < |s.docs| && Live(s.docs[j])
                 && (category.Text? ==> CategoryName(s.docs[j].category) == ToUpper(category.s))
                 && (location.Text? && Trim(location.s) != "" ==> AtLocation(s.docs[j], location.s, matches))
        ensures s.docs[j] in data
      {
        if q.category.Some? {
          ParseCategoryName(s.docs[j].category);
        }
      }
      ListReply(200, |data|, data, None)
  }

  /** A location made only of Unicode space separators is blank: it adds
      no filter, as `trim()` empties it. */
  lemma IdeographicSpaceLocationIgnored(category: QueryParam)
    ensures BuildFilter(category, Text("\U{3000}")) == BuildFilter(category, Missing)
  {
    assert IsSpace("\U{3000}"[0]);
    assert Trim("\U{3000}") == "";
  }

  /** The category check ignores letter case: "stay" lists the live stays. */
  lemma LowerCaseCategoryAccepted(s: Table<Asset>, matches: Matcher)
    ensures var r := GetAssetsByCategory(s, Text("stay"), Missing, matches);
            && r.code == 200
            && forall a :: a in r.data ==> a.category == Stay
  {
    var r := GetAssetsByCategory(s, Text("stay"), Missing, matches);
    assert ToUpper("stay") == "STAY";
    forall a | a in r.data
      ensures a.category == Stay
    {
      ParseCategoryName(a.category);
    }
  }

  /** A blank location adds no filter: it lists what no location lists. */
  lemma BlankLocationIgnored(s: Table<Asset>, category: QueryParam, matches: Matcher)
    ensures GetAssetsByCategory(s, category, Text(" \t"), matches) == GetAssetsByCategory(s, category, Missing, matches)
  {
    BlankIsTrimmedAway();
    SameFilterSameListing(s, category, Text(" \t"), Missing, matches);
  }

  /** `" \t".trim()` is empty. */
  lemma BlankIsTrimmedAway()
    ensures Trim(" \t") == ""
  {
    assert " \t"[1..] == "\t" && "\t"[1..] == "";
    assert TrimStart("\t") == "";
  }

  /** The listing depends on the query only through the filter built from
      it. */
  lemma SameFilterSameListing(s: Table<Asset>, category: QueryParam, l1: QueryParam, l2: QueryParam, matches: Matcher)
    requires BuildFilter(category, l1) == BuildFilter(category, l2)
    ensures GetAssetsByCategory(s, category, l1, matches) == GetAssetsByCategory(s, category, l2, matches)
  {
  }

  /** A price-range reply: 200 with the location and its ranges, or 400. */
  datatype RangeReply = RangeReply(code: int, location: string, priceRanges: seq<PriceRange>, error: Option<string>)

  /** `getAssetPriceRange`: 400 unless the location is a non-empty string;
      otherwise the location's price range per present category, in
      category order. */
  function GetAssetPriceRange(s: Table<Asset>, location: QueryParam, matches: Matcher): (r: RangeReply)
    ensures r.code == 400 <==> !(location.Text? && location.s != "")
    ensures r.code == 400 ==> r.error == Some("location query parameter is required") && r.priceRanges == []
    ensures r.code != 400 ==>
              && r.code == 200 && r.error.None? && r.location == location.s
              && (forall c: AssetCategory :: HasGroup(s, location.s, c, matches)
                    <==> exists j :: 0 <= j < |r.priceRanges| && r.priceRanges[j].category == c)
              && (forall j :: 0 <= j < |r.priceRanges| ==> IsRangeOf(s, location.s, r.priceRanges[j], matches))
              && (forall j, k :: 0 <= j < k < |r.priceRanges| ==> Rank(r.priceRanges[j].category) < Rank(r.priceRanges[k].category))
  {
    if location.Text? && location.s != "" then
      RangeReply(200, location.s, GetPriceRangesByLocation(s, location.s, matches), None)
    else
      RangeReply(400, "", [], Some("location query parameter is required"))
  }

  /** Unlike the listing, the price ranges do not trim: a blank location
      is accepted and used as the pattern. */
  lemma BlankLocationIsAPattern(s: Table<Asset>, matches: Matcher)
    ensures GetAssetPriceRange(s, Text(" "), matches).code == 200
  {
  }
}

=== FILE: assets_store.dfy ===
/** The `assets` collection (src/storage/assets.ts) and the asset record
    (src/models/assets.ts): stays, transport, food and experiences offered
    at a place, with a price, soft-deleted through `is_deleted`.

    A location filter is a case-insensitive `$regex` on
    `location.place_name` with the caller's text as the pattern; regular
    expression matching is library code, so it is the parameter
    `matches(pattern, placeName)`. */
module AssetsStore {
  import opened Common

  /** The categories; their order is the order of their names, which is
      how `$sort: { _id: 1 }` orders the groups. */
  datatype AssetCategory = Experience | Food | Stay | Transport

  function CategoryName(c: AssetCategory): string
  {
    match c
    case Stay => "STAY"
    case Transport => "TRANSPORT"
    case Food => "FOOD"
    case Experience => "EXPERIENCE"
  }

  /** The position of a category's name in sorted order. */
  function Rank(c: AssetCategory): nat
  {
    match c
    case Experience => 0
    case Food => 1
    case Stay => 2
    case Transport => 3
  }

  /** The categories in the order of their names. */
  const SortedCategories: seq<AssetCategory> := [Experience, Food, Stay, Transport]

  datatype AssetStatus = Active | Inactive | Suspended

  /** An asset. `details` stands for the fields no operation reads
      (`description`, `type`, `images`, `tags`, the rest of `location`...). */
  datatype Asset = Asset(
    id: Id,
    userId: Id,
    name: string,
    category: AssetCategory,
    placeName: Option<string>,
    price: int,
    status: AssetStatus,
    details: string,
    isDeleted: Option<bool>,
    deletedAt: Option<Time>,
    createdAt: Option<Time>,
    modifiedAt: Option<Time>)

  function IdOf(a: Asset): Id { a.id }

  ghost predicate Valid(s: Table<Asset>)
  {
    DistinctIds(s.docs, IdOf, s.nextId)
  }

  predicate Live(a: Asset)
  {
    a.isDeleted == Some(false)
  }

  /** A case-insensitive regular-expression match of a pattern against a
      place name. */
  type Matcher = (string, string) -> bool

  /** `location.place_name` matches the location pattern. */
  predicate AtLocation(a: Asset, location: string, matches: Matcher)
  {
    a.placeName.Some? && matches(location, a.placeName.value)
  }

  /** The filter a caller hands to `getAssets`: an optional category, an
      optional location pattern and an optional `is_deleted`. */
  datatype AssetQuery = AssetQuery(category: Option<AssetCategory>, location: Option<string>, isDeleted: Option<bool>)

  /** A document matches a filter: each given field is equal. */
  predicate MatchesQuery(a: Asset, q: AssetQuery, matches: Matcher)
  {
    && (q.category.Some? ==> a.category == q.category.value)
    && (q.location.Some? ==> AtLocation(a, q.location.value, matches))
    && (q.isDeleted.Some? ==> a.isDeleted == q.isDeleted)
  }

  /** `{ ...filter, is_deleted: false }`: the caller's `is_deleted` is
      replaced. */
  function ForceLive(q: AssetQuery): (r: AssetQuery)
    ensures r.category == q.category && r.location == q.location && r.isDeleted == Some(false)
  {
    q.(isDeleted := Some(false))
  }

  /** The test `getAssets` applies to each document: the caller's filter
      with `is_deleted: false` forced. */
  function Listable(q: AssetQuery, matches: Matcher): Asset -> bool
  {
    (a: Asset) => MatchesQuery(a, ForceLive(q), matches)
  }

  /** `page` is what `skip(skip).limit(limit)` leaves of `all`: the items
      from position `skip` on, at most `limit` of them, where a zero limit
      means no limit. */
  ghost predicate IsPage(page: seq<Asset>, all: seq<Asset>, skip: nat, limit: nat)
  {
    var rest := if skip < |all| then |all| - skip else 0;
    && |page| == (if 0 < limit < rest then limit else rest)
    && forall j :: 0 <= j < |page| ==> page[j] == all[skip + j]
  }

  /** `getAssets(filter, { skip, limit })`: the live matching assets, with
      the first `skip` dropped and at most `limit` kept; a zero skip or
      limit is falsy and not applied. Sorting is left out. */
  function GetAssets(s: Table<Asset>, q: AssetQuery, skip: nat, limit: nat, matches: Matcher): (r: seq<Asset>)
    ensures forall a :: a in r ==> a in s.docs && MatchesQuery(a, q.(isDeleted := None), matches)
    ensures forall a :: a in r ==> Live(a)
    ensures limit > 0 ==> |r| <= limit
    ensures skip == 0 && limit == 0 ==>
              forall j :: 0 <= j < |s.docs| && MatchesQuery(s.docs[j], q.(isDeleted := None), matches) && Live(s.docs[j])
                ==> s.docs[j] in r
    ensures IsPage(r, Filter(s.docs, Listable(q, matches)), skip, limit)
  {
    var all := Filter(s.docs, Listable(q, matches));
    forall a | a in all
      ensures a in s.docs && MatchesQuery(a, q.(isDeleted := None), matches) && Live(a)
    {
      var j :| 0 <= j < |all| && all[j] == a;
    }
    var skipped := if skip > 0 && skip <= |all| then all[skip..] else if skip > 0 then [] else all;
    assert forall a :: a in skipped ==> a in all;
    if limit > 0 && limit < |skipped| then skipped[..limit] else skipped
  }

  /** Consecutive pages tile the listing: a page of `n` followed by the
      next page of `m` is the page of `n + m` from the same start. */
  lemma PagesTile(s: Table<Asset>, q: AssetQuery, skip: nat, n: nat, m: nat, matches: Matcher)
    requires n > 0 && m > 0
    ensures GetAssets(s, q, skip, n, matches) + GetAssets(s, q, skip + n, m, matches)
            == GetAssets(s, q, skip, n + m, matches)
  {
    var all := Filter(s.docs, Listable(q, matches));
    IsPageTiles(GetAssets(s, q, skip, n, matches), GetAssets(s, q, skip + n, m, matches),
                GetAssets(s, q, skip, n + m, matches), all, skip, n, m);
  }

  /** Pages of `n` and then `m` items concatenate to the page of `n + m`. */
  lemma IsPageTiles(a: seq<Asset>, b: seq<Asset>, c: seq<Asset>, all: seq<Asset>, skip: nat, n: nat, m: nat)
    requires n > 0 && m > 0
    requires IsPage(a, all, skip, n) && IsPage(b, all, skip + n, m) && IsPage(c, all, skip, n + m)
    ensures a + b == c
  {
    assert |a + b| == |c|;
    forall j | 0 <= j < |c|
      ensures (a + b)[j] == c[j]
    {
      if j >= |a| {
        assert b[j - |a|] == all[skip + n + (j - |a|)];
      }
    }
  }

  /** Whatever `is_deleted` the caller asks for, the same live assets come
      back: a caller cannot list deleted assets. */
  lemma CallerCannotSeeDeleted(s: Table<Asset>, q: AssetQuery, skip: nat, limit: nat, matches: Matcher)
    ensures GetAssets(s, q, skip, limit, matches) == GetAssets(s, q.(isDeleted := Some(true)), skip, limit, matches)
    ensures forall a :: a in GetAssets(s, q.(isDeleted := Some(true)), skip, limit, matches) ==> a.isDeleted != Some(true)
  {
    assert ForceLive(q) == ForceLive(q.(isDeleted := Some(true)));
  }

  /** The smallest of a non-empty sequence of prices. */
  function MinOf(xs: seq<int>): (r: int)
    requires |xs| > 0
    ensures r in xs && forall x :: x in xs ==> r <= x
  {
    if |xs| == 1 then xs[0]
    else
      var m := MinOf(xs[1..]);
      assert forall x :: x in xs[1..] ==> m <= x;
      assert forall x :: x in xs ==> x == xs[0] || x in xs[1..];
      if xs[0] <= m then xs[0] else m
  }

  /** The largest of a non-empty sequence of prices. */
  function MaxOf(xs: seq<int>): (r: int)
    requires |xs| > 0
    ensures r in xs && forall x :: x in xs ==> x <= r
  {
    if |xs| == 1 then xs[0]
    else
      var m := MaxOf(xs[1..]);
      assert forall x :: x in xs ==> x == xs[0] || x in xs[1..];
      if xs[0] >= m then xs[0] else m
  }

  /** The prices of a sequence of assets, in order. */
  function Prices(assets: seq<Asset>): (r: seq<int>)
    ensures |r| == |assets|
    ensures forall j :: 0 <= j < |assets| ==> r[j] == assets[j].price
  {
    if |assets| == 0 then [] else [assets[0].price] + Prices(assets[1..])
  }

  /** The live assets of a category at a location: one `$group` bucket. */
  function Group(s: Table<Asset>, location: string, c: AssetCategory, matches: Matcher): (r: seq<Asset>)
    ensures forall a :: a in r <==> a in s.docs && Live(a) && AtLocation(a, location, matches) && a.category == c
  {
    Filter(s.docs, (a: Asset) => Live(a) && AtLocation(a, location, matches) && a.category == c)
  }

  datatype PriceRange = PriceRange(category: AssetCategory, minPrice: int, maxPrice: int)

  /** Some live asset of category `c` is at the location. */
  ghost predicate HasGroup(s: Table<Asset>, location: string, c: AssetCategory, matches: Matcher)
  {
    exists a :: a in s.docs && Live(a) && AtLocation(a, location, matches) && a.category == c
  }

  /** `e` is the price range of its category's group: its bounds are
      prices in the group and every price in the group lies between them. */
  ghost predicate IsRangeOf(s: Table<Asset>, location: string, e: PriceRange, matches: Matcher)
  {
    && e.minPrice <= e.maxPrice
    && (exists a :: a in Group(s, location, e.category, matches) && a.price == e.minPrice)
    && (exists a :: a in Group(s, location, e.category, matches) && a.price == e.maxPrice)
    && (forall a :: a in Group(s, location, e.category, matches) ==> e.minPrice <= a.price <= e.maxPrice)
  }

  /** The `$group` stage for one category: no entry for an empty group,
      otherwise the least and greatest price among the group. */
  function RangeFor(s: Table<Asset>, location: string, c: AssetCategory, matches: Matcher): (r: Option<PriceRange>)
    ensures r.Some? ==> r.value.category == c
  {
    var grp := Group(s, location, c, matches);
    if |grp| == 0 then None
    else
      var g := Prices(grp);
      Some(PriceRange(c, MinOf(g), MaxOf(g)))
  }

  /** A category has an entry exactly when its group is non-empty, and the
      entry's bounds are the least and greatest price of the group. */
  lemma RangeForIsRange(s: Table<Asset>, location: string, c: AssetCategory, matches: Matcher)
    ensures var r := RangeFor(s, location, c, matches);
            && (r.Some? <==> HasGroup(s, location, c, matches))
            && (r.Some? ==> IsRangeOf(s, location, r.value, matches))
  {
    var grp := Group(s, location, c, matches);
    if |grp| == 0 {
      assert !HasGroup(s, location, c, matches);
    } else {
      var g := Prices(grp);
      var lo, hi := MinOf(g), MaxOf(g);
      assert grp[0] in grp;
      var i :| 0 <= i < |g| && g[i] == lo;
      assert grp[i] in grp;
      var k :| 0 <= k < |g| && g[k] == hi;
      assert grp[k] in grp;
      forall a | a in grp
        ensures lo <= a.price <= hi
      {
        var m :| 0 <= m < |grp| && grp[m] == a;
        assert g[m] in g;
      }
    }
  }

  /** Collecting per-category entries over the categories in name order
      gives one entry per present category, sorted by name. */
  lemma CollectByCategory(f: AssetCategory -> Option<PriceRange>)
    requires forall c :: f(c).Some? ==> f(c).value.category == c
    ensures var r := Collect(SortedCategories, f);
            && (forall j :: 0 <= j < |r| ==> f(r[j].category) == Some(r[j]))
            && (forall c :: f(c).Some? <==> exists j :: 0 <= j < |r| && r[j].category == c)
            && (forall j, k :: 0 <= j < k < |r| ==> Rank(r[j].category) < Rank(r[k].category))
  {
    CollectByKey(SortedCategories, f, (e: PriceRange) => e.category, Rank);
  }

  /** `r` lists the price range of exactly the categories present at the
      location, each computed from its own group, in category-name order. */
  ghost predicate PriceRangesOf(s: Table<Asset>, location: string, r: seq<PriceRange>, matches: Matcher)
  {
    && (forall c: AssetCategory :: HasGroup(s, location, c, matches) <==> exists j :: 0 <= j < |r| && r[j].category == c)
    && (forall j :: 0 <= j < |r| ==> RangeFor(s, location, r[j].category, matches) == Some(r[j]))
    && (forall j :: 0 <= j < |r| ==> IsRangeOf(s, location, r[j], matches))
    && (forall j, k :: 0 <= j < k < |r| ==> Rank(r[j].category) < Rank(r[k].category))
  }

  /** `RangeFor` at one location, as a function of the category. */
  function RangesBy(s: Table<Asset>, location: string, matches: Matcher): (r: AssetCategory -> Option<PriceRange>)
    ensures forall c :: r(c) == RangeFor(s, location, c, matches)
  {
    (c: AssetCategory) => RangeFor(s, location, c, matches)
  }

  /** Collecting the categories' `RangeFor` entries gives the price
      ranges of exactly the present categories, in name order. */
  lemma CollectRanges(s: Table<Asset>, location: string, matches: Matcher)
    ensures PriceRangesOf(s, location, Collect(SortedCategories, RangesBy(s, location, matches)), matches)
  {
    var f := RangesBy(s, location, matches);
    CollectByCategory(f);
    var r := Collect(SortedCategories, f);
    forall c: AssetCategory
      ensures HasGroup(s, location, c, matches) <==> exists j :: 0 <= j < |r| && r[j].category == c
    {
      RangeForIsRange(s, location, c, matches);
      assert f(c) == RangeFor(s, location, c, matches);
    }
    forall j | 0 <= j < |r|
      ensures RangeFor(s, location, r[j].category, matches) == Some(r[j])
      ensures IsRangeOf(s, location, r[j], matches)
    {
      assert f(r[j].category) == Some(r[j]);
      RangeForIsRange(s, location, r[j].category, matches);
    }
  }

  /** `getPriceRangesByLocation(location)`: one entry per category that
      has a live asset at the location, with the least and greatest price of
      that category, ordered by category name. */
  function GetPriceRangesByLocation(s: Table<Asset>, location: string, matches: Matcher): (r: seq<PriceRange>)
    ensures PriceRangesOf(s, location, r, matches)
  {
    CollectRanges(s, location, matches);
    Collect(SortedCategories, RangesBy(s, location, matches))
  }

  /** The result of `getMinPricesForStayAndTransport`: `None` is `null`. */
  datatype MinPrices = MinPrices(stayMinPrice: Option<int>, transportMinPrice: Option<int>)

  /** `getMinPricesForStayAndTransport(location)`: each minimum is null
      unless the location has a live asset of that category. */
  function GetMinPricesForStayAndTransport(s: Table<Asset>, location: string, matches: Matcher): (r: MinPrices)
    ensures r.stayMinPrice.None? <==> !HasGroup(s, location, Stay, matches)
    ensures r.transportMinPrice.None? <==> !HasGroup(s, location, Transport, matches)
    ensures r.stayMinPrice.Some? ==>
              && (exists a :: a in Group(s, location, Stay, matches) && a.price == r.stayMinPrice.value)
              && (forall a :: a in Group(s, location, Stay, matches) ==> r.stayMinPrice.value <= a.price)
    ensures r.transportMinPrice.Some? ==>
              && (exists a :: a in Group(s, location, Transport, matches) && a.price == r.transportMinPrice.value)
              && (forall a :: a in Group(s, location, Transport, matches) ==> r.transportMinPrice.value <= a.price)
  {
    var stay, transport := RangeFor(s, location, Stay, matches), RangeFor(s, location, Transport, matches);
    RangeForIsRange(s, location, Stay, matches);
    RangeForIsRange(s, location, Transport, matches);
    MinPrices(if stay.None? then None else Some(stay.value.minPrice),
              if transport.None? then None else Some(transport.value.minPrice))
  }

  /** The two aggregations agree: each minimum is the `minPrice` of its
      category's price range. */
  lemma MinPricesAgreeWithRanges(s: Table<Asset>, location: string, matches: Matcher, j: nat)
    requires var r := GetPriceRangesByLocation(s, location, matches);
             j < |r| && (r[j].category == Stay || r[j].category == Transport)
    ensures var e := GetPriceRangesByLocation(s, location, matches)[j];
            var m := GetMinPricesForStayAndTransport(s, location, matches);
            (if e.category == Stay then m.stayMinPrice else m.transportMinPrice) == Some(e.minPrice)
  {
  }

  /** `getAssetById(id)`: the live asset with that `_id`. */
  function GetAssetById(s: Table<Asset>, id: Id): (r: Option<Asset>)
    ensures r.Some? ==> r.value in s.docs && r.value.id == id && Live(r.value)
    ensures r.None? <==> forall j :: 0 <= j < |s.docs| ==> !(s.docs[j].id == id && Live(s.docs[j]))
  {
    FindFirst(s.docs, (a: Asset) => a.id == id && Live(a))
  }

  /** `createAsset(data)`: stores the data live, with both timestamps
      `now`, and returns the stored document, timestamps included. */
  function CreateAsset(s: Table<Asset>, data: Asset, now: Time): (r: (Table<Asset>, Asset))
    ensures r.0.docs == s.docs + [r.1] && r.0.nextId == s.nextId + 1
    ensures r.1.id == s.nextId && Live(r.1)
    ensures r.1.createdAt == r.1.modifiedAt == Some(now)
    ensures r.1.(id := data.id, isDeleted := data.isDeleted, createdAt := data.createdAt, modifiedAt := data.modifiedAt) == data
    ensures GetAssetById(r.0, r.1.id) == Some(r.1) || !Valid(s)
    ensures Valid(s) ==> Valid(r.0)
  {
    var doc := data.(id := s.nextId, isDeleted := Some(false), createdAt := Some(now), modifiedAt := Some(now));
    AppendFresh(s.docs, IdOf, s.nextId, doc);
    var docs := s.docs + [doc];
    assert FindFirst(docs, (a: Asset) => a.id == doc.id && Live(a)) == Some(doc) || !Valid(s) by {
      if Valid(s) {
        assert forall j :: 0 <= j < |s.docs| ==> docs[j].id != doc.id;
        assert docs[|s.docs|] == doc && Live(doc);
        assert FirstMatch(docs, (a: Asset) => a.id == doc.id && Live(a)) == Some(|s.docs|);
      }
    }
    (Table(docs, s.nextId + 1), doc)
  }

  /** The documents `bulkInsert` adds for `assets`, from id `next` on. */
  function Stamped(assets: seq<Asset>, next: nat, now: Time): (r: seq<Asset>)
    ensures |r| == |assets|
    ensures forall j :: 0 <= j < |assets| ==>
              r[j] == assets[j].(id := next + j, isDeleted := Some(false), createdAt := Some(now), modifiedAt := Some(now))
  {
    if |assets| == 0 then []
    else [assets[0].(id := next, isDeleted := Some(false), createdAt := Some(now), modifiedAt := Some(now))]
         + Stamped(assets[1..], next + 1, now)
  }

  /** The stamped documents appended to a collection are live and created
      at `now`. */
  lemma StampedLive(base: seq<Asset>, assets: seq<Asset>, next: nat, now: Time)
    ensures var docs := base + Stamped(assets, next, now);
            forall j :: |base| <= j < |docs| ==> Live(docs[j]) && docs[j].createdAt == Some(now)
  {
    var added := Stamped(assets, next, now);
    var docs := base + added;
    forall j | |base| <= j < |docs|
      ensures Live(docs[j]) && docs[j].createdAt == Some(now)
    {
      assert docs[j] == added[j - |base|];
    }
  }

  /** Stamping a batch with the ids from `next` on keeps the ids of a
      collection below `next` distinct. */
  lemma StampedFresh(base: seq<Asset>, assets: seq<Asset>, next: nat, now: Time)
    requires DistinctIds(base, IdOf, next)
    ensures DistinctIds(base + Stamped(assets, next, now), IdOf, next + |assets|)
  {
    var docs := base + Stamped(assets, next, now);
    forall i | 0 <= i < |docs|
      ensures IdOf(docs[i]) < next + |assets|
    {
      if i < |base| { assert docs[i] == base[i]; } else { assert IdOf(docs[i]) == next + (i - |base|); }
    }
    forall i, j | 0 <= i < j < |docs|
      ensures IdOf(docs[i]) != IdOf(docs[j])
    {
      assert IdOf(docs[j]) >= next || j < |base|;
      if j < |base| {
        assert docs[i] == base[i] && docs[j] == base[j];
      } else if i < |base| {
        assert docs[i] == base[i];
      }
    }
  }

  /** `bulkInsert(assets, replaceAll)`: with `replaceAll` every existing
      asset is removed first, even when nothing is inserted; each inserted
      asset is live with both timestamps `now`. */
  function BulkInsert(s: Table<Asset>, assets: seq<Asset>, replaceAll: bool, now: Time): (r: Table<Asset>)
    ensures replaceAll ==> r.docs == Stamped(assets, s.nextId, now)
    ensures !replaceAll ==> r.docs == s.docs + Stamped(assets, s.nextId, now)
    ensures r.nextId == s.nextId + |assets|
    ensures forall j :: |r.docs| - |assets| <= j < |r.docs| ==> Live(r.docs[j]) && r.docs[j].createdAt == Some(now)
    ensures replaceAll && |assets| == 0 ==> r.docs == []
    ensures Valid(s) ==> Valid(r)
  {
    var base := if replaceAll then [] else s.docs;
    StampedInto(base, assets, s.nextId, now);
    if |assets| == 0 then Table(base, s.nextId)
    else Table(base + Stamped(assets, s.nextId, now), s.nextId + |assets|)
  }

  /** What appending a stamped batch to `base` gives: the batch is live and
      created at `now`, and ids stay distinct. */
  lemma StampedInto(base: seq<Asset>, assets: seq<Asset>, next: nat, now: Time)
    ensures var docs := base + Stamped(assets, next, now);
            && (forall j :: |base| <= j < |docs| ==> Live(docs[j]) && docs[j].createdAt == Some(now))
            && (DistinctIds(base, IdOf, next) ==> DistinctIds(docs, IdOf, next + |assets|))
            && (|assets| == 0 ==> docs == base)
  {
    StampedLive(base, assets, next, now);
    if DistinctIds(base, IdOf, next) {
      StampedFresh(base, assets, next, now);
    }
    if |assets| == 0 {
      assert base + Stamped(assets, next, now) == base;
    }
  }

  /** The fields a caller may set through `updateAsset` (a
      `Partial<IAsset>`): every stored field but `_id`, which MongoDB does
      not let a `$set` change. `location` replaces the whole sub-document,
      so it carries the new `place_name`, which may be absent; `details`
      stands for the fields no operation reads, set together. */
  datatype AssetPatch = AssetPatch(
    userId: Option<Id>,
    name: Option<string>,
    category: Option<AssetCategory>,
    location: Option<Option<string>>,
    price: Option<int>,
    status: Option<AssetStatus>,
    details: Option<string>,
    isDeleted: Option<bool>,
    deletedAt: Option<Option<Time>>,
    createdAt: Option<Time>)

  /** The document after `$set: { ...data, modified_at: now }`: each field
      the body carries takes its value, `modified_at` is always `now`
      (the spread comes first), and `_id` never changes. */
  function PatchAsset(a: Asset, d: AssetPatch, now: Time): (r: Asset)
    ensures r.id == a.id && r.modifiedAt == Some(now)
    ensures r.userId == (if d.userId.Some? then d.userId.value else a.userId)
    ensures r.name == (if d.name.Some? then d.name.value else a.name)
    ensures r.category == (if d.category.Some? then d.category.value else a.category)
    ensures r.placeName == (if d.location.Some? then d.location.value else a.placeName)
    ensures r.price == (if d.price.Some? then d.price.value else a.price)
    ensures r.status == (if d.status.Some? then d.status.value else a.status)
    ensures r.details == (if d.details.Some? then d.details.value else a.details)
    ensures r.isDeleted == (if d.isDeleted.Some? then d.isDeleted else a.isDeleted)
    ensures r.deletedAt == (if d.deletedAt.Some? then d.deletedAt.value else a.deletedAt)
    ensures r.createdAt == (if d.createdAt.Some? then d.createdAt else a.createdAt)
  {
    Asset(a.id, SetOr(d.userId, a.userId), SetOr(d.name, a.name), SetOr(d.category, a.category),
          SetOr(d.location, a.placeName), SetOr(d.price, a.price), SetOr(d.status, a.status),
          SetOr(d.details, a.details), if d.isDeleted.Some? then d.isDeleted else a.isDeleted,
          SetOr(d.deletedAt, a.deletedAt), if d.createdAt.Some? then d.createdAt else a.createdAt, Some(now))
  }

  /** One `$set` field: the body's value when it carries one. */
  function SetOr<T>(patch: Option<T>, before: T): T
  {
    if patch.Some? then patch.value else before
  }

  /** Applying the same body twice at the same instant is applying it once;
      an empty body only stamps `modified_at`. */
  lemma PatchAssetIdempotent(a: Asset, d: AssetPatch, now: Time)
    ensures PatchAsset(PatchAsset(a, d, now), d, now) == PatchAsset(a, d, now)
    ensures PatchAsset(a, AssetPatch(None, None, None, None, None, None, None, None, None, None), now)
            == a.(modifiedAt := Some(now))
  {
  }

  /** `updateAsset(id, data)`: patches the live asset with that id and
      returns it as it is after the update; null and no change otherwise. */
  function UpdateAsset(s: Table<Asset>, id: Id, d: AssetPatch, now: Time): (r: (Table<Asset>, Option<Asset>))
    ensures r.1.None? <==> GetAssetById(s, id).None?
    ensures r.1.None? ==> r.0 == s
    ensures r.1.Some? ==> r.1.value == PatchAsset(GetAssetById(s, id).value, d, now) && r.1.value in r.0.docs
    ensures r.0.nextId == s.nextId && |r.0.docs| == |s.docs|
    ensures forall j :: 0 <= j < |s.docs| ==> r.0.docs[j] == s.docs[j] || (s.docs[j].id == id && Live(s.docs[j]))
  ensures Valid(s) ==> Valid(r.0)
  {
    match FirstMatch(s.docs, (a: Asset) => a.id == id && Live(a))
    case None => (s, None)
    case Some(i) =>
      var u := PatchAsset(s.docs[i], d, now);
      var docs := s.docs[i := u];
      assert docs[i] == u;
      ReplaceSameId(s.docs, IdOf, s.nextId, i, u);
      (Table(docs, s.nextId), Some(u))
  }

  /** `deleteAsset(id)`: flips the live asset with that id to deleted;
      true exactly when one was flipped. */
  function DeleteAsset(s: Table<Asset>, id: Id, now: Time): (r: (Table<Asset>, bool))
    ensures r.1 <==> GetAssetById(s, id).Some?
    ensures !r.1 ==> r.0 == s
    ensures r.0.nextId == s.nextId && |r.0.docs| == |s.docs|
    ensures r.1 ==> exists j :: 0 <= j < |s.docs| && s.docs[j].id == id && Live(s.docs[j])
                                && r.0.docs[j] == s.docs[j].(isDeleted := Some(true), deletedAt := Some(now), modifiedAt := Some(now))
    ensures forall j :: 0 <= j < |s.docs| ==>
              r.0.docs[j] == s.docs[j]
              || (s.docs[j].id == id && Live(s.docs[j])
                  && r.0.docs[j] == s.docs[j].(isDeleted := Some(true), deletedAt := Some(now), modifiedAt := Some(now)))
    ensures Valid(s) ==> Valid(r.0)
  {
    match FirstMatch(s.docs, (a: Asset) => a.id == id && Live(a))
    case None => (s, false)
    case Some(i) =>
      var gone := s.docs[i].(isDeleted := Some(true), deletedAt := Some(now), modifiedAt := Some(now));
      ReplaceSameId(s.docs, IdOf, s.nextId, i, gone);
      (Table(s.docs[i := gone], s.nextId), true)
  }

  /** A repeated delete returns false, and a deleted asset is not found. */
  lemma DeleteAssetTwice(s: Table<Asset>, id: Id, now: Time, later: Time)
    requires Valid(s)
    ensures var (s1, _) := DeleteAsset(s, id, now);
            && DeleteAsset(s1, id, later) == (s1, false)
            && GetAssetById(s1, id).None?
            && UpdateAsset(s1, id, AssetPatch(None, None, None, None, None, None, None, Some(false), None, None), later) == (s1, None)
  {
    var (s1, ok) := DeleteAsset(s, id, now);
    if ok {
      var i := FirstMatch(s.docs, (a: Asset) => a.id == id && Live(a)).value;
      forall j | 0 <= j < |s1.docs|
        ensures !(s1.docs[j].id == id && Live(s1.docs[j]))
      {
        if j != i {
          assert s.docs[j].id != s.docs[i].id;
        }
      }
    }
  }

  /** `findDuplicate(asset)`: a live asset with the same name and
      category. */
  function FindDuplicate(s: Table<Asset>, asset: Asset): (r: Option<Asset>)
    ensures r.Some? ==> r.value in s.docs && r.value.name == asset.name && r.value.category == asset.category && Live(r.value)
    ensures r.None? <==> forall j :: 0 <= j < |s.docs| ==>
              !(s.docs[j].name == asset.name && s.docs[j].category == asset.category && Live(s.docs[j]))
  {
    FindFirst(s.docs, (a: Asset) => a.name == asset.name && a.category == asset.category && Live(a))
  }
}

=== FILE: bookings_store.dfy ===
/** The `bookings` collection (src/storage/bookings.ts) and the booking
    record (src/models/bookings.ts).

    The booking status enum of src/models/bookings.ts has no CONFIRMED
    member, yet the webhook handler writes `BookingStatus.CONFIRMED`; the
    model's status includes it. The controller also calls `update` and
    `updateByOrderId` on this storage, which src/storage/bookings.ts does not
    define; both are given one abstract meaning, `SetStatusForOrder`: the
    booking is reached through the first payment whose nested
    `razorpay.order_id` is the order id, via that payment's `booking_id`. */
module BookingsStore {
  import opened Common
  import PaymentsStore

  datatype BookingStatus = Created | Reserved | Confirmed | Completed | Cancelled

  datatype Booking = Booking(
    id: Id,
    userId: Option<Id>,
    tripId: Option<Id>,
    quotationId: Option<Id>,
    bookingCode: Option<string>,
    amount: Option<int>,
    status: Option<BookingStatus>,
    createdAt: Option<Time>,
    modifiedAt: Option<Time>)

  /** The fields `createOrder` hands to `create`. */
  datatype BookingDraft = BookingDraft(
    userId: Id, tripId: Id, quotationId: Id, bookingCode: string, amount: int, status: BookingStatus)

  type Store = Table<Booking>

  function IdOf(b: Booking): Id { b.id }

  ghost predicate Valid(s: Store)
  {
    DistinctIds(s.docs, IdOf, s.nextId)
  }

  /** `create(data)`: stores the draft with both timestamps set to `now` and
      returns the stored document with its new `_id`. It takes no session,
      so the insert is never part of a caller's transaction. */
  function Create(s: Store, d: BookingDraft, now: Time): (r: (Store, Booking))
    ensures r.0.docs == s.docs + [r.1] && r.0.nextId == s.nextId + 1
    ensures r.1.id == s.nextId
    ensures r.1.userId == Some(d.userId) && r.1.tripId == Some(d.tripId)
    ensures r.1.quotationId == Some(d.quotationId) && r.1.bookingCode == Some(d.bookingCode)
    ensures r.1.amount == Some(d.amount) && r.1.status == Some(d.status)
    ensures r.1.createdAt == Some(now) && r.1.modifiedAt == Some(now)
    ensures Valid(s) ==> Valid(r.0) && forall b :: b in s.docs ==> b.id != r.1.id
  {
    var doc := Booking(s.nextId, Some(d.userId), Some(d.tripId), Some(d.quotationId), Some(d.bookingCode),
                       Some(d.amount), Some(d.status), Some(now), Some(now));
    AppendFresh(s.docs, IdOf, s.nextId, doc);
    (Table(s.docs + [doc], s.nextId + 1), doc)
  }

  /** `getAllByUser(user_id)`: the user's bookings, in store order. */
  function GetAllByUser(s: Store, userId: Id): (r: seq<Booking>)
    ensures forall b :: b in r ==> b in s.docs && b.userId == Some(userId)
    ensures forall j :: 0 <= j < |s.docs| && s.docs[j].userId == Some(userId) ==> s.docs[j] in r
    ensures Selects(r, s.docs, OfUser(userId))
  {
    FilterSelects(s.docs, OfUser(userId));
    Filter(s.docs, OfUser(userId))
  }

  /** The filter `{ user_id }`. */
  function OfUser(userId: Id): Booking -> bool
  {
    (b: Booking) => b.userId == Some(userId)
  }

  /** `updateStatus(bookingId, status)`: sets only `status` (not even
      `modified_at`) on the booking with that `_id`; no upsert. */
  function UpdateStatus(s: Store, bookingId: Id, status: BookingStatus): (r: Store)
    ensures r.nextId == s.nextId && |r.docs| == |s.docs|
    ensures Valid(s) ==> Valid(r)
    ensures forall j {:trigger r.docs[j]} :: 0 <= j < |s.docs| ==>
              if s.docs[j].id == bookingId && (forall k :: 0 <= k < j ==> s.docs[k].id != bookingId)
              then r.docs[j] == s.docs[j].(status := Some(status))
              else r.docs[j] == s.docs[j]
  {
    Table(UpdateFirst(s.docs, HasId(bookingId), (b: Booking) => b.(status := Some(status))), s.nextId)
  }

  /** The filter `{ _id: bookingId }`. */
  function HasId(bookingId: Id): Booking -> bool
  {
    (b: Booking) => b.id == bookingId
  }

  /** After `updateStatus`, the booking with that id is found exactly when
      it was before, and carries the new status. */
  lemma UpdateStatusFound(s: Store, bookingId: Id, status: BookingStatus)
    ensures var before := FindOne(s, HasId(bookingId));
            var after := FindOne(UpdateStatus(s, bookingId, status), HasId(bookingId));
            && (before.None? <==> after.None?)
            && (before.Some? ==> after == Some(before.value.(status := Some(status))))
  {
    var r := UpdateStatus(s, bookingId, status);
    var p := HasId(bookingId);
    if FirstMatch(s.docs, p).Some? {
      var i := FirstMatch(s.docs, p).value;
      assert forall j :: 0 <= j < i ==> r.docs[j] == s.docs[j];
      FirstMatchAt(r.docs, p, i);
    }
  }

  /** `update(orderId, data)` and `updateByOrderId(orderId, data)` (abstract):
      set `status` on the booking referenced by the first payment whose
      nested order id is `orderId`; nothing changes when there is no such
      payment or it has no `booking_id`. */
  function SetStatusForOrder(s: Store, payments: PaymentsStore.Store, orderId: Option<string>, status: BookingStatus): (r: Store)
    ensures r.nextId == s.nextId && |r.docs| == |s.docs|
    ensures Valid(s) ==> Valid(r)
    ensures var p := PaymentsStore.FindByOrderId(payments, orderId);
            if p.Some? && p.value.bookingId.Some? then r == UpdateStatus(s, p.value.bookingId.value, status)
            else r == s
  {
    var p := PaymentsStore.FindByOrderId(payments, orderId);
    if p.Some? && p.value.bookingId.Some? then UpdateStatus(s, p.value.bookingId.value, status) else s
  }

  /** Setting a status twice is setting it once. */
  lemma SetStatusForOrderIdempotent(s: Store, payments: PaymentsStore.Store, orderId: Option<string>, status: BookingStatus)
    ensures SetStatusForOrder(SetStatusForOrder(s, payments, orderId, status), payments, orderId, status)
            == SetStatusForOrder(s, payments, orderId, status)
  {
    var p := PaymentsStore.FindByOrderId(payments, orderId);
    if p.Some? && p.value.bookingId.Some? {
      UpdateStatusIdempotent(s, p.value.bookingId.value, status);
    }
  }

  /** Setting a booking's status twice is setting it once. */
  lemma UpdateStatusIdempotent(s: Store, bookingId: Id, status: BookingStatus)
    ensures UpdateStatus(UpdateStatus(s, bookingId, status), bookingId, status) == UpdateStatus(s, bookingId, status)
  {
    UpdateFirstIdempotent(s.docs, HasId(bookingId), (b: Booking) => b.(status := Some(status)));
  }
}

=== FILE: common.dfy ===
/** Shared vocabulary of the model: optional values, document ids, clock
    readings, query-string values, and the first-match / filter semantics that
    every MongoDB collection in the system relies on. A collection is a
    sequence in natural (insertion) order; `findOne` and `updateOne` act on the
    first document the filter matches. */
module Common {

  /** A JavaScript value that may be `undefined`/`null`. */
  datatype Option<+T> = None | Some(value: T)

  /** The outcome of an operation that may throw: the value, or the thrown
      error's message. */
  datatype Result<+T> = Ok(value: T) | Err(error: string)

  /** Stands for a MongoDB `ObjectId`. */
  type Id = nat

  /** Milliseconds since the epoch, as `Date.now()` returns them. */
  type Time = int

  /** A value of `req.query`: absent, one string, a repeated parameter
      (an array of strings) or a nested object (`a[b]=c`). */
  datatype QueryParam = Missing | Text(s: string) | Many(items: seq<string>) | Nested

  /** A collection whose documents are stored as they are inserted, with
      the id the next insert receives. */
  datatype Table<T> = Table(docs: seq<T>, nextId: nat)

  /** `collection.findOne(filter)`: the first document matching the
      filter, or null. */
  function FindOne<T>(s: Table<T>, filter: T -> bool): (r: Option<T>)
    ensures r.Some? <==> exists j :: 0 <= j < |s.docs| && filter(s.docs[j])
    ensures r.Some? ==> r.value in s.docs && filter(r.value)
    ensures r.Some? ==> exists j :: 0 <= j < |s.docs| && s.docs[j] == r.value && filter(s.docs[j])
                                    && forall k :: 0 <= k < j ==> !filter(s.docs[k])
  {
    match FirstMatch(s.docs, filter)
    case None => None
    case Some(i) => FirstMatchAt(s.docs, filter, i); Some(s.docs[i])
  }

  /** A JavaScript string value is truthy: present and non-empty. */
  predicate Truthy(v: Option<string>)
  {
    v.Some? && v.value != ""
  }

  /** Index of the first element satisfying `p`. */
  function FirstMatch<T>(s: seq<T>, p: T -> bool): (r: Option<nat>)
    ensures r.Some? ==> r.value < |s| && p(s[r.value])
    ensures r.Some? ==> forall j :: 0 <= j < r.value ==> !p(s[j])
    ensures r.None? ==> forall j :: 0 <= j < |s| ==> !p(s[j])
  {
    if |s| == 0 then None
    else if p(s[0]) then Some(0)
    else match FirstMatch(s[1..], p)
      case None => None
      case Some(k) => Some(k + 1)
  }

  /** Replacing the first match with another matching element leaves it
      the first match. */
  lemma FirstMatchKept<T>(s: seq<T>, p: T -> bool, i: nat, x: T)
    requires FirstMatch(s, p) == Some(i) && p(x)
    ensures FirstMatch(s[i := x], p) == Some(i)
  {
    if i > 0 {
      assert s[i := x][1..] == s[1..][i - 1 := x];
      FirstMatchKept(s[1..], p, i - 1, x);
    }
  }

  /** `findOne(filter)`: the first element satisfying `p`, or null. */
  function FindFirst<T>(s: seq<T>, p: T -> bool): (r: Option<T>)
    ensures r.Some? <==> exists j :: 0 <= j < |s| && p(s[j])
    ensures r.Some? ==> r.value in s && p(r.value)
  {
    match FirstMatch(s, p)
    case None => None
    case Some(i) => Some(s[i])
  }

  /** The first match is the only index that matches with no match
      before it. */
  lemma {:induction false} FirstMatchAt<T>(s: seq<T>, p: T -> bool, i: nat)
    requires i < |s| && p(s[i])
    requires forall j :: 0 <= j < i ==> !p(s[j])
    ensures FirstMatch(s, p) == Some(i)
  {
    if i > 0 {
      assert !p(s[0]);
      FirstMatchAt(s[1..], p, i - 1);
    }
  }

  /** Appending a match to a sequence with none makes it the first. */
  lemma FirstMatchAppended<T>(a: seq<T>, x: T, p: T -> bool)
    requires FirstMatch(a, p) == None && p(x)
    ensures FirstMatch(a + [x], p) == Some(|a|)
  {
    assert forall j :: 0 <= j < |a| ==> (a + [x])[j] == a[j];
    FirstMatchAt(a + [x], p, |a|);
  }

  /** Appending after a match does not move the first match. */
  lemma FindFirstAppend<T>(a: seq<T>, b: seq<T>, p: T -> bool)
    requires FirstMatch(a, p).Some?
    ensures FirstMatch(a + b, p) == FirstMatch(a, p)
    ensures FindFirst(a + b, p) == FindFirst(a, p)
  {
    var i := FirstMatch(a, p).value;
    assert (a + b)[i] == a[i];
    assert forall j :: 0 <= j < i ==> (a + b)[j] == a[j];
    FirstMatchAt(a + b, p, i);
  }

  /** `updateOne(filter, update)` without upsert: `f` is applied to the first
      element satisfying `p`; nothing happens when none does. */
  function UpdateFirst<T>(s: seq<T>, p: T -> bool, f: T -> T): (r: seq<T>)
    ensures |r| == |s|
    ensures FirstMatch(s, p).None? ==> r == s
    ensures FirstMatch(s, p).Some? ==>
              r == s[FirstMatch(s, p).value := f(s[FirstMatch(s, p).value])]
  {
    match FirstMatch(s, p)
    case None => s
    case Some(i) => s[i := f(s[i])]
  }

  /** An update that keeps its target matching, and that changes nothing
      when applied to its own result, is idempotent. */
  lemma UpdateFirstIdempotent<T>(s: seq<T>, p: T -> bool, f: T -> T)
    requires forall x :: p(x) ==> p(f(x)) && f(f(x)) == f(x)
    ensures UpdateFirst(UpdateFirst(s, p, f), p, f) == UpdateFirst(s, p, f)
  {
    match FirstMatch(s, p)
    case None =>
    case Some(i) =>
      var s1 := s[i := f(s[i])];
      assert forall j :: 0 <= j < i ==> s1[j] == s[j];
      FirstMatchAt(s1, p, i);
      assert s1[i := f(s1[i])] == s1;
  }

  /** Two sequences on which `p` holds at the same positions have the same
      first match. */
  lemma {:induction false} FirstMatchSamePositions<T>(a: seq<T>, b: seq<T>, p: T -> bool)
    requires |a| == |b|
    requires forall j :: 0 <= j < |a| ==> p(a[j]) == p(b[j])
    ensures FirstMatch(a, p) == FirstMatch(b, p)
  {
    if |a| > 0 {
      FirstMatchSamePositions(a[1..], b[1..], p);
    }
  }

  /** `r` keeps some of the elements of `s`, in their order in `s`. */
  ghost predicate SubsequenceOf<T>(r: seq<T>, s: seq<T>)
    decreases |s|
  {
    if |r| == 0 then true
    else if |s| == 0 then false
    else (r[0] == s[0] && SubsequenceOf(r[1..], s[1..])) || SubsequenceOf(r, s[1..])
  }

  /** `r` is the selection of `s` by `p`: exactly the elements satisfying
      `p`, each as often as it occurs in `s`, in their order in `s`. */
  ghost predicate Selects<T>(r: seq<T>, s: seq<T>, p: T -> bool)
  {
    && SubsequenceOf(r, s)
    && (forall j :: 0 <= j < |r| ==> p(r[j]))
    && (forall j :: 0 <= j < |s| && p(s[j]) ==> multiset(r)[s[j]] == multiset(s)[s[j]])
  }

  /** `find(filter).toArray()`: the elements satisfying `p`, in order. */
  function Filter<T>(s: seq<T>, p: T -> bool): (r: seq<T>)
    ensures |r| <= |s|
    ensures forall j :: 0 <= j < |r| ==> r[j] in s && p(r[j])
    ensures forall j :: 0 <= j < |s| && p(s[j]) ==> s[j] in r
  {
    if |s| == 0 then []
    else (if p(s[0]) then [s[0]] else []) + Filter(s[1..], p)
  }

  /** `Filter` keeps exactly the elements satisfying `p`, each as often as
      it occurs, in order; with `SelectsUnique`, nothing else could. */
  lemma {:induction false} FilterSelects<T>(s: seq<T>, p: T -> bool)
    ensures Selects(Filter(s, p), s, p)
  {
    if |s| > 0 {
      FilterSelects(s[1..], p);
      SelectsCons(Filter(s[1..], p), s, p);
    }
  }

  /** Selecting from `s` is deciding on its head and selecting from the
      rest. */
  lemma SelectsCons<T>(rest: seq<T>, s: seq<T>, p: T -> bool)
    requires |s| > 0 && Selects(rest, s[1..], p)
    ensures Selects((if p(s[0]) then [s[0]] else []) + rest, s, p)
  {
    var t := s[1..];
    var r := (if p(s[0]) then [s[0]] else []) + rest;
    assert s == [s[0]] + t;
    if p(s[0]) {
      assert r[0] == s[0] && r[1..] == rest;
    } else {
      assert r == rest;
      if |r| > 0 {
        assert SubsequenceOf(r, t);
      }
    }
    forall j | 0 <= j < |s| && p(s[j])
      ensures multiset(r)[s[j]] == multiset(s)[s[j]]
    {
      if j > 0 {
        assert t[j - 1] == s[j];
      } else if s[0] !in t {
        SubsequenceCounts(rest, t);
      }
    }
  }

  /** A subsequence holds each element at most as often as the whole. */
  lemma {:induction false} SubsequenceCounts<T>(r: seq<T>, s: seq<T>)
    requires SubsequenceOf(r, s)
    ensures forall x :: multiset(r)[x] <= multiset(s)[x]
    decreases |s|
  {
    if |r| > 0 {
      assert s == [s[0]] + s[1..];
      if r[0] == s[0] && SubsequenceOf(r[1..], s[1..]) {
        SubsequenceCounts(r[1..], s[1..]);
        assert r == [r[0]] + r[1..];
      } else {
        SubsequenceCounts(r, s[1..]);
      }
    }
  }

  /** One step of a selection: the head of `s` leads `r` exactly when `p`
      keeps it, and the rest of `r` selects from the rest of `s`. */
  lemma SelectsStep<T>(r: seq<T>, s: seq<T>, p: T -> bool)
    requires Selects(r, s, p) && |s| > 0
    ensures p(s[0]) ==> |r| > 0 && r[0] == s[0] && Selects(r[1..], s[1..], p)
    ensures !p(s[0]) ==> Selects(r, s[1..], p)
  {
    var t := s[1..];
    assert s == [s[0]] + t;
    if p(s[0]) {
      assert multiset(r)[s[0]] == multiset(s)[s[0]] == multiset(t)[s[0]] + 1;
      if !(r[0] == s[0] && SubsequenceOf(r[1..], t)) {
        SubsequenceCounts(r, t);
        assert false;
      }
      assert r == [r[0]] + r[1..];
      forall j | 0 <= j < |t| && p(t[j])
        ensures multiset(r[1..])[t[j]] == multiset(t)[t[j]]
      {
        assert s[j + 1] == t[j];
        assert multiset(r)[t[j]] == multiset(r[1..])[t[j]] + (if t[j] == s[0] then 1 else 0);
      }
    } else {
      if |r| > 0 {
        assert p(r[0]) && r[0] != s[0];
      }
      forall j | 0 <= j < |t| && p(t[j])
        ensures multiset(r)[t[j]] == multiset(t)[t[j]]
      {
        assert s[j + 1] == t[j] && t[j] != s[0];
      }
    }
  }

  /** A selection is unique: the order and multiplicity clauses of
      `Selects` pin the result completely. */
  lemma {:induction false} SelectsUnique<T>(r1: seq<T>, r2: seq<T>, s: seq<T>, p: T -> bool)
    requires Selects(r1, s, p) && Selects(r2, s, p)
    ensures r1 == r2
    decreases |s|
  {
    if |s| > 0 {
      SelectsStep(r1, s, p);
      SelectsStep(r2, s, p);
      if p(s[0]) {
        SelectsUnique(r1[1..], r2[1..], s[1..], p);
        assert r1 == [r1[0]] + r1[1..] && r2 == [r2[0]] + r2[1..];
      } else {
        SelectsUnique(r1, r2, s[1..], p);
      }
    }
  }

  /** A selection depends only on which elements the test keeps. */
  lemma SelectsSameTest<T>(r: seq<T>, s: seq<T>, p: T -> bool, q: T -> bool)
    requires Selects(r, s, p)
    requires forall x :: p(x) == q(x)
    ensures Selects(r, s, q)
  {
  }

  /** Filtering twice is filtering once by both conditions. */
  lemma {:induction false} FilterTwice<T>(s: seq<T>, p: T -> bool, q: T -> bool, pq: T -> bool)
    requires forall x :: pq(x) == (p(x) && q(x))
    ensures Filter(Filter(s, p), q) == Filter(s, pq)
  {
    if |s| > 0 {
      FilterTwice(s[1..], p, q, pq);
      var head := if p(s[0]) then [s[0]] else [];
      assert Filter(s, p) == head + Filter(s[1..], p);
      FilterAppend(head, Filter(s[1..], p), q);
      if p(s[0]) {
        assert head[1..] == [];
      }
      assert Filter(head, q) == if pq(s[0]) then [s[0]] else [];
    }
  }

  /** The filter of a concatenation is the concatenation of the filters. */
  lemma {:induction false} FilterAppend<T>(a: seq<T>, b: seq<T>, p: T -> bool)
    ensures Filter(a + b, p) == Filter(a, p) + Filter(b, p)
  {
    if |a| == 0 {
      assert a + b == b;
    } else {
      assert (a + b)[1..] == a[1..] + b;
      FilterAppend(a[1..], b, p);
    }
  }

  /** Keeping every element keeps the sequence. */
  lemma {:induction false} FilterKeepsAll<T>(s: seq<T>, p: T -> bool)
    requires forall j :: 0 <= j < |s| ==> p(s[j])
    ensures Filter(s, p) == s
  {
    if |s| > 0 {
      FilterKeepsAll(s[1..], p);
    }
  }

  /** Every id in `docs` is below the store's next id and no two documents
      share one: the `_id` uniqueness MongoDB guarantees. */
  ghost predicate DistinctIds<T>(docs: seq<T>, idOf: T -> Id, nextId: nat)
  {
    && (forall i :: 0 <= i < |docs| ==> idOf(docs[i]) < nextId)
    && (forall i, j :: 0 <= i < j < |docs| ==> idOf(docs[i]) != idOf(docs[j]))
  }

  /** Inserting a document under the next id keeps ids distinct. */
  lemma AppendFresh<T>(docs: seq<T>, idOf: T -> Id, nextId: nat, d: T)
    ensures DistinctIds(docs, idOf, nextId) && idOf(d) == nextId ==>
              DistinctIds(docs + [d], idOf, nextId + 1)
  {
    var ds := docs + [d];
    assert forall i :: 0 <= i < |docs| ==> ds[i] == docs[i];
  }

  /** Replacing a document by one with the same id keeps ids distinct. */
  lemma ReplaceSameId<T>(docs: seq<T>, idOf: T -> Id, nextId: nat, i: nat, d: T)
    requires i < |docs| && idOf(d) == idOf(docs[i])
    ensures DistinctIds(docs, idOf, nextId) ==> DistinctIds(docs[i := d], idOf, nextId)
  {
  }

  /** The present values of `f` over `keys`, in the order of the keys. */
  function Collect<K, V>(keys: seq<K>, f: K -> Option<V>): seq<V>
  {
    if |keys| == 0 then []
    else (if f(keys[0]).Some? then [f(keys[0]).value] else []) + Collect(keys[1..], f)
  }

  /** Each collected value is the value of some key. */
  lemma {:induction false} CollectEntries<K, V>(keys: seq<K>, f: K -> Option<V>, j: nat)
    requires j < |Collect(keys, f)|
    ensures exists i :: 0 <= i < |keys| && f(keys[i]) == Some(Collect(keys, f)[j])
  {
    var head := if f(keys[0]).Some? then [f(keys[0]).value] else [];
    if j >= |head| {
      CollectEntries(keys[1..], f, j - |head|);
      var i :| 0 <= i < |keys[1..]| && f(keys[1..][i]) == Some(Collect(keys[1..], f)[j - |head|]);
      assert f(keys[i + 1]) == Some(Collect(keys, f)[j]);
    }
  }

  /** Every present value is collected. */
  lemma {:induction false} CollectComplete<K, V>(keys: seq<K>, f: K -> Option<V>, i: nat)
    requires i < |keys| && f(keys[i]).Some?
    ensures f(keys[i]).value in Collect(keys, f)
  {
    if i > 0 {
      assert keys[i] == keys[1..][i - 1];
      CollectComplete(keys[1..], f, i - 1);
    }
  }

  /** Collected values keep the order of their keys. */
  lemma {:induction false} CollectOrdered<K, V>(keys: seq<K>, f: K -> Option<V>, j: nat, k: nat)
    requires j < k < |Collect(keys, f)|
    ensures exists i1, i2 :: 0 <= i1 < i2 < |keys| && f(keys[i1]) == Some(Collect(keys, f)[j]) && f(keys[i2]) == Some(Collect(keys, f)[k])
  {
    var head := if f(keys[0]).Some? then [f(keys[0]).value] else [];
    var rest := Collect(keys[1..], f);
    assert Collect(keys, f) == head + rest;
    if j >= |head| {
      CollectOrdered(keys[1..], f, j - |head|, k - |head|);
      var a, b :| 0 <= a < b < |keys[1..]| && f(keys[1..][a]) == Some(rest[j - |head|]) && f(keys[1..][b]) == Some(rest[k - |head|]);
      assert f(keys[a + 1]) == Some(Collect(keys, f)[j]) && f(keys[b + 1]) == Some(Collect(keys, f)[k]);
    } else {
      CollectEntries(keys[1..], f, k - |head|);
      var b :| 0 <= b < |keys[1..]| && f(keys[1..][b]) == Some(rest[k - |head|]);
      assert f(keys[0]) == Some(Collect(keys, f)[j]) && f(keys[b + 1]) == Some(Collect(keys, f)[k]);
    }
  }

  /** When `keys` holds every key once, at its rank, and each value names
      its key, collecting gives exactly one value per present key, ordered
      by rank. */
  lemma CollectByKey<K, V>(keys: seq<K>, f: K -> Option<V>, keyOf: V -> K, rank: K -> nat)
    requires forall k :: rank(k) < |keys| && keys[rank(k)] == k
    requires forall i :: 0 <= i < |keys| ==> rank(keys[i]) == i
    requires forall k :: f(k).Some? ==> keyOf(f(k).value) == k
    ensures var r := Collect(keys, f);
            && (forall j :: 0 <= j < |r| ==> f(keyOf(r[j])) == Some(r[j]))
            && (forall k :: f(k).Some? <==> exists j :: 0 <= j < |r| && keyOf(r[j]) == k)
            && (forall j, m :: 0 <= j < m < |r| ==> rank(keyOf(r[j])) < rank(keyOf(r[m])))
  {
    var r := Collect(keys, f);
    forall j | 0 <= j < |r|
      ensures f(keyOf(r[j])) == Some(r[j])
    {
      CollectEntries(keys, f, j);
    }
    forall k | f(k).Some?
      ensures exists j :: 0 <= j < |r| && keyOf(r[j]) == k
    {
      CollectComplete(keys, f, rank(k));
      var j :| 0 <= j < |r| && r[j] == f(keys[rank(k)]).value;
    }
    forall j, m | 0 <= j < m < |r|
      ensures rank(keyOf(r[j])) < rank(keyOf(r[m]))
    {
      CollectOrdered(keys, f, j, m);
      var i1, i2 :| 0 <= i1 < i2 < |keys| && f(keys[i1]) == Some(r[j]) && f(keys[i2]) == Some(r[m]);
    }
  }

  /** When each value names its key, every collected value names one of
      the keys. */
  lemma CollectKeysFrom<K, V>(keys: seq<K>, f: K -> Option<V>, keyOf: V -> K)
    requires forall k :: f(k).Some? ==> keyOf(f(k).value) == k
    ensures forall j :: 0 <= j < |Collect(keys, f)| ==> keyOf(Collect(keys, f)[j]) in keys
  {
    forall j | 0 <= j < |Collect(keys, f)|
      ensures keyOf(Collect(keys, f)[j]) in keys
    {
      CollectEntries(keys, f, j);
    }
  }
}

=== FILE: formatters.dfy ===
/** The prompt helpers (src/utils/formatters.ts): the list of preferences
    both prompts are built from, and the reading of a language-model reply.
    Each preference comes from one field of the trip request and is added
    only when that field is truthy; the entries keep the order in which the
    code adds them. */
module Formatters {
  import opened Common
  import opened Text

  /** A place the traveller wants included. */
  datatype Place = Place(name: string)

  /** The `trip_info` fields the prompts read. The enum-typed ones arrive
      as request text and are kept as strings. */
  datatype TripInfo = TripInfo(
    tripGoals: Option<string>,
    itenaryType: Option<string>,
    tripTypes: Option<seq<string>>,
    preference: Option<string>,
    preferredPrice: Option<string>,
    ageGroup: Option<string>,
    hasKids: Option<bool>,
    placePreference: Option<string>,
    placeComment: Option<string>,
    additionalActivity: Option<string>,
    foodPreference: Option<string>,
    foodBudget: Option<string>,
    foodComment: Option<string>,
    places: Option<seq<Place>>)

  /** The trip request fields the prompts read. */
  datatype TripRequest = TripRequest(destination: Option<string>, days: Option<int>, nights: Option<int>,
                                     tripInfo: Option<TripInfo>)

  /** The preferences, in the order the itinerary prompt adds them. */
  datatype Field =
    | Destination | Duration | Nights | Goals | ItineraryType | TripCategories | PreferenceField
    | PreferredPace | AgeGroup | WithKids | PlacePreference | PlaceComment | AdditionalActivity
    | FoodPreference | FoodBudget | FoodComment | MustIncludePlaces

  /** The text before the colon of a field's entry. */
  function Label(f: Field): string
  {
    match f
    case Destination => "destination"
    case Duration => "duration"
    case Nights => "nights"
    case Goals => "goals"
    case ItineraryType => "itinerary type"
    case TripCategories => "trip categories"
    case PreferenceField => "preference"
    case PreferredPace => "preferred pace"
    case AgeGroup => "age group"
    case WithKids => "travelling with kids"
    case PlacePreference => "place preference"
    case PlaceComment => "place comment"
    case AdditionalActivity => "additional activity"
    case FoodPreference => "food preference"
    case FoodBudget => "food budget"
    case FoodComment => "food comment"
    case MustIncludePlaces => "must include places"
  }

  /** The position at which the itinerary prompt adds a field. */
  function Position(f: Field): nat
  {
    match f
    case Destination => 0
    case Duration => 1
    case Nights => 2
    case Goals => 3
    case ItineraryType => 4
    case TripCategories => 5
    case PreferenceField => 6
    case PreferredPace => 7
    case AgeGroup => 8
    case WithKids => 9
    case PlacePreference => 10
    case PlaceComment => 11
    case AdditionalActivity => 12
    case FoodPreference => 13
    case FoodBudget => 14
    case FoodComment => 15
    case MustIncludePlaces => 16
  }

  /** The fields the suggested-places prompt adds, in order: all but the
      places to include. */
  const SuggestionFields: seq<Field> := [
    Destination, Duration, Nights, Goals, ItineraryType, TripCategories, PreferenceField,
    PreferredPace, AgeGroup, WithKids, PlacePreference, PlaceComment, AdditionalActivity,
    FoodPreference, FoodBudget, FoodComment]

  /** The fields the itinerary prompt adds, in order. */
  const ItineraryFields: seq<Field> := SuggestionFields + [MustIncludePlaces]

  /** One preference: the field and the text after the colon. */
  datatype Pref = Pref(field: Field, text: string)

  /** The entry as it appears in the prompt. */
  function Render(p: Pref): string
  {
    Label(p.field) + ": " + p.text
  }

  /** A JavaScript number is truthy: present and not zero. */
  predicate NumTruthy(n: Option<int>)
  {
    n.Some? && n.value != 0
  }

  /** An optional array is non-empty (`xs?.length` is truthy). */
  predicate NonEmpty<T>(xs: Option<seq<T>>)
  {
    xs.Some? && |xs.value| > 0
  }

  function Names(places: seq<Place>): (r: seq<string>)
    ensures |r| == |places|
    ensures forall j :: 0 <= j < |places| ==> r[j] == places[j].name
  {
    if |places| == 0 then [] else [places[0].name] + Names(places[1..])
  }

  /** The entry the code adds for one field of `d`, or `None` when the
      field's guard is falsy: text fields and numbers must be truthy, lists
      non-empty, `has_kids` only boolean (so `false` gives "no"), and every
      `trip_info` field needs `trip_info` itself. */
  function Entry(d: TripRequest, f: Field): (r: Option<Pref>)
    ensures r.Some? ==> r.value.field == f
  {
    match f
    case Destination => if Truthy(d.destination) then Some(Pref(f, d.destination.value)) else None
    case Duration => if NumTruthy(d.days) then Some(Pref(f, IntToString(d.days.value) + " days")) else None
    case Nights => if NumTruthy(d.nights) then Some(Pref(f, IntToString(d.nights.value))) else None
    case _ => if d.tripInfo.None? then None else InfoEntry(d.tripInfo.value, f)
  }

  /** The entry for a `trip_info` field; the three top-level fields have
      none here. */
  function InfoEntry(t: TripInfo, f: Field): (r: Option<Pref>)
    ensures r.Some? ==> r.value.field == f
  {
    match f
    case Destination => None
    case Duration => None
    case Nights => None
    case Goals => TextEntry(f, t.tripGoals)
    case ItineraryType => TextEntry(f, t.itenaryType)
    case TripCategories => if NonEmpty(t.tripTypes) then Some(Pref(f, Join(t.tripTypes.value, ", "))) else None
    case PreferenceField => TextEntry(f, t.preference)
    case PreferredPace => TextEntry(f, t.preferredPrice)
    case AgeGroup => TextEntry(f, t.ageGroup)
    case WithKids => if t.hasKids.Some? then Some(Pref(f, if t.hasKids.value then "yes" else "no")) else None
    case PlacePreference => TextEntry(f, t.placePreference)
    case PlaceComment => TextEntry(f, t.placeComment)
    case AdditionalActivity => TextEntry(f, t.additionalActivity)
    case FoodPreference => TextEntry(f, t.foodPreference)
    case FoodBudget => TextEntry(f, t.foodBudget)
    case FoodComment => TextEntry(f, t.foodComment)
    case MustIncludePlaces =>
      if NonEmpty(t.places) then Some(Pref(f, Join(Names(t.places.value), ", "))) else None
  }

  /** The entry of a text field: present when the text is truthy. */
  function TextEntry(f: Field, v: Option<string>): (r: Option<Pref>)
    ensures r.Some? <==> Truthy(v)
    ensures r.Some? ==> r.value == Pref(f, v.value)
  {
    if Truthy(v) then Some(Pref(f, v.value)) else None
  }

  /** `Entry` for one request, as a function of the field. */
  function EntriesOf(d: TripRequest): (r: Field -> Option<Pref>)
    ensures forall f :: r(f) == Entry(d, f)
    ensures NamesItsField(r)
  {
    (f: Field) => Entry(d, f)
  }

  /** A function from fields to entries of those fields. */
  ghost predicate NamesItsField(g: Field -> Option<Pref>)
  {
    forall f :: g(f).Some? ==> g(f).value.field == f
  }

  /** Collecting entries over `ItineraryFields` gives one entry per present
      field, in the order of the fields. */
  lemma CollectFields(g: Field -> Option<Pref>)
    requires NamesItsField(g)
    ensures var r := Collect(ItineraryFields, g);
            && (forall j :: 0 <= j < |r| ==> g(r[j].field) == Some(r[j]))
            && (forall f :: g(f).Some? <==> exists j :: 0 <= j < |r| && r[j].field == f)
            && (forall j, k :: 0 <= j < k < |r| ==> Position(r[j].field) < Position(r[k].field))
  {
    FieldsInOrder();
    CollectByKey(ItineraryFields, g, (p: Pref) => p.field, Position);
  }

  /** `r` holds one entry per field whose guard holds, carrying that
      field's text, in the order of the fields. */
  ghost predicate ListsEntries(d: TripRequest, r: seq<Pref>)
  {
    && (forall j :: 0 <= j < |r| ==> Entry(d, r[j].field) == Some(r[j]))
    && (forall f: Field :: Entry(d, f).Some? <==> exists j :: 0 <= j < |r| && r[j].field == f)
    && (forall j, k :: 0 <= j < k < |r| ==> Position(r[j].field) < Position(r[k].field))
  }

  /** Collecting the request's entries over `ItineraryFields` lists them. */
  lemma CollectEntriesOf(d: TripRequest)
    ensures ListsEntries(d, Collect(ItineraryFields, EntriesOf(d)))
  {
    var g := EntriesOf(d);
    var r := Collect(ItineraryFields, g);
    CollectFields(g);
    forall f: Field
      ensures Entry(d, f).Some? <==> exists j :: 0 <= j < |r| && r[j].field == f
    {
      assert g(f) == Entry(d, f);
    }
    forall j | 0 <= j < |r|
      ensures Entry(d, r[j].field) == Some(r[j])
    {
      assert g(r[j].field) == Entry(d, r[j].field);
    }
  }

  /** The preference list of `formatPromptForItineraryCreation`: one entry
      per field whose guard holds, carrying that field's text, in the order
      the code adds them. */
  function ItineraryPreferences(d: TripRequest): (r: seq<Pref>)
    ensures ListsEntries(d, r)
  {
    CollectEntriesOf(d);
    Collect(ItineraryFields, EntriesOf(d))
  }

  /** The preference list of `formatPromptForSuggestedPlaces`: the same
      fields without the places to include. */
  function SuggestionPreferences(d: TripRequest): (r: seq<Pref>)
    ensures forall j :: 0 <= j < |r| ==> Entry(d, r[j].field) == Some(r[j]) && r[j].field != MustIncludePlaces
  {
    DropPlaces(EntriesOf(d));
    CollectFields(EntriesOf(d));
    Collect(SuggestionFields, EntriesOf(d))
  }

  /** Every field sits in `ItineraryFields` at its position. */
  lemma FieldsInOrder()
    ensures forall f :: Position(f) < |ItineraryFields| && ItineraryFields[Position(f)] == f
    ensures forall i :: 0 <= i < |ItineraryFields| ==> Position(ItineraryFields[i]) == i
  {
  }

  /** Collecting over a concatenation collects over each part. */
  lemma {:induction false} CollectAppend<K, V>(a: seq<K>, b: seq<K>, f: K -> Option<V>)
    ensures Collect(a + b, f) == Collect(a, f) + Collect(b, f)
  {
    if |a| > 0 {
      var head := if f(a[0]).Some? then [f(a[0]).value] else [];
      assert (a + b)[0] == a[0] && (a + b)[1..] == a[1..] + b;
      assert Collect(a + b, f) == head + Collect(a[1..] + b, f);
      CollectAppend(a[1..], b, f);
    } else {
      assert a + b == b;
    }
  }

  /** Not a place to include. */
  predicate NotPlaces(p: Pref)
  {
    p.field != MustIncludePlaces
  }

  /** Collecting over the suggestion fields is collecting over all fields
      and dropping the places entry. */
  lemma DropPlaces(g: Field -> Option<Pref>)
    requires NamesItsField(g)
    ensures Collect(SuggestionFields, g) == Filter(Collect(ItineraryFields, g), NotPlaces)
  {
    var base := Collect(SuggestionFields, g);
    var last := Collect([MustIncludePlaces], g);
    CollectAppend(SuggestionFields, [MustIncludePlaces], g);
    assert Collect(ItineraryFields, g) == base + last;
    FilterAppend(base, last, NotPlaces);
    BaseHasNoPlaces(g);
    FilterKeepsAll(base, NotPlaces);
    LastIsPlaces(g);
  }

  /** No field collected over the suggestion fields is the places field. */
  lemma BaseHasNoPlaces(g: Field -> Option<Pref>)
    requires NamesItsField(g)
    ensures forall j :: 0 <= j < |Collect(SuggestionFields, g)| ==> NotPlaces(Collect(SuggestionFields, g)[j])
  {
    assert MustIncludePlaces !in SuggestionFields;
    CollectKeysFrom(SuggestionFields, g, (p: Pref) => p.field);
  }

  /** Whatever the places field collects is dropped by the filter. */
  lemma LastIsPlaces(g: Field -> Option<Pref>)
    requires NamesItsField(g)
    ensures Filter(Collect([MustIncludePlaces], g), NotPlaces) == []
  {
    var last := Collect([MustIncludePlaces], g);
    assert [MustIncludePlaces][1..] == [];
    assert last == (if g(MustIncludePlaces).Some? then [g(MustIncludePlaces).value] else []) + Collect([], g);
  }

  /** The suggested-places list is the itinerary list without its "must
      include places" entry. */
  lemma SuggestionsDropOnlyPlaces(d: TripRequest)
    ensures SuggestionPreferences(d) == Filter(ItineraryPreferences(d), NotPlaces)
  {
    DropPlaces(EntriesOf(d));
  }

  /** `false` is a boolean, so a trip without kids still says so, while a
      zero-day trip gets no duration. */
  lemma FalsyValuesThatStillCount(d: TripRequest)
    requires d.tripInfo.Some? && d.tripInfo.value.hasKids == Some(false) && d.days == Some(0)
    ensures Pref(WithKids, "no") in ItineraryPreferences(d)
    ensures forall p :: p in ItineraryPreferences(d) ==> p.field != Duration
  {
    assert Entry(d, WithKids) == Some(Pref(WithKids, "no"));
  }

  /** The "preferred pace" entry carries the `preferred_price` field. */
  lemma PaceReadsPriceField(d: TripRequest)
    requires d.tripInfo.Some? && Truthy(d.tripInfo.value.preferredPrice)
    ensures Pref(PreferredPace, d.tripInfo.value.preferredPrice.value) in ItineraryPreferences(d)
  {
    assert Entry(d, PreferredPace).Some?;
  }

  /** The entries as they appear in the prompt, in order. */
  function Rendered(prefs: seq<Pref>): (r: seq<string>)
    ensures |r| == |prefs|
    ensures forall j :: 0 <= j < |prefs| ==> r[j] == Render(prefs[j])
  {
    if |prefs| == 0 then [] else [Render(prefs[0])] + Rendered(prefs[1..])
  }

  /** `preferences.join(', ')`: the text both prompts embed. */
  function PreferenceText(prefs: seq<Pref>): string
  {
    Join(Rendered(prefs), ", ")
  }

  /** The opening fence `extractTextFromOpenAI` removes: "```json" or "```"
      followed by a line break, at the very start. */
  function DropOpeningFence(s: string): (r: string)
    ensures |r| <= |s| && r == s[|s| - |r|..]
    ensures |s| >= 8 && s[..8] == "```json\n" ==> r == s[8..]
    ensures !(|s| >= 8 && s[..8] == "```json\n") && |s| >= 4 && s[..4] == "```\n" ==> r == s[4..]
    ensures !(|s| >= 8 && s[..8] == "```json\n") && !(|s| >= 4 && s[..4] == "```\n") ==> r == s
  {
    if |s| >= 8 && s[..8] == "```json\n" then s[8..]
    else if |s| >= 4 && s[..4] == "```\n" then s[4..]
    else s
  }

  /** The closing fence: a line break and "```" at the very end. */
  function DropClosingFence(s: string): (r: string)
    ensures |s| >= 4 && s[|s| - 4..] == "\n```" ==> r == s[..|s| - 4]
    ensures !(|s| >= 4 && s[|s| - 4..] == "\n```") ==> r == s
  {
    if |s| >= 4 && s[|s| - 4..] == "\n```" then s[..|s| - 4] else s
  }

  /** Fence stripping: one opening and one closing fence. */
  function StripFences(s: string): string
  {
    DropClosingFence(DropOpeningFence(s))
  }

  /** A fenced block gives back exactly its content, whatever it is. */
  lemma FencedBlockRoundTrip(body: string)
    ensures StripFences("```json\n" + body + "\n```") == body
    ensures StripFences("```\n" + body + "\n```") == body
  {
    var a := "```json\n" + body + "\n```";
    assert a[..8] == "```json\n" && a[8..] == body + "\n```";
    var b := "```\n" + body + "\n```";
    assert b[..4] == "```\n" && b[4..] == body + "\n```";
    assert !(b[..8] == "```json\n") by { assert b[3] == '\n'; }
    var c := body + "\n```";
    assert c[|c| - 4..] == "\n```" && c[..|c| - 4] == body;
  }

  /** Text with no fence at either end is left alone. */
  lemma UnfencedTextUnchanged(s: string)
    requires !(|s| >= 3 && s[..3] == "```")
    requires !(|s| >= 4 && s[|s| - 4..] == "\n```")
    ensures StripFences(s) == s
  {
  }

  /** A parsed JSON value: a string or anything else. */
  datatype Json = JsonString(text: string) | JsonOther(value: string)

  /** `extractTextFromOpenAI` given the first choice's message: the trimmed
      and unfenced text is parsed with `parse` (`None` when `JSON.parse`
      throws); a string result is parsed a second time; any parse failure
      gives null. */
  function ExtractText(content: string, parse: string -> Option<Json>): (r: Option<Json>)
    ensures var raw := StripFences(Trim(content));
            && (parse(raw).None? ==> r.None?)
            && (parse(raw).Some? && parse(raw).value.JsonOther? ==> r == parse(raw))
            && (parse(raw).Some? && parse(raw).value.JsonString? ==> r == parse(parse(raw).value.text))
  {
    var raw := StripFences(Trim(content));
    match parse(raw)
    case None => None
    case Some(JsonString(text)) => parse(text)
    case Some(v) => Some(v)
  }

  /** A reply wrapped in a fence is read as its content. */
  lemma FencedReplyReadsBody(body: string, parse: string -> Option<Json>)
    ensures ExtractText("```json\n" + body + "\n```", parse)
            == match parse(body) case None => None case Some(JsonString(t)) => parse(t) case Some(v) => Some(v)
  {
    var s := "```json\n" + body + "\n```";
    assert s[0] == '`' && s[|s| - 1] == '`';
    TrimKeepsUnpadded(s);
    FencedBlockRoundTrip(body);
  }

  /** Trimming text that neither starts nor ends with white space changes
      nothing. */
  lemma TrimKeepsUnpadded(s: string)
    requires |s| > 0 && !IsSpace(s[0]) && !IsSpace(s[|s| - 1])
    ensures Trim(s) == s
  {
  }
}

=== FILE: middleware.dfy ===
/** The request guards (src/middlewares/auth.ts, src/middlewares/validate.ts):
    token authentication, role authorisation and the mapping of validation
    errors to a 400 reply. A guard either passes the request on (`next()`)
    or answers it. Verifying a token's signature is library code, so it is
    the parameter `verify`. */
module Middleware {
  import opened Common
  import opened Text

  /** The claims of a verified token that the handlers read. */
  datatype Claims = Claims(userId: Id, role: Option<string>)

  /** `jwt.verify` with the server's secret: the claims, or `None` when it
      throws. */
  type Verifier = string -> Option<Claims>

  /** What a guard does with a request. */
  datatype Outcome = Next | Respond(code: int, error: string)

  /** A role as a template literal prints it. */
  function RoleText(role: Option<string>): string
  {
    if role.Some? then role.value else "undefined"
  }

  /** `allowedRoles.includes(user.role)`. */
  predicate Allowed(allowed: seq<string>, role: Option<string>)
  {
    role.Some? && role.value in allowed
  }

  /** `authorizeRoles(allowed)` for the user the authentication step left
      on the request: 401 without one, 403 when its role is not listed,
      `next()` otherwise. */
  function AuthorizeRoles(allowed: seq<string>, user: Option<Claims>): (r: Outcome)
    ensures r.Next? <==> user.Some? && Allowed(allowed, user.value.role)
    ensures r == Respond(401, "Unauthorized: no user found") <==> user.None?
    ensures user.Some? && !r.Next? ==>
              r == Respond(403, "Forbidden: role '" + RoleText(user.value.role) + "' does not have access")
  {
    if user.None? then Respond(401, "Unauthorized: no user found")
    else if !Allowed(allowed, user.value.role) then
      Respond(403, "Forbidden: role '" + RoleText(user.value.role) + "' does not have access")
    else Next
  }

  /** An empty list refuses every user, and a token without a role is
      refused by every list. */
  lemma EmptyListRefusesAll(allowed: seq<string>, user: Claims)
    ensures AuthorizeRoles([], Some(user)).code == 403
    ensures user.role.None? ==> AuthorizeRoles(allowed, Some(user)).code == 403
  {
  }

  /** Listing more roles never refuses a user that was let through. */
  lemma MoreRolesAdmitMore(allowed: seq<string>, more: seq<string>, user: Option<Claims>)
    requires forall x :: x in allowed ==> x in more
    ensures AuthorizeRoles(allowed, user).Next? ==> AuthorizeRoles(more, user).Next?
  {
  }

  /** The token of an `Authorization` header: its second space-separated
      segment, absent when the header has no space. */
  function TokenOf(header: string): (r: Option<string>)
    ensures r.Some? <==> ' ' in header
    ensures r.Some? ==> ' ' !in r.value
  {
    var parts := Split(header, ' ');
    if |parts| >= 2 then Some(parts[1])
    else
      assert parts == [parts[0]];
      assert Join(parts, " ") == parts[0];
      None
  }

  /** `authenticateJWT`: 401 for a missing or empty header; 403 when the
      header has no second segment or it does not verify; otherwise the
      verified claims become the request's user. */
  function AuthenticateJwt(header: Option<string>, verify: Verifier): (r: (Outcome, Option<Claims>))
    ensures r.0 == Respond(401, "No token provided") <==> !Truthy(header)
    ensures r.0.Next? <==> Truthy(header) && TokenOf(header.value).Some? && verify(TokenOf(header.value).value).Some?
    ensures r.0.Next? ==> r.1 == verify(TokenOf(header.value).value)
    ensures !r.0.Next? ==> r.1.None? && (r.0.code == 401 || r.0 == Respond(403, "Invalid token"))
  {
    if !Truthy(header) then (Respond(401, "No token provided"), None)
    else match TokenOf(header.value)
      case None => (Respond(403, "Invalid token"), None)
      case Some(token) =>
        match verify(token)
        case None => (Respond(403, "Invalid token"), None)
        case Some(claims) => (Next, Some(claims))
  }

  /** The position of the first space. */
  lemma {:induction false} FirstSpace(scheme: string, rest: string)
    requires ' ' !in scheme
    ensures IndexOf(scheme + " " + rest, ' ') == |scheme|
  {
    var s := scheme + " " + rest;
    if |scheme| > 0 {
      assert s[1..] == scheme[1..] + " " + rest;
      FirstSpace(scheme[1..], rest);
    }
  }

  /** The token is what follows the first space, up to the next one. */
  lemma TokenFollowsScheme(scheme: string, token: string)
    requires ' ' !in scheme && ' ' !in token
    ensures TokenOf(scheme + " " + token) == Some(token)
  {
    var s := scheme + " " + token;
    FirstSpace(scheme, token);
    assert s[..|scheme|] == scheme && s[|scheme| + 1..] == token;
    assert Split(token, ' ') == [token];
  }

  /** The scheme word is never checked: "Basic t" authenticates exactly as
      "Bearer t" does. */
  lemma SchemeIsNotChecked(scheme: string, token: string, verify: Verifier)
    requires ' ' !in scheme && ' ' !in token
    ensures AuthenticateJwt(Some(scheme + " " + token), verify) == AuthenticateJwt(Some("Bearer " + token), verify)
  {
    TokenFollowsScheme(scheme, token);
    TokenFollowsScheme("Bearer", token);
    assert "Bearer " + token == "Bearer" + " " + token;
  }

  /** A route behind `authenticateJWT` and `authorizeRoles(allowed)`. */
  function Protect(header: Option<string>, verify: Verifier, allowed: seq<string>): (r: (Outcome, Option<Claims>))
    ensures r.0.Next? <==>
              && Truthy(header) && TokenOf(header.value).Some?
              && var c := verify(TokenOf(header.value).value);
                 c.Some? && Allowed(allowed, c.value.role)
    ensures r.0.Next? ==> r.1.Some? && Allowed(allowed, r.1.value.role)
  {
    var (auth, user) := AuthenticateJwt(header, verify);
    if auth.Next? then (AuthorizeRoles(allowed, user), user) else (auth, user)
  }

  /** An error reported by the request validators: a field error carries
      the field's path and message; any other kind carries only its kind. */
  datatype ValidationError = FieldError(path: string, msg: string) | OtherError(kind: string)

  /** One entry of the 400 reply. */
  datatype ErrorEntry = ErrorEntry(field: string, message: string)

  /** The entry for one error: field errors keep their path and message,
      every other error becomes the same generic entry. */
  function EntryFor(e: ValidationError): (r: ErrorEntry)
    ensures e.FieldError? ==> r == ErrorEntry(e.path, e.msg)
    ensures e.OtherError? ==> r == ErrorEntry("unknown", "Validation error")
  {
    match e
    case FieldError(path, msg) => ErrorEntry(path, msg)
    case OtherError(_) => ErrorEntry("unknown", "Validation error")
  }

  /** `errors.array().map(...)`. */
  function ErrorEntries(errors: seq<ValidationError>): (r: seq<ErrorEntry>)
    ensures |r| == |errors|
    ensures forall j :: 0 <= j < |errors| ==> r[j] == EntryFor(errors[j])
  {
    if |errors| == 0 then [] else [EntryFor(errors[0])] + ErrorEntries(errors[1..])
  }

  /** What `validate` does: pass the request on, or reject it with the
      mapped errors. */
  datatype Validation = Proceed | Reject(code: int, errors: seq<ErrorEntry>)

  /** `validate`: `next()` when no validator reported anything; otherwise a
      400 with one entry per error, in order. */
  function Validate(errors: seq<ValidationError>): (r: Validation)
    ensures r.Proceed? <==> |errors| == 0
    ensures r.Reject? ==> r.code == 400 && |r.errors| == |errors|
    ensures r.Reject? ==> forall j :: 0 <= j < |errors| ==>
              (errors[j].FieldError? ==> r.errors[j] == ErrorEntry(errors[j].path, errors[j].msg))
              && (errors[j].OtherError? ==> r.errors[j] == ErrorEntry("unknown", "Validation error"))
  {
    if |errors| == 0 then Proceed else Reject(400, ErrorEntries(errors))
  }

  /** Mapping the errors of two validator runs is mapping each run. */
  lemma {:induction false} ErrorEntriesAppend(a: seq<ValidationError>, b: seq<ValidationError>)
    ensures ErrorEntries(a + b) == ErrorEntries(a) + ErrorEntries(b)
  {
    if |a| == 0 {
      assert a + b == b;
    } else {
      assert (a + b)[1..] == a[1..] + b;
      ErrorEntriesAppend(a[1..], b);
    }
  }

  /** The reply tells field errors apart only by path and message: errors
      that differ only in the kind of their non-field entries get the same
      reply. */
  lemma OtherKindsAreIndistinct(a: seq<ValidationError>, b: seq<ValidationError>)
    requires |a| == |b|
    requires forall j :: 0 <= j < |a| ==> a[j] == b[j] || (a[j].OtherError? && b[j].OtherError?)
    ensures Validate(a) == Validate(b)
  {
    if |a| > 0 {
      assert ErrorEntries(a) == ErrorEntries(b);
    }
  }
}

=== FILE: otp_auth.dfy ===
/** The one-time-password login flow (src/controllers/auth.ts): sending and
    re-sending a code, validating it, finding or creating the user, issuing
    tokens, and refreshing an access token.

    Each identifier (`mobile_email`) has one verification record holding
    the list of codes sent to it. The clock (`now`), `Math.random()` (a real
    in [0, 1)) and the JWT signers are inputs; `generateAccessToken` and
    `generateRefreshToken` are not defined in src/utils/jwt.ts and are
    treated as functions of the user id and role.

    The token status enum of src/types/enum.ts has no USED member: the
    "mark as used" update writes `undefined`, which the database stores as
    null, so a used token's status is `None` here. */
module OtpAuth {
  import opened Common
  import opened Text
  import UsersStore

  datatype TokenStatus = Active | Inactive | Suspended | Expired

  /** One code sent to an identifier. */
  datatype OtpToken = OtpToken(
    code: string,
    verificationType: string,
    resendAttempts: nat,
    expiresAt: Time,
    status: Option<TokenStatus>)

  /** The `verification` record of one identifier. */
  datatype Verification = Verification(
    id: Id,
    mobileEmail: string,
    tokens: seq<OtpToken>,
    status: Option<TokenStatus>,
    modifiedAt: Time)

  datatype RefreshRecord = RefreshRecord(
    id: Id, userId: Id, platformId: Option<Id>, token: string,
    status: Option<TokenStatus>, expiresAt: Option<Time>)

  datatype AccessRecord = AccessRecord(
    id: Id, userId: Id, refreshId: Id, token: string,
    status: Option<TokenStatus>, expiresAt: Option<Time>)

  datatype AuthDb = AuthDb(
    verifications: Table<Verification>,
    users: UsersStore.Store,
    refreshTokens: Table<RefreshRecord>,
    accessTokens: Table<AccessRecord>)

  /** `(userId, role) -> JWT` */
  type Signer = (Id, Option<string>) -> string

  const OtpLifetimeMs: int := 5 * 60 * 1000
  const RefreshTokenExpireDays: int := 30
  const TokenLifetimeMs: int := RefreshTokenExpireDays * 24 * 60 * 60 * 1000
  const MaxResends: nat := 3
  const DefaultVerificationType: string := "LOGIN"

  const InvalidOtp: string := "Invalid or Expired OTP"
  const OtpSpent: string := "OTP already used or expired"
  const OtpExpired: string := "OTP expired"
  const RoleRequired: string := "Role is required if a new user is logging in"

  /** The positional update `{ "tokens.code": code }`, `tokens.$.status`:
      the FIRST token carrying the code gets the status. */
  function MarkFirstWithCode(tokens: seq<OtpToken>, code: string, st: Option<TokenStatus>): (r: seq<OtpToken>)
    ensures |r| == |tokens|
    ensures (forall j :: 0 <= j < |tokens| ==> tokens[j].code != code) ==> r == tokens
    ensures forall j {:trigger r[j]} :: 0 <= j < |tokens| ==>
              if tokens[j].code == code && (forall k :: 0 <= k < j ==> tokens[k].code != code)
              then r[j] == tokens[j].(status := st)
              else r[j] == tokens[j]
  {
    UpdateFirst(tokens, (t: OtpToken) => t.code == code, (t: OtpToken) => t.(status := st))
  }

  /** The most recent token is still usable for `code` at time `now`. */
  predicate Redeemable(tokens: seq<OtpToken>, code: string, now: Time)
  {
    |tokens| > 0 && tokens[|tokens| - 1].code == code
    && tokens[|tokens| - 1].status == Some(Active) && !(tokens[|tokens| - 1].expiresAt < now)
  }

  /** `validateOtp`, as written: only the last token is examined; an expired
      one is marked EXPIRED before the error is thrown; a redeemed one is
      marked used. Both marks go through the first-match positional update. */
  function ValidateOtp(tokens: seq<OtpToken>, code: string, now: Time): (r: (seq<OtpToken>, Result<OtpToken>))
    ensures |r.0| == |tokens|
    ensures r.1.Ok? <==> Redeemable(tokens, code, now)
    ensures r.1.Ok? ==> r.1.value == tokens[|tokens| - 1] && r.0 == MarkFirstWithCode(tokens, code, None)
    ensures (|tokens| == 0 || tokens[|tokens| - 1].code != code) ==> r == (tokens, Err(InvalidOtp))
    ensures |tokens| > 0 && tokens[|tokens| - 1].code == code && tokens[|tokens| - 1].status != Some(Active) ==>
              r == (tokens, Err(OtpSpent))
    ensures |tokens| > 0 && tokens[|tokens| - 1].code == code && tokens[|tokens| - 1].status == Some(Active)
            && tokens[|tokens| - 1].expiresAt < now ==>
              r == (MarkFirstWithCode(tokens, code, Some(Expired)), Err(OtpExpired))
  {
    if |tokens| == 0 || tokens[|tokens| - 1].code != code then (tokens, Err(InvalidOtp))
    else
      var t := tokens[|tokens| - 1];
      if t.status != Some(Active) then (tokens, Err(OtpSpent))
      else if t.expiresAt < now then (MarkFirstWithCode(tokens, t.code, Some(Expired)), Err(OtpExpired))
      else (MarkFirstWithCode(tokens, t.code, None), Ok(t))
  }

  /** When no earlier token shares the code, a redeemed code cannot be
      redeemed again. */
  lemma UniqueCodeIsSpent(tokens: seq<OtpToken>, code: string, now: Time)
    requires forall j :: 0 <= j < |tokens| - 1 ==> tokens[j].code != code
    requires ValidateOtp(tokens, code, now).1.Ok?
    ensures ValidateOtp(ValidateOtp(tokens, code, now).0, code, now) == (ValidateOtp(tokens, code, now).0, Err(OtpSpent))
  {
    var last := |tokens| - 1;
    var r := ValidateOtp(tokens, code, now).0;
    assert FirstMatch(tokens, (t: OtpToken) => t.code == code) == Some(last);
    assert r[last].status.None?;
  }

  /** As written, when an earlier token carries the same code as the last
      one, redeeming marks the earlier token, the last stays ACTIVE, and the
      same code logs in again. */
  lemma SharedCodeAllowsReplay(tokens: seq<OtpToken>, code: string, now: Time)
    requires ValidateOtp(tokens, code, now).1.Ok?
    requires exists j :: 0 <= j < |tokens| - 1 && tokens[j].code == code
    ensures ValidateOtp(ValidateOtp(tokens, code, now).0, code, now).1.Ok?
  {
    var r := ValidateOtp(tokens, code, now).0;
    MarkKeepsLaterToken(tokens, code, None);
    assert Redeemable(r, code, now);
  }

  /** The positional mark leaves the last token alone when an earlier
      token carries the same code. */
  lemma MarkKeepsLaterToken(tokens: seq<OtpToken>, code: string, st: Option<TokenStatus>)
    requires exists j :: 0 <= j < |tokens| - 1 && tokens[j].code == code
    ensures MarkFirstWithCode(tokens, code, st)[|tokens| - 1] == tokens[|tokens| - 1]
  {
    var last := |tokens| - 1;
    var i :| 0 <= i < last && tokens[i].code == code;
    assert !(forall k :: 0 <= k < last ==> tokens[k].code != code) by { assert tokens[i].code == code; }
  }

  /** A concrete instance: two codes "1234" sent in a row (codes are four
      random digits, so repeats happen); both validations succeed. */
  lemma ReplayExample()
    ensures var tokens := [OtpToken("1234", "LOGIN", 0, 100, Some(Active)), OtpToken("1234", "LOGIN", 0, 100, Some(Active))];
            && ValidateOtp(tokens, "1234", 0).1.Ok?
            && ValidateOtp(ValidateOtp(tokens, "1234", 0).0, "1234", 0).1.Ok?
  {
    var tokens := [OtpToken("1234", "LOGIN", 0, 100, Some(Active)), OtpToken("1234", "LOGIN", 0, 100, Some(Active))];
    SharedCodeAllowsReplay(tokens, "1234", 0);
  }

  /** `validateOtp` as evidently intended: the marks land on the token that
      was examined, the last one. */
  function ValidateOtpFixed(tokens: seq<OtpToken>, code: string, now: Time): (r: (seq<OtpToken>, Result<OtpToken>))
    ensures |r.0| == |tokens|
    ensures r.1.Ok? <==> Redeemable(tokens, code, now)
    ensures r.1.Ok? ==> r.1.value == tokens[|tokens| - 1] && r.0 == tokens[|tokens| - 1 := tokens[|tokens| - 1].(status := None)]
    ensures r.1.Err? && r.0 != tokens ==> r.0[|tokens| - 1].status == Some(Expired)
    ensures r.1 == ValidateOtp(tokens, code, now).1
  {
    if |tokens| == 0 || tokens[|tokens| - 1].code != code then (tokens, Err(InvalidOtp))
    else
      var last := |tokens| - 1;
      var t := tokens[last];
      if t.status != Some(Active) then (tokens, Err(OtpSpent))
      else if t.expiresAt < now then (tokens[last := t.(status := Some(Expired))], Err(OtpExpired))
      else (tokens[last := t.(status := None)], Ok(t))
  }

  /** With the corrected marks, a code that has been redeemed is spent,
      whatever the earlier tokens hold. */
  lemma ValidatedCodeIsSpent(tokens: seq<OtpToken>, code: string, now: Time)
    requires ValidateOtpFixed(tokens, code, now).1.Ok?
    ensures ValidateOtpFixed(ValidateOtpFixed(tokens, code, now).0, code, now).1 == Err(OtpSpent)
  {
  }

  // ---------------------------------------------------------------- sendOtp

  /** `Math.floor(1000 + Math.random() * 9000)`. */
  function OtpNumber(random: real): (n: int)
    requires 0.0 <= random < 1.0
    ensures 1000 <= n <= 9999
  {
    var x := 1000.0 + random * 9000.0;
    assert 1000.0 <= x < 10000.0;
    x.Floor
  }

  datatype Reply = Reply(code: int, otp: Option<string>)

  /** The token `sendOtp` creates. */
  function NewToken(code: string, verificationType: Option<string>, now: Time): OtpToken
  {
    OtpToken(code, if Truthy(verificationType) then verificationType.value else DefaultVerificationType,
             0, now + OtpLifetimeMs, Some(Active))
  }

  predicate ForIdentifier(v: Verification, mobileEmail: string)
  {
    v.mobileEmail == mobileEmail
  }

  /** `sendOtp`: 400 without an identifier; otherwise a fresh four-digit
      code, appended to the identifier's record (which becomes ACTIVE) or
      stored in a new record holding only that token. */
  function SendOtp(vs: Table<Verification>, mobileEmail: Option<string>, verificationType: Option<string>,
                   random: real, now: Time): (r: (Table<Verification>, Reply))
    requires 0.0 <= random < 1.0
    ensures !Truthy(mobileEmail) ==> r == (vs, Reply(400, None))
    ensures Truthy(mobileEmail) ==>
              && r.1.code == 200 && r.1.otp == Some(NatToString(OtpNumber(random)))
              && |r.1.otp.value| == 4
              && var tok := NewToken(r.1.otp.value, verificationType, now);
                 match FirstMatch(vs.docs, (v: Verification) => ForIdentifier(v, mobileEmail.value))
                 case None =>
                   r.0 == Table(vs.docs + [Verification(vs.nextId, mobileEmail.value, [tok], Some(Active), now)], vs.nextId + 1)
                 case Some(i) =>
                   r.0 == Table(vs.docs[i := vs.docs[i].(tokens := vs.docs[i].tokens + [tok], status := Some(Active), modifiedAt := now)],
                                vs.nextId)
  {
    if !Truthy(mobileEmail) then (vs, Reply(400, None))
    else
      var n := OtpNumber(random);
      var code := NatToString(n);
      FourDigits(n);
      var tok := NewToken(code, verificationType, now);
      var me := mobileEmail.value;
      match FirstMatch(vs.docs, (v: Verification) => ForIdentifier(v, me))
      case None =>
        (Table(vs.docs + [Verification(vs.nextId, me, [tok], Some(Active), now)], vs.nextId + 1), Reply(200, Some(code)))
      case Some(i) =>
        var v := vs.docs[i];
        (Table(vs.docs[i := v.(tokens := v.tokens + [tok], status := Some(Active), modifiedAt := now)], vs.nextId),
         Reply(200, Some(code)))
  }

  /** A number in [1000, 9999] has four decimal digits. */
  lemma FourDigits(n: int)
    requires 1000 <= n <= 9999
    ensures |NatToString(n)| == 4
  {
    assert NatToString(n) == NatToString(n / 10) + [DigitChar(n % 10)];
    assert NatToString(n / 10) == NatToString(n / 100) + [DigitChar(n / 10 % 10)];
    assert NatToString(n / 100) == NatToString(n / 1000) + [DigitChar(n / 100 % 10)];
  }

  /** After `sendOtp` the identifier's latest token is the code just sent:
      ACTIVE, unused, and valid for five minutes. */
  lemma SentCodeIsRedeemable(vs: Table<Verification>, mobileEmail: string, verificationType: Option<string>,
                             random: real, now: Time)
    requires 0.0 <= random < 1.0 && mobileEmail != ""
    ensures var (vs1, reply) := SendOtp(vs, Some(mobileEmail), verificationType, random, now);
            var v := FindFirst(vs1.docs, (v: Verification) => ForIdentifier(v, mobileEmail));
            && v.Some?
            && Redeemable(v.value.tokens, reply.otp.value, now)
            && Redeemable(v.value.tokens, reply.otp.value, now + OtpLifetimeMs)
            && !Redeemable(v.value.tokens, reply.otp.value, now + OtpLifetimeMs + 1)
  {
    var p := (v: Verification) => ForIdentifier(v, mobileEmail);
    var (vs1, reply) := SendOtp(vs, Some(mobileEmail), verificationType, random, now);
    match FirstMatch(vs.docs, p)
    case None =>
      var created := Verification(vs.nextId, mobileEmail, [NewToken(reply.otp.value, verificationType, now)], Some(Active), now);
      assert vs1.docs == vs.docs + [created];
      FirstMatchAppended(vs.docs, created, p);
    case Some(i) =>
      var tok := NewToken(reply.otp.value, verificationType, now);
      var v := vs.docs[i].(tokens := vs.docs[i].tokens + [tok], status := Some(Active), modifiedAt := now);
      assert vs1.docs == vs.docs[i := v];
      FirstMatchKept(vs.docs, p, i, v);
  }

  // -------------------------------------------------------------- resendOtp

  datatype ResendReply = ResendReply(code: int, otp: Option<string>, attempts: Option<nat>)

  /** The positional update of `resendOtp`: the FIRST token carrying the
      code gets the new count and expiry. */
  function ResendFirstWithCode(tokens: seq<OtpToken>, code: string, attempts: nat, expiresAt: Time): (r: seq<OtpToken>)
    ensures |r| == |tokens|
    ensures (forall j :: 0 <= j < |tokens| ==> tokens[j].code != code) ==> r == tokens
    ensures forall j {:trigger r[j]} :: 0 <= j < |tokens| ==>
              if tokens[j].code == code && (forall k :: 0 <= k < j ==> tokens[k].code != code)
              then r[j] == tokens[j].(resendAttempts := attempts, expiresAt := expiresAt)
              else r[j] == tokens[j]
  {
    UpdateFirst(tokens, (t: OtpToken) => t.code == code,
                (t: OtpToken) => t.(resendAttempts := attempts, expiresAt := expiresAt))
  }

  /** `resendOtp` on the identifier's token list (the 400 for a missing
      identifier and the 404 for a missing record are in `ResendOtp`): 400
      with no tokens; the last token's count plus one above three is 429
      with nothing written; otherwise the count and a new five-minute expiry
      are stored and the same code is returned. */
  function ResendOnTokens(tokens: seq<OtpToken>, now: Time): (r: (seq<OtpToken>, ResendReply))
    ensures |tokens| == 0 ==> r == (tokens, ResendReply(400, None, None))
    ensures |tokens| > 0 ==>
              var last := tokens[|tokens| - 1];
              && (r.1.code == 429 <==> last.resendAttempts + 1 > MaxResends)
              && (r.1.code == 429 ==> r.0 == tokens)
              && (r.1.code != 429 ==>
                    && r.1 == ResendReply(200, Some(last.code), Some(last.resendAttempts + 1))
                    && r.0 == ResendFirstWithCode(tokens, last.code, last.resendAttempts + 1, now + OtpLifetimeMs))
  {
    if |tokens| == 0 then (tokens, ResendReply(400, None, None))
    else
      var last := tokens[|tokens| - 1];
      var attempts := last.resendAttempts + 1;
      if attempts > MaxResends then (tokens, ResendReply(429, None, None))
      else (ResendFirstWithCode(tokens, last.code, attempts, now + OtpLifetimeMs),
            ResendReply(200, Some(last.code), Some(attempts)))
  }

  /** `resendOtp`: 400 without an identifier, 404 without a record. */
  function ResendOtp(vs: Table<Verification>, mobileEmail: Option<string>, now: Time): (r: (Table<Verification>, ResendReply))
    ensures !Truthy(mobileEmail) ==> r == (vs, ResendReply(400, None, None))
    ensures Truthy(mobileEmail) && FindFirst(vs.docs, (v: Verification) => ForIdentifier(v, mobileEmail.value)).None? ==>
              r == (vs, ResendReply(404, None, None))
    ensures r.1.code != 200 ==> r.0 == vs
    ensures r.0.nextId == vs.nextId && |r.0.docs| == |vs.docs|
  {
    if !Truthy(mobileEmail) then (vs, ResendReply(400, None, None))
    else
      match FirstMatch(vs.docs, (v: Verification) => ForIdentifier(v, mobileEmail.value))
      case None => (vs, ResendReply(404, None, None))
      case Some(i) =>
        var v := vs.docs[i];
        var (tokens, reply) := ResendOnTokens(v.tokens, now);
        if reply.code != 200 then (vs, reply)
        else (Table(vs.docs[i := v.(tokens := tokens)], vs.nextId), reply)
  }

  /** When no earlier token shares the last token's code, the fourth
      resend of a fresh code is refused. */
  lemma UniqueCodeResendLimit(tokens: seq<OtpToken>, now1: Time, now2: Time, now3: Time, now4: Time)
    requires |tokens| > 0 && tokens[|tokens| - 1].resendAttempts == 0
    requires forall j :: 0 <= j < |tokens| - 1 ==> tokens[j].code != tokens[|tokens| - 1].code
    ensures var (t1, _) := ResendOnTokens(tokens, now1);
            var (t2, _) := ResendOnTokens(t1, now2);
            var (t3, _) := ResendOnTokens(t2, now3);
            ResendOnTokens(t3, now4).1.code == 429
  {
    var last := |tokens| - 1;
    var code := tokens[last].code;
    var p := (t: OtpToken) => t.code == code;
    assert FirstMatch(tokens, p) == Some(last);
    var (t1, _) := ResendOnTokens(tokens, now1);
    assert t1[last].resendAttempts == 1 && t1[last].code == code;
    assert forall j :: 0 <= j < last ==> t1[j] == tokens[j];
    assert FirstMatch(t1, p) == Some(last);
    var (t2, _) := ResendOnTokens(t1, now2);
    assert t2[last].resendAttempts == 2 && t2[last].code == code;
    assert forall j :: 0 <= j < last ==> t2[j] == tokens[j];
    assert FirstMatch(t2, p) == Some(last);
    var (t3, _) := ResendOnTokens(t2, now3);
    assert t3[last].resendAttempts == 3;
  }

  /** As written, when an earlier token shares the last token's code, every
      resend writes the count to the earlier token, the last token's count
      stays at zero, and the resend limit is never reached. */
  lemma SharedCodeDefeatsResendLimit(tokens: seq<OtpToken>, now: Time)
    requires |tokens| > 0 && tokens[|tokens| - 1].resendAttempts == 0
    requires exists j :: 0 <= j < |tokens| - 1 && tokens[j].code == tokens[|tokens| - 1].code
    ensures ResendOnTokens(tokens, now).1.code == 200
    ensures ResendOnTokens(tokens, now).0[|tokens| - 1] == tokens[|tokens| - 1]
  {
    var code := tokens[|tokens| - 1].code;
    var i := FirstMatch(tokens, (t: OtpToken) => t.code == code).value;
    assert i < |tokens| - 1;
  }

  /** `resendOtp` as evidently intended: the count and expiry land on the
      last token, the one the count was read from. */
  function ResendOnTokensFixed(tokens: seq<OtpToken>, now: Time): (r: (seq<OtpToken>, ResendReply))
    ensures r.1 == ResendOnTokens(tokens, now).1
    ensures r.1.code == 200 ==>
              var last := tokens[|tokens| - 1];
              r.0 == tokens[|tokens| - 1 := last.(resendAttempts := last.resendAttempts + 1, expiresAt := now + OtpLifetimeMs)]
    ensures r.1.code != 200 ==> r.0 == tokens
  {
    if |tokens| == 0 then (tokens, ResendReply(400, None, None))
    else
      var last := tokens[|tokens| - 1];
      var attempts := last.resendAttempts + 1;
      if attempts > MaxResends then (tokens, ResendReply(429, None, None))
      else (tokens[|tokens| - 1 := last.(resendAttempts := attempts, expiresAt := now + OtpLifetimeMs)],
            ResendReply(200, Some(last.code), Some(attempts)))
  }

  /** With the corrected update, the fourth resend of a fresh code is
      refused whatever the earlier tokens hold. */
  lemma ResendLimitHolds(tokens: seq<OtpToken>, now1: Time, now2: Time, now3: Time, now4: Time)
    requires |tokens| > 0 && tokens[|tokens| - 1].resendAttempts == 0
    ensures var (t1, _) := ResendOnTokensFixed(tokens, now1);
            var (t2, _) := ResendOnTokensFixed(t1, now2);
            var (t3, _) := ResendOnTokensFixed(t2, now3);
            ResendOnTokensFixed(t3, now4).1.code == 429
  {
  }

  // -------------------------------------------------------- getOrCreateUser

  /** The user `getOrCreateUser` inserts for a new identifier. */
  function NewUser(id: Id, mobileEmail: string, role: string, name: Option<string>, source: Option<string>,
                   googleId: Option<string>, now: Time): UsersStore.User
  {
    var isEmail := '@' in mobileEmail;
    UsersStore.User(
      id,
      Some(if Truthy(name) then name.value else "Guest"),
      if mobileEmail != "" && !isEmail then Some(mobileEmail) else None,
      Some(true),
      if mobileEmail != "" && isEmail then Some(mobileEmail) else None,
      Some(isEmail),
      Some(true),
      if Truthy(googleId) then googleId else None,
      Some(role),
      Some("ACTIVE"),
      Some(if Truthy(source) then source.value else ""),
      Some(false),
      Some(now),
      Some(now),
      map[])
  }

  /** The existing user for an identifier: by mobile first, then by email.
      Soft-deleted users are not excluded. */
  function ExistingUser(users: UsersStore.Store, mobileEmail: string): (r: Option<UsersStore.User>)
    ensures r.Some? ==> r.value in users.docs && (r.value.mobile == Some(mobileEmail) || r.value.email == Some(mobileEmail))
    ensures r.None? <==> forall j :: 0 <= j < |users.docs| ==>
                           users.docs[j].mobile != Some(mobileEmail) && users.docs[j].email != Some(mobileEmail)
    ensures (exists j :: 0 <= j < |users.docs| && users.docs[j].mobile == Some(mobileEmail)) ==>
              r.value.mobile == Some(mobileEmail)
  {
    var byMobile := FindFirst(users.docs, (u: UsersStore.User) => u.mobile == Some(mobileEmail));
    if byMobile.Some? then byMobile
    else FindFirst(users.docs, (u: UsersStore.User) => u.email == Some(mobileEmail))
  }

  /** `getOrCreateUser`: the existing user, unchanged; otherwise an error
      when no role is given; otherwise a new user. */
  function GetOrCreateUser(users: UsersStore.Store, mobileEmail: string, role: Option<string>, name: Option<string>,
                           source: Option<string>, googleId: Option<string>, now: Time): (r: (UsersStore.Store, Result<UsersStore.User>))
    ensures ExistingUser(users, mobileEmail).Some? ==> r == (users, Ok(ExistingUser(users, mobileEmail).value))
    ensures ExistingUser(users, mobileEmail).None? && !Truthy(role) ==> r == (users, Err(RoleRequired))
    ensures ExistingUser(users, mobileEmail).None? && Truthy(role) ==>
              && r.1.Ok? && r.0 == UsersStore.Store(users.docs + [r.1.value], users.nextId + 1)
              && r.1.value.id == users.nextId
              && r.1.value.role == role
              && r.1.value.emailVerified == Some('@' in mobileEmail)
              && (r.1.value.email.Some? <==> mobileEmail != "" && '@' in mobileEmail)
              && (r.1.value.mobile.Some? <==> mobileEmail != "" && '@' !in mobileEmail)
              && (Truthy(name) ==> r.1.value.name == name)
              && (!Truthy(name) ==> r.1.value.name == Some("Guest"))
    ensures UsersStore.Valid(users) ==> UsersStore.Valid(r.0)
  {
    var existing := ExistingUser(users, mobileEmail);
    if existing.Some? then (users, Ok(existing.value))
    else if !Truthy(role) then (users, Err(RoleRequired))
    else
      var u := NewUser(users.nextId, mobileEmail, role.value, name, source, googleId, now);
      AppendFresh(users.docs, UsersStore.IdOf, users.nextId, u);
      (UsersStore.Store(users.docs + [u], users.nextId + 1), Ok(u))
  }

  /** A user created for an identifier is found for it on the next login. */
  lemma CreatedUserIsFoundAgain(users: UsersStore.Store, mobileEmail: string, role: Option<string>, name: Option<string>,
                                source: Option<string>, googleId: Option<string>, now: Time, role2: Option<string>, later: Time)
    requires mobileEmail != ""
    requires GetOrCreateUser(users, mobileEmail, role, name, source, googleId, now).1.Ok?
    ensures var (users1, u) := GetOrCreateUser(users, mobileEmail, role, name, source, googleId, now);
            GetOrCreateUser(users1, mobileEmail, role2, None, None, None, later) == (users1, u)
  {
    var (users1, u) := GetOrCreateUser(users, mobileEmail, role, name, source, googleId, now);
    if ExistingUser(users, mobileEmail).None? {
      var k := |users.docs|;
      assert users1.docs[k] == u.value;
      if '@' in mobileEmail {
        assert users1.docs[k].email == Some(mobileEmail);
        assert forall j :: 0 <= j < k ==> users1.docs[j] == users.docs[j];
      } else {
        assert users1.docs[k].mobile == Some(mobileEmail);
        assert forall j :: 0 <= j < k ==> users1.docs[j] == users.docs[j];
      }
    }
  }

  // ----------------------------------------------------- createTokens, refresh

  /** `createTokens`: an ACTIVE refresh token and an ACTIVE access token
      referring to it, both expiring thirty days (`TokenLifetimeMs`) from
      `now`. */
  function CreateTokens(db: AuthDb, user: UsersStore.User, platformId: Option<Id>, now: Time,
                        signAccess: Signer, signRefresh: Signer): (r: (AuthDb, string, string))
    ensures r.1 == signAccess(user.id, user.role) && r.2 == signRefresh(user.id, user.role)
    ensures r.0.verifications == db.verifications && r.0.users == db.users
    ensures r.0.refreshTokens.docs == db.refreshTokens.docs
              + [RefreshRecord(db.refreshTokens.nextId, user.id, platformId, r.2, Some(Active), Some(now + TokenLifetimeMs))]
    ensures r.0.accessTokens.docs == db.accessTokens.docs
              + [AccessRecord(db.accessTokens.nextId, user.id, db.refreshTokens.nextId, r.1, Some(Active), Some(now + TokenLifetimeMs))]
  {
    var access := signAccess(user.id, user.role);
    var refresh := signRefresh(user.id, user.role);
    var rt := RefreshRecord(db.refreshTokens.nextId, user.id, platformId, refresh, Some(Active), Some(now + TokenLifetimeMs));
    var at := AccessRecord(db.accessTokens.nextId, user.id, rt.id, access, Some(Active), Some(now + TokenLifetimeMs));
    (db.(refreshTokens := Table(db.refreshTokens.docs + [rt], db.refreshTokens.nextId + 1),
         accessTokens := Table(db.accessTokens.docs + [at], db.accessTokens.nextId + 1)),
     access, refresh)
  }

  predicate ActiveWithToken(t: RefreshRecord, token: Option<string>)
  {
    token == Some(t.token) && t.status == Some(Active)
  }

  datatype TokenReply = TokenReply(code: int, accessToken: Option<string>)

  /** `refresh`: 401 unless an ACTIVE refresh token with that value exists;
      otherwise a new access token, signed without the role and stored
      without an expiry. */
  function Refresh(db: AuthDb, token: Option<string>, signAccess: Signer): (r: (AuthDb, TokenReply))
    ensures (forall j :: 0 <= j < |db.refreshTokens.docs| ==> !ActiveWithToken(db.refreshTokens.docs[j], token)) ==>
              r == (db, TokenReply(401, None))
    ensures r.1.code == 200 <==> exists j :: 0 <= j < |db.refreshTokens.docs| && ActiveWithToken(db.refreshTokens.docs[j], token)
    ensures r.1.code == 200 ==>
              var stored := FindFirst(db.refreshTokens.docs, (t: RefreshRecord) => ActiveWithToken(t, token)).value;
              && r.1.accessToken == Some(signAccess(stored.userId, None))
              && r.0 == db.(accessTokens := Table(db.accessTokens.docs
                              + [AccessRecord(db.accessTokens.nextId, stored.userId, stored.id, r.1.accessToken.value, Some(Active), None)],
                                                 db.accessTokens.nextId + 1))
  {
    var stored := FindFirst(db.refreshTokens.docs, (t: RefreshRecord) => ActiveWithToken(t, token));
    if stored.None? then (db, TokenReply(401, None))
    else
      var s := stored.value;
      var access := signAccess(s.userId, None);
      var at := AccessRecord(db.accessTokens.nextId, s.userId, s.id, access, Some(Active), None);
      (db.(accessTokens := Table(db.accessTokens.docs + [at], db.accessTokens.nextId + 1)), TokenReply(200, Some(access)))
  }

  /** A refresh token `createTokens` has just stored is accepted by
      `refresh`; when no earlier ACTIVE record holds the same value, the new
      access token is signed for the same user and refers to that stored
      record. */
  lemma RefreshAcceptsCreatedToken(db: AuthDb, user: UsersStore.User, platformId: Option<Id>, now: Time,
                                   signAccess: Signer, signRefresh: Signer)
    ensures var (db1, _, refresh) := CreateTokens(db, user, platformId, now, signAccess, signRefresh);
            Refresh(db1, Some(refresh), signAccess).1.code == 200
    ensures var (db1, _, refresh) := CreateTokens(db, user, platformId, now, signAccess, signRefresh);
            (forall j :: 0 <= j < |db.refreshTokens.docs| ==> !ActiveWithToken(db.refreshTokens.docs[j], Some(refresh))) ==>
              var (db2, reply) := Refresh(db1, Some(refresh), signAccess);
              && reply.accessToken == Some(signAccess(user.id, None))
              && db2.accessTokens.docs[|db1.accessTokens.docs|].refreshId == db.refreshTokens.nextId
              && db2.accessTokens.docs[|db1.accessTokens.docs|].userId == user.id
  {
    var (db1, _, refresh) := CreateTokens(db, user, platformId, now, signAccess, signRefresh);
    var k := |db.refreshTokens.docs|;
    assert ActiveWithToken(db1.refreshTokens.docs[k], Some(refresh));
    if forall j :: 0 <= j < k ==> !ActiveWithToken(db.refreshTokens.docs[j], Some(refresh)) {
      assert forall j :: 0 <= j < k ==> db1.refreshTokens.docs[j] == db.refreshTokens.docs[j];
      FirstMatchAt(db1.refreshTokens.docs, (t: RefreshRecord) => ActiveWithToken(t, Some(refresh)), k);
    }
  }

  // --------------------------------------------------------------- otpLogin

  /** The `otpLogin` request body. */
  datatype LoginBody = LoginBody(
    mobileEmail: string, otp: string, platformId: Option<Id>, name: Option<string>,
    source: Option<string>, googleId: Option<string>, role: Option<string>)

  datatype LoginReply = LoginReply(code: int, accessToken: Option<string>, refreshToken: Option<string>, userId: Option<Id>)

  /** `otpLogin`: 404 without a verification record; 400 when the code is
      refused or a new user has no role, keeping whatever the validation
      already wrote; otherwise tokens for the found or created user. */
  function OtpLogin(db: AuthDb, b: LoginBody, now: Time, signAccess: Signer, signRefresh: Signer): (r: (AuthDb, LoginReply))
    ensures FindFirst(db.verifications.docs, (v: Verification) => ForIdentifier(v, b.mobileEmail)).None? ==>
              r == (db, LoginReply(404, None, None, None))
    ensures r.1.code == 200 ==>
              var v := FindFirst(db.verifications.docs, (v: Verification) => ForIdentifier(v, b.mobileEmail));
              && v.Some? && Redeemable(v.value.tokens, b.otp, now)
              && r.1.accessToken.Some? && r.1.refreshToken.Some? && r.1.userId.Some?
              && |r.0.refreshTokens.docs| == |db.refreshTokens.docs| + 1
              && |r.0.accessTokens.docs| == |db.accessTokens.docs| + 1
    ensures r.1.code != 200 ==> r.1.code == 404 || r.1.code == 400
    ensures r.1.code != 200 ==> r.0.refreshTokens == db.refreshTokens && r.0.accessTokens == db.accessTokens
                                && r.0.users == db.users
    ensures var i := FirstMatch(db.verifications.docs, (v: Verification) => ForIdentifier(v, b.mobileEmail));
            i.Some? ==>
              var v := db.verifications.docs[i.value];
              && (r.1.code == 200 <==>
                    Redeemable(v.tokens, b.otp, now) && (ExistingUser(db.users, b.mobileEmail).Some? || Truthy(b.role)))
              && r.0.verifications
                 == Table(db.verifications.docs[i.value := v.(tokens := ValidateOtp(v.tokens, b.otp, now).0)],
                          db.verifications.nextId)
    ensures r.1.code == 200 ==>
              var (users, user) := GetOrCreateUser(db.users, b.mobileEmail, b.role, b.name, b.source, b.googleId, now);
              && user.Ok? && r.0.users == users
              && r.1 == LoginReply(200, Some(signAccess(user.value.id, user.value.role)),
                                   Some(signRefresh(user.value.id, user.value.role)), Some(user.value.id))
  {
    match FirstMatch(db.verifications.docs, (v: Verification) => ForIdentifier(v, b.mobileEmail))
    case None => (db, LoginReply(404, None, None, None))
    case Some(i) =>
      var v := db.verifications.docs[i];
      var (tokens, checked) := ValidateOtp(v.tokens, b.otp, now);
      var db1 := db.(verifications := Table(db.verifications.docs[i := v.(tokens := tokens)], db.verifications.nextId));
      if checked.Err? then (db1, LoginReply(400, None, None, None))
      else
        var (users, user) := GetOrCreateUser(db1.users, b.mobileEmail, b.role, b.name, b.source, b.googleId, now);
        if user.Err? then (db1, LoginReply(400, None, None, None))
        else
          var (db2, access, refresh) := CreateTokens(db1.(users := users), user.value, b.platformId, now, signAccess, signRefresh);
          (db2, LoginReply(200, Some(access), Some(refresh), Some(user.value.id)))
  }

  /** No earlier token carries the latest token's code. */
  predicate LatestCodeUnique(tokens: seq<OtpToken>)
  {
    forall j :: 0 <= j < |tokens| - 1 ==> tokens[j].code != tokens[|tokens| - 1].code
  }

  /** A first login without a role fails, yet the code is spent: the
      validation's write happens before the role check, so a retry with a
      role is refused too. */
  lemma RoleMissingStillSpendsCode(db: AuthDb, b: LoginBody, now: Time, signAccess: Signer, signRefresh: Signer)
    requires !Truthy(b.role) && ExistingUser(db.users, b.mobileEmail).None?
    requires var v := FindFirst(db.verifications.docs, (v: Verification) => ForIdentifier(v, b.mobileEmail));
             v.Some? && Redeemable(v.value.tokens, b.otp, now) && LatestCodeUnique(v.value.tokens)
    ensures var (db1, reply) := OtpLogin(db, b, now, signAccess, signRefresh);
            var v1 := FindFirst(db1.verifications.docs, (v: Verification) => ForIdentifier(v, b.mobileEmail));
            && reply.code == 400
            && v1.Some? && !Redeemable(v1.value.tokens, b.otp, now)
  {
    var p := (v: Verification) => ForIdentifier(v, b.mobileEmail);
    var i := FirstMatch(db.verifications.docs, p).value;
    var v := db.verifications.docs[i];
    var tokens := ValidateOtp(v.tokens, b.otp, now).0;
    SpentCodeStaysSpent(v.tokens, b.otp, now, now);
    var db1 := OtpLogin(db, b, now, signAccess, signRefresh).0;
    var docs1 := db.verifications.docs[i := v.(tokens := tokens)];
    assert db1.verifications.docs == docs1;
    FirstMatchKept(db.verifications.docs, p, i, v.(tokens := tokens));
    assert docs1[i].tokens == tokens;
  }

  /** A login spends its code: when no earlier token shares the latest
      code, the latest token is the one marked used, so the code is not
      redeemable again at any time. */
  lemma SpentCodeStaysSpent(tokens: seq<OtpToken>, code: string, now: Time, later: Time)
    requires Redeemable(tokens, code, now) && LatestCodeUnique(tokens)
    ensures !Redeemable(ValidateOtp(tokens, code, now).0, code, later)
  {
    var last := |tokens| - 1;
    var r := ValidateOtp(tokens, code, now).0;
    assert r == MarkFirstWithCode(tokens, code, None);
    assert r[last] == tokens[last].(status := None);
  }


  /** A code logs in once: when no earlier token shares the latest code, a
      second login with it, at any later time, is refused with 400 and
      issues no tokens. */
  lemma LoginCodeWorksOnce(db: AuthDb, b: LoginBody, now: Time, later: Time, signAccess: Signer, signRefresh: Signer)
    requires var v := FindFirst(db.verifications.docs, (v: Verification) => ForIdentifier(v, b.mobileEmail));
             v.Some? && LatestCodeUnique(v.value.tokens)
    requires OtpLogin(db, b, now, signAccess, signRefresh).1.code == 200
    ensures var (db1, _) := OtpLogin(db, b, now, signAccess, signRefresh);
            var (db2, reply) := OtpLogin(db1, b, later, signAccess, signRefresh);
            && reply.code == 400
            && db2.accessTokens == db1.accessTokens && db2.refreshTokens == db1.refreshTokens
  {
    var p := (v: Verification) => ForIdentifier(v, b.mobileEmail);
    var i := FirstMatch(db.verifications.docs, p).value;
    var v := db.verifications.docs[i];
    var tokens := ValidateOtp(v.tokens, b.otp, now).0;
    SpentCodeStaysSpent(v.tokens, b.otp, now, later);
    var db1 := OtpLogin(db, b, now, signAccess, signRefresh).0;
    var docs1 := db.verifications.docs[i := v.(tokens := tokens)];
    assert db1.verifications.docs == docs1;
    FirstMatchKept(db.verifications.docs, p, i, v.(tokens := tokens));
    assert docs1[i].tokens == tokens;
  }
}

=== FILE: pagination.dfy ===
/** `parsePagination` (src/utils/pagination.ts) and the JavaScript
    `parseInt` it builds on. */
module Pagination {
  import opened Common
  import opened Text

  /** The value of `c` as a digit in base `radix` (10 or 16). */
  function DigitValue(c: char, radix: nat): Option<nat>
  {
    if '0' <= c <= '9' then Some(c as int - '0' as int)
    else if radix == 16 && 'a' <= c <= 'f' then Some(c as int - 'a' as int + 10)
    else if radix == 16 && 'A' <= c <= 'F' then Some(c as int - 'A' as int + 10)
    else None
  }

  /** The longest prefix of `s` made of base-`radix` digits. */
  function DigitPrefix(s: string, radix: nat): (r: string)
    ensures |r| <= |s| && r == s[..|r|]
    ensures forall i :: 0 <= i < |r| ==> DigitValue(r[i], radix).Some?
    ensures |r| < |s| ==> DigitValue(s[|r|], radix).None?
  {
    if |s| > 0 && DigitValue(s[0], radix).Some? then [s[0]] + DigitPrefix(s[1..], radix) else ""
  }

  /** The number the digit string `ds` denotes in base `radix`. */
  function DigitsValue(ds: string, radix: nat): nat
    requires forall i :: 0 <= i < |ds| ==> DigitValue(ds[i], radix).Some?
  {
    if |ds| == 0 then 0
    else
      var high := DigitsValue(ds[..|ds| - 1], radix);
      (if radix == 16 then high * 16 else high * 10) + DigitValue(ds[|ds| - 1], radix).value
  }

  /** The unsigned part of `parseInt`: a `0x`/`0X` prefix switches to
      base 16, and the longest run of digits that follows is the value; no
      digits gives NaN (`None`). */
  function ParseUnsigned(u: string): Option<nat>
  {
    var hex := |u| >= 2 && u[0] == '0' && (u[1] == 'x' || u[1] == 'X');
    var radix := if hex then 16 else 10;
    var ds := DigitPrefix(if hex then u[2..] else u, radix);
    if |ds| == 0 then None else Some(DigitsValue(ds, radix))
  }

  /** `parseInt(s)` with no radix: leading white space is skipped and one
      sign is read before the unsigned part. */
  function ParseInt(s: string): Option<int>
  {
    var t := TrimStart(s);
    if |t| > 0 && t[0] == '-' then
      match ParseUnsigned(t[1..])
      case None => None
      case Some(v) => Some(-(v as int))
    else if |t| > 0 && t[0] == '+' then
      match ParseUnsigned(t[1..])
      case None => None
      case Some(v) => Some(v)
    else
      match ParseUnsigned(t)
      case None => None
      case Some(v) => Some(v)
  }

  /** `String(query.x)` — what `parseInt` sees for each shape of query value. */
  function QueryText(q: QueryParam): string
  {
    match q
    case Missing => "undefined"
    case Text(s) => s
    case Many(items) => Join(items, ",")
    case Nested => "[object Object]"
  }

  datatype PaginationParams = PaginationParams(page: int, limit: int, skip: int)

  /** `Math.max(parsed || fallback, 1)`: NaN and 0 are falsy and give the
      fallback; anything below 1 is clamped to 1. */
  function AtLeastOne(parsed: Option<int>, fallback: int): (r: int)
    requires fallback >= 1
    ensures r >= 1
    ensures (parsed.None? || parsed.value == 0) ==> r == fallback
    ensures parsed.Some? && parsed.value < 0 ==> r == 1
    ensures parsed.Some? && parsed.value > 0 ==> r == parsed.value
  {
    var v := if parsed.None? || parsed.value == 0 then fallback else parsed.value;
    if v < 1 then 1 else v
  }

  const DefaultPage: int := 1
  const DefaultLimit: int := 10

  /** The page window for a normalised page and limit. */
  function Window(page: int, limit: int): (r: PaginationParams)
    requires page >= 1 && limit >= 1
    ensures r.page == page && r.limit == limit
    ensures r.skip >= 0 && r.skip == (page - 1) * limit
  {
    PaginationParams(page, limit, (page - 1) * limit)
  }

  /** `parsePagination(query)`. */
  function ParsePagination(page: QueryParam, limit: QueryParam): (r: PaginationParams)
    ensures r.page >= 1 && r.limit >= 1
    ensures r == Window(r.page, r.limit)
    ensures r.page == AtLeastOne(ParseInt(QueryText(page)), DefaultPage)
    ensures r.limit == AtLeastOne(ParseInt(QueryText(limit)), DefaultLimit)
  {
    var p := AtLeastOne(ParseInt(QueryText(page)), DefaultPage);
    var l := AtLeastOne(ParseInt(QueryText(limit)), DefaultLimit);
    Window(p, l)
  }

  /** `parseInt(undefined)` is NaN: `"undefined"` has no digits. */
  lemma MissingIsNaN()
    ensures ParseInt(QueryText(Missing)).None?
  {
    var u := QueryText(Missing);
    assert |u| == 9 && u[0] == 'u';
    assert !IsSpace(u[0]);
    assert TrimStart(u) == u;
    assert DigitValue(u[0], 10).None?;
    assert DigitPrefix(u, 10) == "";
    assert ParseUnsigned(u).None?;
  }

  /** Leading white space includes the Unicode space separators: an
      ideographic space before the digits is skipped, so `?page=%E3%80%805`
      is page 5. */
  lemma IdeographicSpaceSkipped()
    ensures ParseInt("\U{3000}5") == Some(5)
    ensures ParsePagination(Text("\U{3000}5"), Missing).page == 5
  {
    var s := "\U{3000}5";
    assert s[1..] == "5";
    TrimStartKeepsNonSpace("5");
    assert TrimStart(s) == "5";
    assert DigitValue('5', 10) == Some(5);
    assert DigitPrefix("5", 10) == "5";
    assert DigitsValue("5", 10) == 5;
    assert ParseUnsigned("5") == Some(5);
  }

  /** A missing, unparseable or zero page is page 1 and a missing,
      unparseable or zero limit is 10; a negative one clamps to 1 instead. */
  lemma DefaultsAndClamping(page: QueryParam, limit: QueryParam)
    ensures var pp := ParseInt(QueryText(page));
            (pp.None? || pp == Some(0)) ==> ParsePagination(page, limit).page == 1
    ensures var pl := ParseInt(QueryText(limit));
            (pl.None? || pl == Some(0)) ==> ParsePagination(page, limit).limit == 10
    ensures var pl := ParseInt(QueryText(limit));
            pl.Some? && pl.value < 0 ==> ParsePagination(page, limit).limit == 1
    ensures ParsePagination(Missing, Missing) == PaginationParams(1, 10, 0)
  {
    MissingIsNaN();
  }

  predicate IsDecimalDigit(c: char) { '0' <= c <= '9' }

  /** Prepending decimal digits to a string extends its base-10 digit prefix. */
  lemma {:induction false} DigitPrefixAppend(a: string, rest: string)
    requires forall i :: 0 <= i < |a| ==> IsDecimalDigit(a[i])
    ensures DigitPrefix(a + rest, 10) == a + DigitPrefix(rest, 10)
  {
    if |a| > 0 {
      assert (a + rest)[1..] == a[1..] + rest;
      DigitPrefixAppend(a[1..], rest);
      assert [a[0]] + (a[1..] + DigitPrefix(rest, 10)) == a + DigitPrefix(rest, 10);
    } else {
      assert a + rest == rest;
    }
  }

  /** The decimal digits of `n` denote `n`. */
  lemma {:induction false} DigitsValueOfNatToString(n: nat)
    ensures forall i :: 0 <= i < |NatToString(n)| ==> DigitValue(NatToString(n)[i], 10).Some?
    ensures DigitsValue(NatToString(n), 10) == n
  {
    if n >= 10 {
      DigitsValueOfNatToString(n / 10);
      var s := NatToString(n);
      assert s[..|s| - 1] == NatToString(n / 10);
    }
  }

  /** The unsigned reader takes the decimal text of `n`, followed by any
      text that neither continues the digits nor forms a `0x` prefix, as `n`. */
  lemma ParseUnsignedDecimal(n: nat, rest: string)
    requires |rest| == 0 || (!IsDecimalDigit(rest[0]) && rest[0] != 'x' && rest[0] != 'X')
    ensures ParseUnsigned(NatToString(n) + rest) == Some(n)
  {
    var a := NatToString(n);
    var s := a + rest;
    assert s[0] == a[0];
    assert !(|s| >= 2 && s[0] == '0' && (s[1] == 'x' || s[1] == 'X')) by {
      if |a| > 1 { assert s[1] == a[1]; } else if |rest| > 0 { assert s[1] == rest[0]; }
    }
    DigitPrefixAppend(a, rest);
    assert DigitPrefix(rest, 10) == "";
    assert DigitPrefix(s, 10) == a;
    DigitsValueOfNatToString(n);
  }

  /** `parseInt(String(n) + rest)` reads `n` back, whatever non-digit text
      follows it (`"10abc"` parses as 10). */
  lemma ParseIntReadsDecimalPrefix(n: nat, rest: string)
    requires |rest| == 0 || (!IsDecimalDigit(rest[0]) && rest[0] != 'x' && rest[0] != 'X')
    ensures ParseInt(NatToString(n) + rest) == Some(n)
  {
    var s := NatToString(n) + rest;
    assert s[0] == NatToString(n)[0];
    assert TrimStart(s) == s;
    ParseUnsignedDecimal(n, rest);
  }

  /** `parseInt(String(x)) == x` for every integer `x` (JavaScript's `-0`
      is the integer 0 here). */
  lemma ParseIntRoundTrip(x: int)
    ensures ParseInt(IntToString(x)) == Some(x)
  {
    if x >= 0 {
      ParseIntReadsDecimalPrefix(x, "");
      assert NatToString(x) + "" == NatToString(x);
    } else {
      ParseIntReadsNegative(-x);
    }
  }

  /** The text of a negative number is a minus sign and the decimal text of
      its magnitude, which `parseInt` reads back with the sign. */
  lemma ParseIntReadsNegative(n: nat)
    ensures ParseInt("-" + NatToString(n)) == Some(-(n as int))
  {
    var a := NatToString(n);
    var s := "-" + a;
    TrimStartKeepsNonSpace(s);
    assert s[1..] == a + "";
    ParseUnsignedDecimal(n, "");
    assert s[0] == '-';
  }

  /** Text that starts with a non-space character has nothing to trim. */
  lemma TrimStartKeepsNonSpace(s: string)
    requires |s| > 0 && !IsSpace(s[0])
    ensures TrimStart(s) == s
  {
  }

  /** A page number sent as the decimal text of a positive integer is the
      page returned, and the skip is exactly the preceding pages' items. */
  lemma PositivePageIsKept(n: nat, limit: QueryParam)
    requires n >= 1
    ensures ParsePagination(Text(NatToString(n)), limit).page == n
    ensures ParsePagination(Text(NatToString(n)), limit)
            == Window(n, ParsePagination(Text(NatToString(n)), limit).limit)
  {
    ParseIntReadsDecimalPrefix(n, "");
    assert NatToString(n) + "" == NatToString(n);
  }
}

=== FILE: payments_controller.dfy ===
/** The payment controller (src/controllers/payments.ts): order creation,
    client-side signature verification, the gateway webhook and its event
    handlers, as state transitions over the bookings and payments
    collections.

    Effects are parameters: the HMAC-SHA256 hex digest is `Env.hmac(secret,
    message)`, `JSON.stringify` of the webhook body is `Env.serialize`, the
    gateway's `orders.create` is a function from the request to an optional
    order (None: the call threw), the clock is `now`, and the booking code
    `Helper.generateBookingId()` is an input (src/utils/helper.ts is not part
    of this model). */
module PaymentsController {
  import opened Common
  import opened Text
  import PaymentsStore
  import BookingsStore

  /** The two collections the controller writes. */
  datatype Db = Db(bookings: BookingsStore.Store, payments: PaymentsStore.Store)

  ghost predicate Valid(db: Db)
  {
    BookingsStore.Valid(db.bookings) && PaymentsStore.Valid(db.payments)
  }

  datatype PaymentEntity = PaymentEntity(id: string, orderId: Option<string>)
  datatype RefundEntity = RefundEntity(id: string, paymentId: string)

  /** A webhook body, by its `event` field. */
  datatype WebhookBody =
    | PaymentCaptured(payment: PaymentEntity)
    | PaymentFailed(payment: PaymentEntity)
    | PaymentAuthorized(payment: PaymentEntity)
    | RefundCreated(refund: RefundEntity)
    | Unhandled(name: string)

  /** The event names `processWebhook` dispatches on. */
  const HandledEvents: set<string> :=
    {"payment.captured", "payment.failed", "payment.authorized", "refund.created"}

  /** A body whose `event` is a handled name always reaches its handler, so
      an unhandled body names some other event. */
  type Event = ev: WebhookBody | ev.Unhandled? ==> ev.name !in HandledEvents witness Unhandled("")

  /** Secrets and the library functions the controller calls. */
  datatype Env = Env(
    keySecret: string,
    webhookSecret: string,
    hmac: (string, string) -> string,
    serialize: Event -> string)

  // ---------------------------------------------------------------- createOrder

  /** The `createOrder` request body. A falsy `amount` (missing or 0) and a
      missing id are `None`. */
  datatype OrderBody = OrderBody(
    amount: Option<int>,
    userId: Option<Id>,
    tripId: Option<Id>,
    quotationId: Option<Id>,
    currency: Option<string>,
    receipt: Option<string>)

  /** The options sent to the gateway's `orders.create`. */
  datatype OrderRequest = OrderRequest(amount: int, currency: string, receipt: string)

  /** The order the gateway returns. */
  datatype GatewayOrder = GatewayOrder(id: string, amount: int, currency: string)

  /** Which of the two inserts, if any, throws. */
  datatype InsertFault = NoFault | BookingInsertFails | PaymentInsertFails

  datatype CreateOrderResult = CreateOrderResult(code: int, db: Db, order: Option<GatewayOrder>)

  const DefaultCurrency: string := "INR"

  /** The body passes the required-field check. */
  predicate HasRequiredFields(b: OrderBody)
  {
    b.amount.Some? && b.amount.value != 0 && b.userId.Some? && b.tripId.Some? && b.quotationId.Some?
  }

  /** The gateway options: the amount in paise, the currency defaulting to
      INR only when absent, the receipt defaulting to `rcpt_<now>` when
      absent or empty. */
  function OrderOptions(amount: int, currency: Option<string>, receipt: Option<string>, now: Time): (r: OrderRequest)
    ensures r.amount == amount * 100
    ensures currency.None? ==> r.currency == DefaultCurrency
    ensures currency.Some? ==> r.currency == currency.value
    ensures (receipt.None? || receipt == Some("")) ==> r.receipt == "rcpt_" + IntToString(now)
    ensures receipt.Some? && receipt.value != "" ==> r.receipt == receipt.value
  {
    OrderRequest(amount * 100,
                 if currency.Some? then currency.value else DefaultCurrency,
                 if receipt.Some? && receipt.value != "" then receipt.value else "rcpt_" + IntToString(now))
  }

  /** `createOrder`: validate, ask the gateway for an order, then insert the
      booking and the payment. The two inserts take no session, so a failure
      of the second leaves the first in place. */
  function CreateOrder(db: Db, b: OrderBody, gateway: OrderRequest -> Option<GatewayOrder>,
                       bookingCode: string, fault: InsertFault, now: Time): (r: CreateOrderResult)
    ensures !HasRequiredFields(b) ==> r == CreateOrderResult(400, db, None)
    ensures HasRequiredFields(b) && gateway(OrderOptions(b.amount.value, b.currency, b.receipt, now)).None? ==>
              r == CreateOrderResult(500, db, None)
    ensures r.code == 200 <==>
              (HasRequiredFields(b) && gateway(OrderOptions(b.amount.value, b.currency, b.receipt, now)).Some?
               && fault == NoFault)
    ensures r.code == 200 ==>
              && r.order == gateway(OrderOptions(b.amount.value, b.currency, b.receipt, now))
              && |r.db.bookings.docs| == |db.bookings.docs| + 1
              && |r.db.payments.docs| == |db.payments.docs| + 1
              && r.db.bookings.docs[..|db.bookings.docs|] == db.bookings.docs
              && r.db.payments.docs[..|db.payments.docs|] == db.payments.docs
              && var bk := r.db.bookings.docs[|db.bookings.docs|];
                 var pm := r.db.payments.docs[|db.payments.docs|];
                 && bk.status == Some(BookingsStore.Created) && bk.amount == b.amount
                 && bk.userId == b.userId && bk.tripId == b.tripId && bk.quotationId == b.quotationId
                 && pm.status == Some(PaymentsStore.Created) && pm.amount == b.amount
                 && pm.userId == b.userId && pm.bookingId == Some(bk.id)
                 && pm.razorpay == Some(PaymentsStore.RazorpayDetails(Some(r.order.value.id), None, None))
    ensures r.code != 200 ==> r.order.None? && r.db.payments == db.payments
    ensures fault == PaymentInsertFails && r.code == 500 && r.db != db ==>
              |r.db.bookings.docs| == |db.bookings.docs| + 1
    ensures Valid(db) ==> Valid(r.db)
  {
    if !HasRequiredFields(b) then CreateOrderResult(400, db, None)
    else
      var order := gateway(OrderOptions(b.amount.value, b.currency, b.receipt, now));
      if order.None? then CreateOrderResult(500, db, None)
      else if fault == BookingInsertFails then CreateOrderResult(500, db, None)
      else
        var (bookings, booking) := BookingsStore.Create(db.bookings,
          BookingsStore.BookingDraft(b.userId.value, b.tripId.value, b.quotationId.value, bookingCode,
                                     b.amount.value, BookingsStore.Created), now);
        if fault != NoFault then CreateOrderResult(500, Db(bookings, db.payments), None)
        else
          var (payments, _) := PaymentsStore.Create(db.payments,
            PaymentsStore.PaymentDraft(b.userId.value, booking.id, b.amount.value,
                                       PaymentsStore.RazorpayDetails(Some(order.value.id), None, None),
                                       PaymentsStore.Created), now);
          CreateOrderResult(200, Db(bookings, payments), order)
  }

  /** A failed payment insert leaves an orphan booking: one more booking,
      no more payments, and a 500. */
  lemma PaymentInsertFailureOrphansBooking(db: Db, b: OrderBody, gateway: OrderRequest -> Option<GatewayOrder>,
                                           bookingCode: string, now: Time)
    requires HasRequiredFields(b) && gateway(OrderOptions(b.amount.value, b.currency, b.receipt, now)).Some?
    ensures var r := CreateOrder(db, b, gateway, bookingCode, PaymentInsertFails, now);
            && r.code == 500
            && |r.db.bookings.docs| == |db.bookings.docs| + 1
            && r.db.bookings.docs[|db.bookings.docs|].status == Some(BookingsStore.Created)
            && r.db.payments == db.payments
  {
  }

  // -------------------------------------------------------------- verifyPayment

  /** The `verifyPayment` request body. */
  datatype VerifyBody = VerifyBody(orderId: Option<string>, paymentId: Option<string>, signature: Option<string>)

  datatype Reply = Reply(code: int, db: Db)

  /** String concatenation of a possibly missing value. */
  function JsText(v: Option<string>): string
  {
    if v.Some? then v.value else "undefined"
  }

  /** The signature the client should have sent. */
  function ExpectedSignature(env: Env, b: VerifyBody): string
  {
    env.hmac(env.keySecret, JsText(b.orderId) + "|" + JsText(b.paymentId))
  }

  /** The `$set` a verified payment receives. */
  function VerifiedPatch(b: VerifyBody): PaymentsStore.PaymentPatch
  {
    PaymentsStore.PaymentPatch(Some(PaymentsStore.RazorpayDetails(b.orderId, b.paymentId, b.signature)),
                               Some(PaymentsStore.Completed))
  }

  /** `verifyPayment`: on a matching signature the payment for the order
      becomes COMPLETED with the payment id and signature stored, and its
      booking becomes COMPLETED; otherwise 400 and nothing is written. */
  function VerifyPayment(env: Env, db: Db, b: VerifyBody): (r: Reply)
    ensures r.code == 200 <==> b.signature == Some(ExpectedSignature(env, b))
    ensures r.code != 200 ==> r.code == 400 && r.db == db
    ensures r.code == 200 ==>
              var found := PaymentsStore.FindByOrderId(db.payments, b.orderId);
              && (found.None? ==> r.db == db)
              && (found.Some? ==>
                    var now := PaymentsStore.FindByOrderId(r.db.payments, b.orderId);
                    && now.Some?
                    && now.value.id == found.value.id
                    && now.value.status == Some(PaymentsStore.Completed)
                    && now.value.razorpay == Some(PaymentsStore.RazorpayDetails(b.orderId, b.paymentId, b.signature))
                    && r.db.bookings == BookingsStore.SetStatusForOrder(db.bookings, r.db.payments, b.orderId,
                                                                        BookingsStore.Completed))
    ensures r.db.payments.nextId == db.payments.nextId && |r.db.payments.docs| == |db.payments.docs|
    ensures forall j :: 0 <= j < |db.payments.docs| ==>
              || r.db.payments.docs[j] == db.payments.docs[j]
              || (&& r.code == 200 && PaymentsStore.NestedOrderId(db.payments.docs[j]) == b.orderId
                  && r.db.payments.docs[j] == PaymentsStore.ApplyPatch(db.payments.docs[j], VerifiedPatch(b)))
  {
    if b.signature == Some(ExpectedSignature(env, b)) then
      var payments := PaymentsStore.Update(db.payments, b.orderId, VerifiedPatch(b));
      var bookings := BookingsStore.SetStatusForOrder(db.bookings, payments, b.orderId, BookingsStore.Completed);
      Reply(200, Db(bookings, payments))
    else
      Reply(400, db)
  }

  /** Once `verifyPayment` has stored the payment id on the order's
      payment, a `refund.created` event for that payment id finds a payment,
      and the corrected refund handler leaves that payment's order REFUNDED. */
  lemma VerifiedPaymentIsRefundable(env: Env, db: Db, b: VerifyBody, refundId: string)
    ensures var r := VerifyPayment(env, db, b);
            r.code == 200 && b.paymentId.Some? && PaymentsStore.FindByOrderId(db.payments, b.orderId).Some? ==>
              var p := PaymentsStore.FindByPaymentId(r.db.payments, b.paymentId.value);
              && p.Some?
              && var r2 := HandleRefundFixed(r.db, RefundEntity(refundId, b.paymentId.value));
                 var q := PaymentsStore.FindByOrderId(r2.payments, PaymentsStore.NestedOrderId(p.value));
                 q.Some? && q.value.status == Some(PaymentsStore.Refunded)
  {
    var r := VerifyPayment(env, db, b);
    if r.code == 200 && b.paymentId.Some? && PaymentsStore.FindByOrderId(db.payments, b.orderId).Some? {
      var verified := PaymentsStore.FindByOrderId(r.db.payments, b.orderId).value;
      assert PaymentsStore.NestedPaymentId(verified) == b.paymentId;
      var j :| 0 <= j < |r.db.payments.docs| && r.db.payments.docs[j] == verified;
      assert PaymentsStore.NestedPaymentId(r.db.payments.docs[j]) == Some(b.paymentId.value);
    }
  }

  /** Verifying the same payment twice has the effect of verifying it once:
      the patched payment keeps its order id, so the second call patches it
      again with the values it already holds. */
  lemma VerifyTwiceIsOnce(env: Env, db: Db, b: VerifyBody)
    ensures var r := VerifyPayment(env, db, b);
            VerifyPayment(env, r.db, b) == r
  {
    var r := VerifyPayment(env, db, b);
    if r.code == 200 {
      PaymentsStore.UpdateIdempotent(db.payments, b.orderId, VerifiedPatch(b));
      BookingsStore.SetStatusForOrderIdempotent(db.bookings, r.db.payments, b.orderId, BookingsStore.Completed);
    }
  }

  // -------------------------------------------------------------------- webhook

  function PaymentDetails(e: PaymentEntity): PaymentsStore.RazorpayDetails
  {
    PaymentsStore.RazorpayDetails(e.orderId, Some(e.id), None)
  }

  /** `handlePaymentCaptured`: skipped when the payment found by order id is
      already SUCCESS; otherwise SUCCESS through `updateByOrderId` and the
      booking CONFIRMED. */
  function HandleCaptured(db: Db, e: PaymentEntity): (r: Db)
    ensures var existing := PaymentsStore.FindByOrderId(db.payments, e.orderId);
            existing.Some? && existing.value.status == Some(PaymentsStore.Success) ==> r == db
    ensures var existing := PaymentsStore.FindByOrderId(db.payments, e.orderId);
            !(existing.Some? && existing.value.status == Some(PaymentsStore.Success)) ==>
              && r.payments == PaymentsStore.UpdateByOrderId(db.payments, e.orderId,
                                 PaymentsStore.PaymentPatch(Some(PaymentDetails(e)), Some(PaymentsStore.Success)))
              && PaymentsStore.FirstTopLevelStatus(r.payments, e.orderId, PaymentsStore.Success)
              && r.bookings == BookingsStore.SetStatusForOrder(db.bookings, r.payments, e.orderId,
                                                               BookingsStore.Confirmed)
    ensures Valid(db) ==> Valid(r)
  {
    var existing := PaymentsStore.FindByOrderId(db.payments, e.orderId);
    if existing.Some? && existing.value.status == Some(PaymentsStore.Success) then db
    else
      var u := PaymentsStore.PaymentPatch(Some(PaymentDetails(e)), Some(PaymentsStore.Success));
      var payments := PaymentsStore.UpdateByOrderId(db.payments, e.orderId, u);
      PaymentsStore.UpdateByOrderIdSetsStatus(db.payments, e.orderId, u);
      Db(BookingsStore.SetStatusForOrder(db.bookings, payments, e.orderId, BookingsStore.Confirmed), payments)
  }

  /** `handlePaymentFailed`: FAILED and the booking CANCELLED, with no
      check of the current status. */
  function HandleFailed(db: Db, e: PaymentEntity): (r: Db)
    ensures r.payments == PaymentsStore.UpdateByOrderId(db.payments, e.orderId,
                            PaymentsStore.PaymentPatch(Some(PaymentDetails(e)), Some(PaymentsStore.Failed)))
    ensures PaymentsStore.FirstTopLevelStatus(r.payments, e.orderId, PaymentsStore.Failed)
    ensures r.bookings == BookingsStore.SetStatusForOrder(db.bookings, r.payments, e.orderId, BookingsStore.Cancelled)
    ensures Valid(db) ==> Valid(r)
  {
    var u := PaymentsStore.PaymentPatch(Some(PaymentDetails(e)), Some(PaymentsStore.Failed));
    var payments := PaymentsStore.UpdateByOrderId(db.payments, e.orderId, u);
    PaymentsStore.UpdateByOrderIdSetsStatus(db.payments, e.orderId, u);
    Db(BookingsStore.SetStatusForOrder(db.bookings, payments, e.orderId, BookingsStore.Cancelled), payments)
  }

  /** `handlePaymentAuthorized`: AUTHORIZED; the booking is not touched. */
  function HandleAuthorized(db: Db, e: PaymentEntity): (r: Db)
    ensures r.payments == PaymentsStore.UpdateByOrderId(db.payments, e.orderId,
                            PaymentsStore.PaymentPatch(Some(PaymentDetails(e)), Some(PaymentsStore.Authorized)))
    ensures PaymentsStore.FirstTopLevelStatus(r.payments, e.orderId, PaymentsStore.Authorized)
    ensures r.bookings == db.bookings
    ensures Valid(db) ==> Valid(r)
  {
    var u := PaymentsStore.PaymentPatch(Some(PaymentDetails(e)), Some(PaymentsStore.Authorized));
    PaymentsStore.UpdateByOrderIdSetsStatus(db.payments, e.orderId, u);
    Db(db.bookings, PaymentsStore.UpdateByOrderId(db.payments, e.orderId, u))
  }

  /** `handleRefundCreated`: when a payment carries the refunded payment id,
      REFUNDED on its order id and the booking CANCELLED; otherwise nothing. */
  function HandleRefund(db: Db, e: RefundEntity): (r: Db)
    ensures PaymentsStore.FindByPaymentId(db.payments, e.paymentId).None? ==> r == db
    ensures var p := PaymentsStore.FindByPaymentId(db.payments, e.paymentId);
            p.Some? ==>
              && r.payments == PaymentsStore.UpdateByOrderId(db.payments, PaymentsStore.NestedOrderId(p.value),
                                 PaymentsStore.PaymentPatch(None, Some(PaymentsStore.Refunded)))
              && PaymentsStore.FirstTopLevelStatus(r.payments, PaymentsStore.NestedOrderId(p.value), PaymentsStore.Refunded)
              && r.bookings == BookingsStore.SetStatusForOrder(db.bookings, r.payments,
                                 PaymentsStore.NestedOrderId(p.value), BookingsStore.Cancelled)
    ensures Valid(db) ==> Valid(r)
  {
    var p := PaymentsStore.FindByPaymentId(db.payments, e.paymentId);
    if p.None? then db
    else
      var orderId := PaymentsStore.NestedOrderId(p.value);
      var u := PaymentsStore.PaymentPatch(None, Some(PaymentsStore.Refunded));
      var payments := PaymentsStore.UpdateByOrderId(db.payments, orderId, u);
      PaymentsStore.UpdateByOrderIdSetsStatus(db.payments, orderId, u);
      Db(BookingsStore.SetStatusForOrder(db.bookings, payments, orderId, BookingsStore.Cancelled), payments)
  }

  /** `processWebhook`: dispatch on the event name; other events change
      nothing. */
  function ProcessWebhook(db: Db, ev: Event): (r: Db)
    ensures ev.Unhandled? ==> r == db
    ensures ev.PaymentCaptured? ==> r == HandleCaptured(db, ev.payment)
    ensures ev.PaymentFailed? ==> r == HandleFailed(db, ev.payment)
    ensures ev.PaymentAuthorized? ==> r == HandleAuthorized(db, ev.payment)
    ensures ev.RefundCreated? ==> r == HandleRefund(db, ev.refund)
    ensures Valid(db) ==> Valid(r)
  {
    match ev
    case PaymentCaptured(e) => HandleCaptured(db, e)
    case PaymentFailed(e) => HandleFailed(db, e)
    case PaymentAuthorized(e) => HandleAuthorized(db, e)
    case RefundCreated(e) => HandleRefund(db, e)
    case Unhandled(_) => db
  }

  /** The digest the webhook header must carry: keyed with the webhook
      secret over the re-serialised body. */
  function WebhookDigest(env: Env, ev: Event): string
  {
    env.hmac(env.webhookSecret, env.serialize(ev))
  }

  /** `webhook`: 400 and no processing on a missing or wrong signature;
      otherwise 200, answered before the event is processed, whose outcome
      does not affect the reply. */
  function Webhook(env: Env, db: Db, signature: Option<string>, ev: Event): (r: Reply)
    ensures r.code == 200 <==> signature == Some(WebhookDigest(env, ev))
    ensures r.code != 200 ==> r == Reply(400, db)
    ensures r.code == 200 ==> r.db == ProcessWebhook(db, ev)
  {
    if signature != Some(WebhookDigest(env, ev)) then Reply(400, db)
    else Reply(200, ProcessWebhook(db, ev))
  }

  /** A webhook without the signature header is always refused. */
  lemma WebhookNeedsSignature(env: Env, db: Db, ev: Event)
    ensures Webhook(env, db, None, ev) == Reply(400, db)
  {
  }

  /** A captured event delivered twice has the effect of one delivery. */
  lemma {:induction false} CapturedTwiceIsOnce(db: Db, e: PaymentEntity)
    ensures HandleCaptured(HandleCaptured(db, e), e) == HandleCaptured(db, e)
  {
    var existing := PaymentsStore.FindByOrderId(db.payments, e.orderId);
    if !(existing.Some? && existing.value.status == Some(PaymentsStore.Success)) {
      var u := PaymentsStore.PaymentPatch(Some(PaymentDetails(e)), Some(PaymentsStore.Success));
      var db1 := HandleCaptured(db, e);
      PaymentsStore.UpdateByOrderIdIdempotent(db.payments, e.orderId, u);
      BookingsStore.SetStatusForOrderIdempotent(db.bookings, db1.payments, e.orderId, BookingsStore.Confirmed);
    }
  }

  /** A failure event delivered twice has the effect of one delivery. */
  lemma FailedTwiceIsOnce(db: Db, e: PaymentEntity)
    ensures HandleFailed(HandleFailed(db, e), e) == HandleFailed(db, e)
  {
    var u := PaymentsStore.PaymentPatch(Some(PaymentDetails(e)), Some(PaymentsStore.Failed));
    var db1 := HandleFailed(db, e);
    PaymentsStore.UpdateByOrderIdIdempotent(db.payments, e.orderId, u);
    BookingsStore.SetStatusForOrderIdempotent(db.bookings, db1.payments, e.orderId, BookingsStore.Cancelled);
  }

  /** An authorisation event delivered twice has the effect of one
      delivery. */
  lemma AuthorizedTwiceIsOnce(db: Db, e: PaymentEntity)
    ensures HandleAuthorized(HandleAuthorized(db, e), e) == HandleAuthorized(db, e)
  {
    var u := PaymentsStore.PaymentPatch(Some(PaymentDetails(e)), Some(PaymentsStore.Authorized));
    PaymentsStore.UpdateByOrderIdIdempotent(db.payments, e.orderId, u);
  }

  /** A refund event delivered twice has the effect of one delivery: the
      status-only upsert leaves the refunded payment findable under the same
      nested order id, so the second delivery repeats the first. */
  lemma RefundTwiceIsOnce(db: Db, e: RefundEntity)
    ensures HandleRefund(HandleRefund(db, e), e) == HandleRefund(db, e)
  {
    var p := PaymentsStore.FindByPaymentId(db.payments, e.paymentId);
    if p.Some? {
      var orderId := PaymentsStore.NestedOrderId(p.value);
      var u := PaymentsStore.PaymentPatch(None, Some(PaymentsStore.Refunded));
      var db1 := HandleRefund(db, e);
      PaymentsStore.UpdateByOrderIdKeepsNested(db.payments, orderId, u, e.paymentId);
      PaymentsStore.UpdateByOrderIdIdempotent(db.payments, orderId, u);
      BookingsStore.SetStatusForOrderIdempotent(db.bookings, db1.payments, orderId, BookingsStore.Cancelled);
    }
  }

  /** With no status guard, a failure after a capture wins: the payment the
      upsert filter finds first is FAILED, and the booking reached through
      the payment stored under the order id is CANCELLED. */
  lemma CaptureThenFailure(db: Db, e: PaymentEntity)
    ensures var r := HandleFailed(HandleCaptured(db, e), e);
            && PaymentsStore.FirstTopLevelStatus(r.payments, e.orderId, PaymentsStore.Failed)
            && var p := PaymentsStore.FindByOrderId(r.payments, e.orderId);
               p.Some? && p.value.bookingId.Some? &&
               FindOne(HandleCaptured(db, e).bookings, BookingsStore.HasId(p.value.bookingId.value)).Some? ==>
                 var b := FindOne(r.bookings, BookingsStore.HasId(p.value.bookingId.value));
                 b.Some? && b.value.status == Some(BookingsStore.Cancelled)
  {
    var db1 := HandleCaptured(db, e);
    var r := HandleFailed(db1, e);
    var p := PaymentsStore.FindByOrderId(r.payments, e.orderId);
    if p.Some? && p.value.bookingId.Some? {
      BookingsStore.UpdateStatusFound(db1.bookings, p.value.bookingId.value, BookingsStore.Cancelled);
    }
  }

  /** The handlers as written miss the payment `createOrder` stored: it
      holds the order id only under `razorpay.order_id`, the handlers'
      upsert filters on the top-level field, so a capture inserts a second
      payment and leaves the stored one as it was. */
  lemma CapturedMissesCreatedPayment(db: Db, e: PaymentEntity)
    requires e.orderId.Some?
    requires forall j :: 0 <= j < |db.payments.docs| ==> db.payments.docs[j].razorpayOrderId.None?
    requires PaymentsStore.FindByOrderId(db.payments, e.orderId).Some?
    requires PaymentsStore.FindByOrderId(db.payments, e.orderId).value.status != Some(PaymentsStore.Success)
    ensures var r := HandleCaptured(db, e);
            && |r.payments.docs| == |db.payments.docs| + 1
            && r.payments.docs[..|db.payments.docs|] == db.payments.docs
            && PaymentsStore.FindByOrderId(r.payments, e.orderId) == PaymentsStore.FindByOrderId(db.payments, e.orderId)
  {
    var u := PaymentsStore.PaymentPatch(Some(PaymentDetails(e)), Some(PaymentsStore.Success));
    var r := HandleCaptured(db, e);
    assert r.payments.docs == db.payments.docs + [PaymentsStore.Upserted(db.payments.nextId, e.orderId, u)];
    assert r.payments.docs[..|db.payments.docs|] == db.payments.docs;
    FindFirstAppend(db.payments.docs, [PaymentsStore.Upserted(db.payments.nextId, e.orderId, u)],
                    PaymentsStore.HasOrderId(e.orderId));
  }

  // ------------------------------------------- webhook handlers, corrected

  /** The capture handler as evidently intended: the stored payment is
      found and patched through its nested order id, and nothing is
      inserted. */
  function HandleCapturedFixed(db: Db, e: PaymentEntity): (r: Db)
    ensures |r.payments.docs| == |db.payments.docs| && r.payments.nextId == db.payments.nextId
    ensures var existing := PaymentsStore.FindByOrderId(db.payments, e.orderId);
            && (existing.None? ==> r.payments == db.payments)
            && (existing.Some? ==>
                  var now := PaymentsStore.FindByOrderId(r.payments, e.orderId);
                  now.Some? && now.value.id == existing.value.id && now.value.status == Some(PaymentsStore.Success))
  {
    var existing := PaymentsStore.FindByOrderId(db.payments, e.orderId);
    if existing.Some? && existing.value.status == Some(PaymentsStore.Success) then db
    else
      var payments := PaymentsStore.Update(db.payments, e.orderId,
                        PaymentsStore.PaymentPatch(Some(PaymentDetails(e)), Some(PaymentsStore.Success)));
      Db(BookingsStore.SetStatusForOrder(db.bookings, payments, e.orderId, BookingsStore.Confirmed), payments)
  }

  /** The corrected failure handler: FAILED on the stored payment, booking
      CANCELLED, nothing inserted. */
  function HandleFailedFixed(db: Db, e: PaymentEntity): (r: Db)
    ensures |r.payments.docs| == |db.payments.docs| && r.payments.nextId == db.payments.nextId
    ensures var existing := PaymentsStore.FindByOrderId(db.payments, e.orderId);
            existing.Some? ==>
              var now := PaymentsStore.FindByOrderId(r.payments, e.orderId);
              now.Some? && now.value.id == existing.value.id && now.value.status == Some(PaymentsStore.Failed)
  {
    var payments := PaymentsStore.Update(db.payments, e.orderId,
                      PaymentsStore.PaymentPatch(Some(PaymentDetails(e)), Some(PaymentsStore.Failed)));
    Db(BookingsStore.SetStatusForOrder(db.bookings, payments, e.orderId, BookingsStore.Cancelled), payments)
  }

  /** The corrected authorisation handler. */
  function HandleAuthorizedFixed(db: Db, e: PaymentEntity): (r: Db)
    ensures r.bookings == db.bookings
    ensures |r.payments.docs| == |db.payments.docs| && r.payments.nextId == db.payments.nextId
    ensures var existing := PaymentsStore.FindByOrderId(db.payments, e.orderId);
            existing.Some? ==>
              var now := PaymentsStore.FindByOrderId(r.payments, e.orderId);
              now.Some? && now.value.id == existing.value.id && now.value.status == Some(PaymentsStore.Authorized)
  {
    Db(db.bookings, PaymentsStore.Update(db.payments, e.orderId,
                      PaymentsStore.PaymentPatch(Some(PaymentDetails(e)), Some(PaymentsStore.Authorized))))
  }

  /** The corrected refund handler: REFUNDED on the payment carrying the
      refunded payment id, reached through its own order id. */
  function HandleRefundFixed(db: Db, e: RefundEntity): (r: Db)
    ensures |r.payments.docs| == |db.payments.docs| && r.payments.nextId == db.payments.nextId
    ensures PaymentsStore.FindByPaymentId(db.payments, e.paymentId).None? ==> r == db
    ensures var p := PaymentsStore.FindByPaymentId(db.payments, e.paymentId);
            p.Some? ==>
              var now := PaymentsStore.FindByOrderId(r.payments, PaymentsStore.NestedOrderId(p.value));
              now.Some? && now.value.status == Some(PaymentsStore.Refunded)
  {
    var p := PaymentsStore.FindByPaymentId(db.payments, e.paymentId);
    if p.None? then db
    else
      var orderId := PaymentsStore.NestedOrderId(p.value);
      var payments := PaymentsStore.Update(db.payments, orderId, PaymentsStore.PaymentPatch(None, Some(PaymentsStore.Refunded)));
      Db(BookingsStore.SetStatusForOrder(db.bookings, payments, orderId, BookingsStore.Cancelled), payments)
  }

  /** `processWebhook` over the corrected handlers. */
  function ProcessWebhookFixed(db: Db, ev: Event): (r: Db)
    ensures |r.payments.docs| == |db.payments.docs|
    ensures ev.Unhandled? ==> r == db
  {
    match ev
    case PaymentCaptured(e) => HandleCapturedFixed(db, e)
    case PaymentFailed(e) => HandleFailedFixed(db, e)
    case PaymentAuthorized(e) => HandleAuthorizedFixed(db, e)
    case RefundCreated(e) => HandleRefundFixed(db, e)
    case Unhandled(_) => db
  }

  /** With the corrected handlers, an order created by `createOrder` and then
      captured ends with its own payment SUCCESS and no extra payment, and a
      second delivery of the capture changes nothing. */
  lemma CapturedReachesCreatedPayment(db: Db, e: PaymentEntity)
    requires PaymentsStore.FindByOrderId(db.payments, e.orderId).Some?
    ensures var r := HandleCapturedFixed(db, e);
            && |r.payments.docs| == |db.payments.docs|
            && PaymentsStore.FindByOrderId(r.payments, e.orderId).value.id
               == PaymentsStore.FindByOrderId(db.payments, e.orderId).value.id
            && PaymentsStore.FindByOrderId(r.payments, e.orderId).value.status == Some(PaymentsStore.Success)
            && HandleCapturedFixed(r, e) == r
  {
  }
}

=== FILE: payments_store.dfy ===
/** The `payments` collection (src/storage/payments.ts) and the payment
    record (src/models/payments.ts).

    The controller also calls `update`, `findByOrderId` and `findByPaymentId`
    on this storage, which src/storage/payments.ts does not define. They are
    given abstract meanings here: they look a payment up by the NESTED
    `razorpay.order_id` / `razorpay.payment_id`, act on the first match, and
    never insert. The defined `updateByOrderId` instead filters on a
    TOP-LEVEL `razorpay_order_id` field and upserts; `markCaptured` filters on
    a top-level `razorpay_payment_id`. */
module PaymentsStore {
  import opened Common

  datatype PaymentStatus =
    | Created | Captured | Paid | Failed | Cancelled | Completed | Refunded | Authorized | Success

  /** The gateway detail bundle stored under `razorpay`. */
  datatype RazorpayDetails =
    RazorpayDetails(orderId: Option<string>, paymentId: Option<string>, signature: Option<string>)

  /** A payment document. `razorpayOrderId` and `razorpayPaymentId` are the
      top-level fields the storage's own filters use; `createOrder` never
      writes them. */
  datatype Payment = Payment(
    id: Id,
    userId: Option<Id>,
    bookingId: Option<Id>,
    amount: Option<int>,
    razorpay: Option<RazorpayDetails>,
    razorpayOrderId: Option<string>,
    razorpayPaymentId: Option<string>,
    status: Option<PaymentStatus>,
    createdAt: Option<Time>,
    modifiedAt: Option<Time>,
    capturedAt: Option<Time>)

  /** The fields `createOrder` hands to `create`. */
  datatype PaymentDraft =
    PaymentDraft(userId: Id, bookingId: Id, amount: int, razorpay: RazorpayDetails, status: PaymentStatus)

  /** A `$set` on a payment: each `Some` field is overwritten. */
  datatype PaymentPatch = PaymentPatch(razorpay: Option<RazorpayDetails>, status: Option<PaymentStatus>)

  type Store = Table<Payment>

  function IdOf(p: Payment): Id { p.id }

  ghost predicate Valid(s: Store)
  {
    DistinctIds(s.docs, IdOf, s.nextId)
  }

  /** `razorpay.order_id`, missing when there is no `razorpay` object. */
  function NestedOrderId(p: Payment): Option<string>
  {
    if p.razorpay.Some? then p.razorpay.value.orderId else None
  }

  /** `razorpay.payment_id`, missing when there is no `razorpay` object. */
  function NestedPaymentId(p: Payment): Option<string>
  {
    if p.razorpay.Some? then p.razorpay.value.paymentId else None
  }

  /** `create(data)`: stores the draft with both timestamps set to `now` and
      returns the stored document with its new `_id`. */
  function Create(s: Store, d: PaymentDraft, now: Time): (r: (Store, Payment))
    ensures r.0.docs == s.docs + [r.1] && r.0.nextId == s.nextId + 1
    ensures r.1.id == s.nextId
    ensures r.1.userId == Some(d.userId) && r.1.bookingId == Some(d.bookingId)
    ensures r.1.amount == Some(d.amount) && r.1.razorpay == Some(d.razorpay)
    ensures r.1.status == Some(d.status)
    ensures r.1.createdAt == Some(now) && r.1.modifiedAt == Some(now)
    ensures r.1.razorpayOrderId.None? && r.1.razorpayPaymentId.None? && r.1.capturedAt.None?
    ensures Valid(s) ==> Valid(r.0) && forall p :: p in s.docs ==> p.id != r.1.id
  {
    var doc := Payment(s.nextId, Some(d.userId), Some(d.bookingId), Some(d.amount), Some(d.razorpay),
                       None, None, Some(d.status), Some(now), Some(now), None);
    AppendFresh(s.docs, IdOf, s.nextId, doc);
    (Table(s.docs + [doc], s.nextId + 1), doc)
  }

  /** The filter `{ "razorpay.order_id": orderId }`. */
  function HasOrderId(orderId: Option<string>): Payment -> bool
  {
    (p: Payment) => NestedOrderId(p) == orderId
  }

  /** `findByOrderId(orderId)` (abstract): first payment whose nested
      `razorpay.order_id` is `orderId`. */
  function FindByOrderId(s: Store, orderId: Option<string>): (r: Option<Payment>)
    ensures r.Some? <==> exists j :: 0 <= j < |s.docs| && NestedOrderId(s.docs[j]) == orderId
    ensures r.Some? ==> r.value in s.docs && NestedOrderId(r.value) == orderId
  {
    FindFirst(s.docs, HasOrderId(orderId))
  }

  /** The filter `{ "razorpay.payment_id": paymentId }`. */
  function HasNestedPaymentId(paymentId: string): Payment -> bool
  {
    (p: Payment) => NestedPaymentId(p) == Some(paymentId)
  }

  /** `findByPaymentId(paymentId)` (abstract): first payment whose nested
      `razorpay.payment_id` is `paymentId`. */
  function FindByPaymentId(s: Store, paymentId: string): (r: Option<Payment>)
    ensures r.Some? <==> exists j :: 0 <= j < |s.docs| && NestedPaymentId(s.docs[j]) == Some(paymentId)
    ensures r.Some? ==> r.value in s.docs && NestedPaymentId(r.value) == Some(paymentId)
  {
    FindFirst(s.docs, HasNestedPaymentId(paymentId))
  }

  /** The document after a `$set`: the patched fields take the new values,
      every other field is kept. */
  function ApplyPatch(p: Payment, u: PaymentPatch): (r: Payment)
    ensures r.razorpay == (if u.razorpay.Some? then u.razorpay else p.razorpay)
    ensures r.status == (if u.status.Some? then u.status else p.status)
    ensures r.(razorpay := p.razorpay, status := p.status) == p
  {
    p.(razorpay := if u.razorpay.Some? then u.razorpay else p.razorpay,
       status := if u.status.Some? then u.status else p.status)
  }

  /** A patch applied twice is applied once. */
  lemma ApplyPatchIdempotent(p: Payment, u: PaymentPatch)
    ensures ApplyPatch(ApplyPatch(p, u), u) == ApplyPatch(p, u)
  {
  }

  /** `$set` of `u`, as a function on documents. */
  function Patching(u: PaymentPatch): Payment -> Payment
  {
    (p: Payment) => ApplyPatch(p, u)
  }

  /** `update(orderId, data)` (abstract): patches the first payment whose
      nested `razorpay.order_id` is `orderId`; inserts nothing. */
  function Update(s: Store, orderId: Option<string>, u: PaymentPatch): (r: Store)
    ensures r.nextId == s.nextId && |r.docs| == |s.docs|
    ensures forall j :: 0 <= j < |s.docs| ==>
              r.docs[j] == s.docs[j] || (NestedOrderId(s.docs[j]) == orderId && r.docs[j] == ApplyPatch(s.docs[j], u))
    ensures FindByOrderId(s, orderId).None? ==> r == s
    ensures FindByOrderId(s, orderId).Some? && (u.razorpay.None? || u.razorpay.value.orderId == orderId) ==>
              FindByOrderId(r, orderId) == Some(ApplyPatch(FindByOrderId(s, orderId).value, u))
  {
    Table(UpdateFirst(s.docs, HasOrderId(orderId), Patching(u)), s.nextId)
  }

  /** A patch that keeps the order id, repeated, is applied once: the
      patched payment is still the first with that order id. */
  lemma UpdateIdempotent(s: Store, orderId: Option<string>, u: PaymentPatch)
    requires u.razorpay.None? || u.razorpay.value.orderId == orderId
    ensures Update(Update(s, orderId, u), orderId, u) == Update(s, orderId, u)
  {
    forall x | HasOrderId(orderId)(x)
      ensures HasOrderId(orderId)(Patching(u)(x)) && Patching(u)(Patching(u)(x)) == Patching(u)(x)
    {
      ApplyPatchIdempotent(x, u);
    }
    UpdateFirstIdempotent(s.docs, HasOrderId(orderId), Patching(u));
  }

  /** The filter of `updateByOrderId`: the top-level `razorpay_order_id`
      equals `orderId`; a null `orderId` also matches documents without the
      field, as a MongoDB equality on null does. */
  predicate TopLevelOrderIs(p: Payment, orderId: Option<string>)
  {
    p.razorpayOrderId == orderId
  }

  /** The document an upsert inserts: the filter's field plus the `$set`
      fields, nothing else. */
  function Upserted(id: Id, orderId: Option<string>, u: PaymentPatch): Payment
  {
    Payment(id, None, None, None, u.razorpay, orderId, None, u.status, None, None, None)
  }

  /** `updateByOrderId(orderId, update)`: `updateOne` on the top-level
      `razorpay_order_id` with `upsert: true`. */
  function UpdateByOrderId(s: Store, orderId: Option<string>, u: PaymentPatch): (r: Store)
    ensures (exists j :: 0 <= j < |s.docs| && TopLevelOrderIs(s.docs[j], orderId)) ==>
              && r.nextId == s.nextId && |r.docs| == |s.docs|
              && exists i :: 0 <= i < |s.docs| && TopLevelOrderIs(s.docs[i], orderId)
                   && r.docs == s.docs[i := ApplyPatch(s.docs[i], u)]
                   && forall j :: 0 <= j < i ==> !TopLevelOrderIs(s.docs[j], orderId)
    ensures (forall j :: 0 <= j < |s.docs| ==> !TopLevelOrderIs(s.docs[j], orderId)) ==>
              r == Table(s.docs + [Upserted(s.nextId, orderId, u)], s.nextId + 1)
    ensures Valid(s) ==> Valid(r)
  {
    match FirstMatch(s.docs, (p: Payment) => TopLevelOrderIs(p, orderId))
    case Some(i) =>
      Table(s.docs[i := ApplyPatch(s.docs[i], u)], s.nextId)
    case None =>
      var doc := Upserted(s.nextId, orderId, u);
      AppendFresh(s.docs, IdOf, s.nextId, doc);
      Table(s.docs + [doc], s.nextId + 1)
  }

  /** Repeating an `updateByOrderId` changes nothing: when the first call
      inserted, the second finds the inserted document and updates it to the
      values it already holds. */
  lemma {:induction false} UpdateByOrderIdIdempotent(s: Store, orderId: Option<string>, u: PaymentPatch)
    ensures UpdateByOrderId(UpdateByOrderId(s, orderId, u), orderId, u) == UpdateByOrderId(s, orderId, u)
  {
    var p := (x: Payment) => TopLevelOrderIs(x, orderId);
    var s1 := UpdateByOrderId(s, orderId, u);
    match FirstMatch(s.docs, p)
    case Some(i) =>
      assert s1.docs == s.docs[i := ApplyPatch(s.docs[i], u)];
      assert forall j :: 0 <= j < i ==> s1.docs[j] == s.docs[j];
      assert FirstMatch(s1.docs, p) == Some(i) by {
        assert p(s1.docs[i]);
      }
      ApplyPatchIdempotent(s.docs[i], u);
      assert s1.docs[i := ApplyPatch(s1.docs[i], u)] == s1.docs;
    case None =>
      var doc := Upserted(s.nextId, orderId, u);
      assert s1.docs == s.docs + [doc];
      assert forall j :: 0 <= j < |s.docs| ==> s1.docs[j] == s.docs[j];
      assert FirstMatch(s1.docs, p) == Some(|s.docs|) by {
        assert p(s1.docs[|s.docs|]);
      }
      assert ApplyPatch(doc, u) == doc;
      assert s1.docs[|s.docs| := doc] == s1.docs;
  }

  /** `updateByOrderId` with an order id never touches a payment that lacks
      the top-level field — every payment `createOrder` writes — and when
      only such payments exist it inserts a separate document. */
  lemma UpdateByOrderIdSkipsNestedOnly(s: Store, orderId: string, u: PaymentPatch)
    ensures var r := UpdateByOrderId(s, Some(orderId), u);
            forall j :: 0 <= j < |s.docs| && s.docs[j].razorpayOrderId.None? ==> r.docs[j] == s.docs[j]
    ensures (forall j :: 0 <= j < |s.docs| ==> s.docs[j].razorpayOrderId.None?) ==>
              |UpdateByOrderId(s, Some(orderId), u).docs| == |s.docs| + 1
  {
  }

  /** A status-only `updateByOrderId` leaves every nested `razorpay` field as
      it was: `findByPaymentId` still finds a payment exactly when it did,
      and one with the same nested order id. */
  lemma UpdateByOrderIdKeepsNested(s: Store, orderId: Option<string>, u: PaymentPatch, paymentId: string)
    requires u.razorpay.None?
    ensures var before := FindByPaymentId(s, paymentId);
            var after := FindByPaymentId(UpdateByOrderId(s, orderId, u), paymentId);
            && (before.None? <==> after.None?)
            && (before.Some? ==> NestedOrderId(after.value) == NestedOrderId(before.value))
  {
    match FirstMatch(s.docs, (x: Payment) => TopLevelOrderIs(x, orderId))
    case Some(i) =>
      PatchKeepsNestedLookup(s.docs, i, u, paymentId);
    case None =>
      AppendKeepsNestedLookup(s.docs, Upserted(s.nextId, orderId, u), paymentId);
  }

  /** Patching one payment without touching `razorpay` keeps the lookup by
      nested payment id. */
  lemma PatchKeepsNestedLookup(docs: seq<Payment>, i: nat, u: PaymentPatch, paymentId: string)
    requires i < |docs| && u.razorpay.None?
    ensures var p := HasNestedPaymentId(paymentId);
            var before := FindFirst(docs, p);
            var after := FindFirst(docs[i := ApplyPatch(docs[i], u)], p);
            && (before.None? <==> after.None?)
            && (before.Some? ==> NestedOrderId(after.value) == NestedOrderId(before.value))
  {
    var r := docs[i := ApplyPatch(docs[i], u)];
    assert forall j :: 0 <= j < |docs| ==> r[j].razorpay == docs[j].razorpay;
    FirstMatchSamePositions(docs, r, HasNestedPaymentId(paymentId));
  }

  /** Appending a payment without a nested payment id keeps the lookup by
      nested payment id. */
  lemma AppendKeepsNestedLookup(docs: seq<Payment>, doc: Payment, paymentId: string)
    requires doc.razorpay.None?
    ensures var p := HasNestedPaymentId(paymentId);
            FindFirst(docs + [doc], p) == FindFirst(docs, p)
  {
    var p := HasNestedPaymentId(paymentId);
    if FirstMatch(docs, p).Some? {
      FindFirstAppend(docs, [doc], p);
    } else {
      assert !p(doc);
      assert forall j :: 0 <= j < |docs + [doc]| ==> !p((docs + [doc])[j]);
    }
  }

  /** The first payment whose top-level `razorpay_order_id` is `orderId`
      has status `st`. */
  ghost predicate FirstTopLevelStatus(s: Store, orderId: Option<string>, st: PaymentStatus)
  {
    exists i :: 0 <= i < |s.docs| && TopLevelOrderIs(s.docs[i], orderId)
                && (forall j :: 0 <= j < i ==> !TopLevelOrderIs(s.docs[j], orderId))
                && s.docs[i].status == Some(st)
  }

  /** After `updateByOrderId` with a status, the document that filter finds
      first carries that status, whatever it held before. */
  lemma UpdateByOrderIdSetsStatus(s: Store, orderId: Option<string>, u: PaymentPatch)
    requires u.status.Some?
    ensures FirstTopLevelStatus(UpdateByOrderId(s, orderId, u), orderId, u.status.value)
  {
    var r := UpdateByOrderId(s, orderId, u);
    match FirstMatch(s.docs, (p: Payment) => TopLevelOrderIs(p, orderId))
    case Some(i) =>
      assert r.docs[i] == ApplyPatch(s.docs[i], u);
      assert forall j :: 0 <= j < i ==> r.docs[j] == s.docs[j];
    case None =>
      var k := |s.docs|;
      assert r.docs[k] == Upserted(s.nextId, orderId, u);
      assert forall j :: 0 <= j < k ==> r.docs[j] == s.docs[j];
  }

  /** The filter `{ razorpay_payment_id: paymentId }`. */
  function HasPaymentId(paymentId: string): Payment -> bool
  {
    (p: Payment) => p.razorpayPaymentId == Some(paymentId)
  }

  /** The `$set` of `markCaptured`. */
  function CaptureAt(now: Time): Payment -> Payment
  {
    (p: Payment) => p.(status := Some(Captured), capturedAt := Some(now))
  }

  /** `markCaptured(paymentId)`: `updateOne` without upsert; sets CAPTURED
      and `captured_at` on the first payment whose top-level
      `razorpay_payment_id` matches, and only on it. */
  function MarkCaptured(s: Store, paymentId: string, now: Time): (r: Store)
    ensures r.nextId == s.nextId && |r.docs| == |s.docs|
    ensures forall j {:trigger r.docs[j]} :: 0 <= j < |s.docs| ==>
              if s.docs[j].razorpayPaymentId == Some(paymentId)
                 && (forall k :: 0 <= k < j ==> s.docs[k].razorpayPaymentId != Some(paymentId))
              then r.docs[j] == s.docs[j].(status := Some(Captured), capturedAt := Some(now))
              else r.docs[j] == s.docs[j]
    ensures (forall j :: 0 <= j < |s.docs| ==> s.docs[j].razorpayPaymentId != Some(paymentId)) ==> r == s
    ensures Valid(s) ==> Valid(r)
  {
    Table(UpdateFirst(s.docs, HasPaymentId(paymentId), CaptureAt(now)), s.nextId)
  }

  /** After `markCaptured` the same filter finds the same payment, now
      CAPTURED at `now`, and a second call at the same instant changes
      nothing. */
  lemma MarkCapturedFound(s: Store, paymentId: string, now: Time)
    ensures var before := FindFirst(s.docs, HasPaymentId(paymentId));
            var after := FindFirst(MarkCaptured(s, paymentId, now).docs, HasPaymentId(paymentId));
            && (before.None? <==> after.None?)
            && (before.Some? ==>
                  after == Some(before.value.(status := Some(Captured), capturedAt := Some(now))))
    ensures MarkCaptured(MarkCaptured(s, paymentId, now), paymentId, now) == MarkCaptured(s, paymentId, now)
  {
    var p, f := HasPaymentId(paymentId), CaptureAt(now);
    var r := MarkCaptured(s, paymentId, now);
    if FirstMatch(s.docs, p).Some? {
      var i := FirstMatch(s.docs, p).value;
      assert forall j :: 0 <= j < i ==> r.docs[j] == s.docs[j];
      FirstMatchAt(r.docs, p, i);
    }
    UpdateFirstIdempotent(s.docs, p, f);
  }
}

=== FILE: quotation_controller.dfy ===
/** The quotation endpoints (src/controllers/quotation.ts). The caller is
    the `(req as any).user` the JWT middleware attaches: an id and the role
    the token carries, which may be absent. */
module QuotationController {
  import opened Common
  import opened Text
  import opened TripsStore
  import opened QuotationsStore
  import Roles

  datatype Caller = Caller(userId: Id, role: Option<string>)

  /** The request body of `POST /quotations`: the trip and the fields the
      handler copies into the quotation unread. */
  datatype QuotationBody = QuotationBody(
    tripId: Option<Id>,
    price: Option<int>,
    details: string,
    isDeleted: Option<bool>,
    deletedAt: Option<Time>)

  /** A response together with the collections after the request; `id` is
      the `_id` a 200 carries. */
  datatype CreateReply = CreateReply(code: int, quotations: Table<Quotation>, trips: Table<Trip>, id: Option<Id>)

  /** `userId !== trip.creator?.toString()`: a creator stored as an
      `ObjectId` and one stored as text print alike. */
  predicate IsTripCreator(trip: Trip, userId: Id)
  {
    trip.creator.Some? && trip.creator.value.id == userId
  }

  /** The copy of `trip` made for a caller who did not create it. */
  function DuplicateFor(trip: Trip, userId: Id, now: Time): (r: Trip)
    ensures r.creator == Some(TextRef(userId)) && r.userId == Some(TextRef(userId))
    ensures r.details == trip.details && r.createdAt == Some(now) && r.modifiedAt == trip.modifiedAt
  {
    trip.(creator := Some(TextRef(userId)), userId := Some(TextRef(userId)), createdAt := Some(now))
  }

  /** `createQuotation`, parameterised by the vendor test and by whether a
      body without `is_deleted` yields a live quotation. */
  function CreateQuotationWith(quotations: Table<Quotation>, trips: Table<Trip>, caller: Caller, body: QuotationBody,
                               now: Time, isVendor: Option<string> -> bool, liveByDefault: bool): (r: CreateReply)
    ensures r.code == 404 || r.code == 200
    ensures r.code == 404 <==> body.tripId.None? || GetTripById(trips, body.tripId.value).None?
    ensures r.code == 404 ==> r.quotations == quotations && r.trips == trips && r.id.None?
    ensures r.code == 200 ==> |r.quotations.docs| == |quotations.docs| + 1
    ensures r.code == 200 ==>
              var trip := GetTripById(trips, body.tripId.value).value;
              var q := r.quotations.docs[|quotations.docs|];
              && r.id == Some(quotations.nextId)
              && r.quotations.nextId == quotations.nextId + 1
              && r.quotations.docs == quotations.docs + [q]
              && q.id == quotations.nextId
              && q.creator == trip.creator
              && q.userId == Some(caller.userId)
              && q.price == body.price && q.details == body.details
              && q.isDeleted == (if body.isDeleted.None? && liveByDefault then Some(false) else body.isDeleted)
              && q.createdAt == Some(now) && q.modifiedAt == Some(now)
              && q.status == Some(if isVendor(caller.role) then QuoteInProgress else Requested)
              && (if isVendor(caller.role) || IsTripCreator(trip, caller.userId)
                  then r.trips == trips && q.tripId == body.tripId
                  else r.trips.docs == trips.docs + [DuplicateFor(trip, caller.userId, now).(id := trips.nextId, modifiedAt := Some(now))]
                       && r.trips.nextId == trips.nextId + 1
                       && q.tripId == Some(trips.nextId))
  {
    var found := if body.tripId.None? then None else GetTripById(trips, body.tripId.value);
    if found.None? then CreateReply(404, quotations, trips, None)
    else
      var trip := found.value;
      var vendor := isVendor(caller.role);
      var status := if vendor then QuoteInProgress else Requested;
      var (trips', tripId) :=
        if vendor || IsTripCreator(trip, caller.userId) then (trips, body.tripId.value)
        else
          var (t, newTrip) := TripsStore.Create(trips, DuplicateFor(trip, caller.userId, now), now);
          (t, newTrip.id);
      var data := Quotation(0, trip.creator, Some(caller.userId), Some(tripId), body.price, body.details, Some(status),
                            if body.isDeleted.None? && liveByDefault then Some(false) else body.isDeleted,
                            body.deletedAt, Some(now), None);
      var (quotations', inserted) := QuotationsStore.Create(quotations, data, now);
      CreateReply(200, quotations', trips', Some(inserted.id))
  }

  /** `createQuotation` as written: the vendor test compares with a missing
      enum member, and the quotation is stored without `is_deleted`. */
  function CreateQuotation(quotations: Table<Quotation>, trips: Table<Trip>, caller: Caller, body: QuotationBody,
                           now: Time): (r: CreateReply)
    ensures r.code == 404 <==> body.tripId.None? || GetTripById(trips, body.tripId.value).None?
    ensures r.code == 200 ==> |r.quotations.docs| == |quotations.docs| + 1
    ensures r.code == 200 ==>
              var q := r.quotations.docs[|quotations.docs|];
              && r.quotations.docs == quotations.docs + [q]
              && q.isDeleted == body.isDeleted
              && q.status == Some(if caller.role.None? then QuoteInProgress else Requested)
  {
    CreateQuotationWith(quotations, trips, caller, body, now, Roles.IsVendorAsWritten, false)
  }

  /** `createQuotation` as evidently intended: vendors are recognised by
      their role and a new quotation is live unless the body says
      otherwise. */
  function CreateQuotationFixed(quotations: Table<Quotation>, trips: Table<Trip>, caller: Caller, body: QuotationBody,
                                now: Time): (r: CreateReply)
    ensures r.code == 404 <==> body.tripId.None? || GetTripById(trips, body.tripId.value).None?
    ensures r.code == 200 ==> |r.quotations.docs| == |quotations.docs| + 1
    ensures r.code == 200 ==>
              var q := r.quotations.docs[|quotations.docs|];
              && r.quotations.docs == quotations.docs + [q]
              && q.isDeleted == (if body.isDeleted.None? then Some(false) else body.isDeleted)
              && q.status == Some(if caller.role == Some(Roles.Vender) then QuoteInProgress else Requested)
  {
    CreateQuotationWith(quotations, trips, caller, body, now, Roles.IsVendor, true)
  }

  /** As written, a quotation created from a body without `is_deleted` is
      invisible to every read: the caller's listing is what it was before. */
  lemma {:induction false} CreatedQuotationIsHidden(quotations: Table<Quotation>, trips: Table<Trip>, caller: Caller,
                                                    body: QuotationBody, now: Time, who: Id)
    requires body.isDeleted.None?
    ensures var r := CreateQuotation(quotations, trips, caller, body, now);
            && GetAllByUser(r.quotations, who) == GetAllByUser(quotations, who)
            && (r.code == 200 ==> !Live(r.quotations.docs[|quotations.docs|]))
  {
    var r := CreateQuotation(quotations, trips, caller, body, now);
    if r.code == 200 {
      var q := r.quotations.docs[|quotations.docs|];
      var p := (x: Quotation) => x.userId == Some(who) && Live(x);
      FilterAppend(quotations.docs, [q], p);
      assert Filter([q], p) == [];
    }
  }

  /** As intended, the new quotation is live and the caller finds it. */
  lemma CreatedQuotationIsListed(quotations: Table<Quotation>, trips: Table<Trip>, caller: Caller,
                                 body: QuotationBody, now: Time)
    requires body.isDeleted != Some(true)
    ensures var r := CreateQuotationFixed(quotations, trips, caller, body, now);
            r.code == 200 ==>
              && Live(r.quotations.docs[|quotations.docs|])
              && r.quotations.docs[|quotations.docs|] in GetAllByUser(r.quotations, caller.userId)
  {
    var r := CreateQuotationFixed(quotations, trips, caller, body, now);
    if r.code == 200 {
      var j := |quotations.docs|;
      assert body.isDeleted.None? || body.isDeleted.value == false;
      assert r.quotations.docs[j].userId == Some(caller.userId);
    }
  }

  /** As written, a caller whose token carries the vendor role is treated
      as a traveller, and one whose token carries no role as a vendor. */
  lemma VendorTreatedAsTraveller(quotations: Table<Quotation>, trips: Table<Trip>, userId: Id, body: QuotationBody, now: Time)
    ensures var r := CreateQuotation(quotations, trips, Caller(userId, Some(Roles.Vender)), body, now);
            r.code == 200 ==> r.quotations.docs[|quotations.docs|].status == Some(Requested)
    ensures var r := CreateQuotation(quotations, trips, Caller(userId, None), body, now);
            r.code == 200 ==> r.quotations.docs[|quotations.docs|].status == Some(QuoteInProgress)
    ensures var r := CreateQuotationFixed(quotations, trips, Caller(userId, Some(Roles.Vender)), body, now);
            r.code == 200 ==> r.quotations.docs[|quotations.docs|].status == Some(QuoteInProgress) && r.trips == trips
  {
  }

  /** A quote or reject request: the response code, the collection after it
      and the new quotation's id. */
  datatype CloneReply = CloneReply(code: int, quotations: Table<Quotation>, id: Option<Id>)

  /** The status a route path selects: "quote" is looked for first. */
  function RouteStatus(path: string): (r: Option<QuotationStatus>)
    ensures r == Some(QuoteInProgress) <==> Includes(path, "quote")
    ensures r == Some(Rejected) <==> !Includes(path, "quote") && Includes(path, "reject")
    ensures r.None? <==> !Includes(path, "quote") && !Includes(path, "reject")
  {
    if Includes(path, "quote") then Some(QuoteInProgress)
    else if Includes(path, "reject") then Some(Rejected)
    else None
  }

  /** `quoteOrRejectQuotation`: the quotation is not changed; a copy owned
      by the caller, with the route's status and fresh timestamps, is
      inserted. The lookup does not restrict to the caller's quotations. */
  function QuoteOrReject(quotations: Table<Quotation>, userId: Id, path: string, quotationId: Id, now: Time): (r: CloneReply)
    ensures r.code == 400 <==> RouteStatus(path).None?
    ensures r.code == 404 <==> RouteStatus(path).Some? && GetById(quotations, quotationId, None).None?
    ensures r.code != 200 ==> r.quotations == quotations && r.id.None?
    ensures r.code == 200 ==>
              var original := GetById(quotations, quotationId, None).value;
              && r.id == Some(quotations.nextId)
              && r.quotations.nextId == quotations.nextId + 1
              && r.quotations.docs == quotations.docs
                   + [original.(id := quotations.nextId, userId := Some(userId), status := RouteStatus(path),
                                createdAt := Some(now), modifiedAt := Some(now))]
  {
    match RouteStatus(path)
    case None => CloneReply(400, quotations, None)
    case Some(status) =>
      match GetById(quotations, quotationId, None)
      case None => CloneReply(404, quotations, None)
      case Some(original) =>
        var copy := original.(userId := Some(userId), status := Some(status), createdAt := Some(now), modifiedAt := Some(now));
        var (quotations', inserted) := QuotationsStore.Create(quotations, copy, now);
        CloneReply(200, quotations', Some(inserted.id))
  }

  /** The copy `QuoteOrReject` inserts is live, so the caller finds it by
      its id, and the original is left as it was. */
  lemma {:induction false} QuoteCopyIsFound(quotations: Table<Quotation>, userId: Id, path: string, quotationId: Id, now: Time)
    requires QuotationsStore.Valid(quotations)
    ensures var r := QuoteOrReject(quotations, userId, path, quotationId, now);
            r.code == 200 ==>
              && GetById(r.quotations, r.id.value, Some(userId)).Some?
              && GetById(r.quotations, r.id.value, Some(userId)).value.status == RouteStatus(path)
              && GetById(r.quotations, quotationId, None) == GetById(quotations, quotationId, None)
  {
    var r := QuoteOrReject(quotations, userId, path, quotationId, now);
    if r.code == 200 {
      var n := |quotations.docs|;
      var q := r.quotations.docs[n];
      assert ByIdFilter(q, r.id.value, Some(userId));
      forall j | 0 <= j < n
        ensures !ByIdFilter(r.quotations.docs[j], r.id.value, Some(userId))
      {
        assert r.quotations.docs[j] == quotations.docs[j];
      }
      var p := (x: Quotation) => ByIdFilter(x, quotationId, None);
      var i := FirstMatch(quotations.docs, p).value;
      assert forall j :: 0 <= j <= i ==> r.quotations.docs[j] == quotations.docs[j];
      assert FirstMatch(r.quotations.docs, p) == Some(i) by {
        assert p(r.quotations.docs[i]);
        FirstMatchPrefix(quotations.docs, r.quotations.docs, p, i);
      }
      assert FirstMatch(r.quotations.docs, (x: Quotation) => ByIdFilter(x, r.id.value, Some(userId))) == Some(n);
    }
  }

  /** The first match of `p` is found in any sequence that agrees with `s`
      up to and including it. */
  lemma {:induction false} FirstMatchPrefix<T>(s: seq<T>, t: seq<T>, p: T -> bool, i: nat)
    requires FirstMatch(s, p) == Some(i) && i < |t|
    requires forall j :: 0 <= j <= i ==> t[j] == s[j]
    ensures FirstMatch(t, p) == Some(i)
  {
    if i > 0 {
      assert FirstMatch(s[1..], p).Some?;
      FirstMatchPrefix(s[1..], t[1..], p, i - 1);
    }
  }

  /** A listing of quotations or a single one, with its response code. */
  datatype ReadReply = ReadReply(code: int, quotations: seq<Quotation>)

  /** `getUserQuotations` (through the storage's `getQuotations`, abstract,
      as `getAllByUser`): always 200. */
  function GetUserQuotations(quotations: Table<Quotation>, userId: Id): (r: ReadReply)
    ensures r.code == 200
    ensures forall q :: q in r.quotations ==> q in quotations.docs && q.userId == Some(userId) && Live(q)
    ensures forall j :: 0 <= j < |quotations.docs| && quotations.docs[j].userId == Some(userId) && Live(quotations.docs[j])
              ==> quotations.docs[j] in r.quotations
    ensures Selects(r.quotations, quotations.docs, LiveOfUser(userId))
  {
    ReadReply(200, GetAllByUser(quotations, userId))
  }

  /** `getQuotationById`: the caller's own live quotation or 404. */
  function GetQuotationById(quotations: Table<Quotation>, userId: Id, id: Id): (r: ReadReply)
    ensures r.code == 200 || r.code == 404
    ensures r.code == 404 <==> forall j :: 0 <= j < |quotations.docs| ==> !ByIdFilter(quotations.docs[j], id, Some(userId))
    ensures r.code == 200 ==>
              && |r.quotations| == 1
              && r.quotations[0] in quotations.docs
              && r.quotations[0].id == id && r.quotations[0].userId == Some(userId) && Live(r.quotations[0])
    ensures r.code == 404 ==> r.quotations == []
  {
    match GetById(quotations, id, Some(userId))
    case None => ReadReply(404, [])
    case Some(q) => ReadReply(200, [q])
  }

  /** The response of a delete and the collection after it. */
  datatype DeleteReply = DeleteReply(code: int, quotations: Table<Quotation>)

  /** `deleteQuotationById`: soft-deletes the caller's own live quotation;
      404 when there is none. */
  function DeleteQuotationById(quotations: Table<Quotation>, userId: Id, id: Id, now: Time): (r: DeleteReply)
    ensures r.code == 200 || r.code == 404
    ensures r.code == 200 <==> GetQuotationById(quotations, userId, id).code == 200
    ensures r.code == 404 ==> r.quotations == quotations
    ensures r.quotations.nextId == quotations.nextId && |r.quotations.docs| == |quotations.docs|
    ensures r.code == 200 ==>
              exists j :: 0 <= j < |quotations.docs| && ByIdFilter(quotations.docs[j], id, Some(userId))
                          && r.quotations.docs[j] == quotations.docs[j].(isDeleted := Some(true), deletedAt := Some(now), modifiedAt := Some(now))
    ensures forall j :: 0 <= j < |quotations.docs| ==>
              r.quotations.docs[j] == quotations.docs[j]
              || (ByIdFilter(quotations.docs[j], id, Some(userId)) && r.quotations.docs[j].isDeleted == Some(true))
  {
    var (quotations', deleted) := DeleteById(quotations, id, Some(userId), now);
    DeleteReply(if deleted then 200 else 404, quotations')
  }

  /** Deleting twice answers 200 and then 404. */
  lemma DeleteThenDeleteAgain(quotations: Table<Quotation>, userId: Id, id: Id, now: Time, later: Time)
    requires QuotationsStore.Valid(quotations)
    requires GetQuotationById(quotations, userId, id).code == 200
    ensures var r := DeleteQuotationById(quotations, userId, id, now);
            r.code == 200 && DeleteQuotationById(r.quotations, userId, id, later) == DeleteReply(404, r.quotations)
  {
    DeleteTwice(quotations, id, Some(userId), now, later);
  }
}

=== FILE: quotations_store.dfy ===
/** The `quotations` collection (src/storage/quotation.ts) and the
    quotation record (src/models/quotation.ts). Every read filters on
    `is_deleted: false`, which a document without the flag does not match. */
module QuotationsStore {
  import opened Common
  import opened TripsStore

  datatype QuotationStatus = Requested | QuoteInProgress | Quoted | Rejected | Expired

  /** A quotation. `details` stands for the fields the code copies without
      reading (`car`, `stay`, `vendor_id`, `expires_at`, ...). */
  datatype Quotation = Quotation(
    id: Id,
    creator: Option<Owner>,
    userId: Option<Id>,
    tripId: Option<Id>,
    price: Option<int>,
    details: string,
    status: Option<QuotationStatus>,
    isDeleted: Option<bool>,
    deletedAt: Option<Time>,
    createdAt: Option<Time>,
    modifiedAt: Option<Time>)

  function IdOf(q: Quotation): Id { q.id }

  ghost predicate Valid(s: Table<Quotation>)
  {
    DistinctIds(s.docs, IdOf, s.nextId)
  }

  predicate Live(q: Quotation)
  {
    q.isDeleted == Some(false)
  }

  /** `create(data)`: stores the data with both timestamps set to `now`;
      the returned value is the data with the new `_id` and keeps the data's
      own timestamps, not the stored ones. */
  function Create(s: Table<Quotation>, data: Quotation, now: Time): (r: (Table<Quotation>, Quotation))
    ensures r.0.nextId == s.nextId + 1 && |r.0.docs| == |s.docs| + 1
    ensures r.0.docs[..|s.docs|] == s.docs
    ensures r.1.id == s.nextId && r.1.createdAt == data.createdAt && r.1.modifiedAt == data.modifiedAt
    ensures r.0.docs[|s.docs|] == r.1.(createdAt := Some(now), modifiedAt := Some(now))
    ensures r.1.(id := data.id) == data
    ensures Valid(s) ==> Valid(r.0)
  {
    var stored := data.(id := s.nextId, createdAt := Some(now), modifiedAt := Some(now));
    AppendFresh(s.docs, IdOf, s.nextId, stored);
    assert (s.docs + [stored])[..|s.docs|] == s.docs;
    (Table(s.docs + [stored], s.nextId + 1), data.(id := s.nextId))
  }

  /** `getAllByUser(userId)`: the user's live quotations. */
  function GetAllByUser(s: Table<Quotation>, userId: Id): (r: seq<Quotation>)
    ensures forall q :: q in r ==> q in s.docs && q.userId == Some(userId) && Live(q)
    ensures forall j :: 0 <= j < |s.docs| && s.docs[j].userId == Some(userId) && Live(s.docs[j]) ==> s.docs[j] in r
    ensures Selects(r, s.docs, LiveOfUser(userId))
  {
    FilterSelects(s.docs, LiveOfUser(userId));
    Filter(s.docs, LiveOfUser(userId))
  }

  /** The filter `{ user_id, is_deleted: false }`. */
  function LiveOfUser(userId: Id): Quotation -> bool
  {
    (q: Quotation) => q.userId == Some(userId) && Live(q)
  }

  /** Statuses that stand for a vendor's own action: only these are
      restricted to the vendor's quotations. */
  predicate IsVendorAction(status: QuotationStatus)
  {
    status == QuoteInProgress || status == Rejected
  }

  /** The filter of `getVendorTripIdsByStatus`. */
  predicate VendorFilter(q: Quotation, vendorId: Id, status: QuotationStatus)
  {
    q.status == Some(status) && Live(q) && (IsVendorAction(status) ==> q.creator == Some(ObjectIdRef(vendorId)))
  }

  /** The quotations of one trip. */
  function OnTrip(id: Id): Quotation -> bool
  {
    (q: Quotation) => q.tripId == Some(id)
  }

  /** `.map((q) => q.trip_id).filter((id) => !!id)`: the present
      `trip_id`s of `qs`, in order, each once per quotation that holds it. */
  function TripIds(qs: seq<Quotation>): (r: seq<Id>)
    ensures forall id :: id in r <==> exists j :: 0 <= j < |qs| && qs[j].tripId == Some(id)
    ensures |r| <= |qs|
  {
    if |qs| == 0 then []
    else
      var rest := TripIds(qs[1..]);
      assert forall j :: 1 <= j < |qs| ==> qs[j] == qs[1..][j - 1];
      (if qs[0].tripId.Some? then [qs[0].tripId.value] else []) + rest
  }

  /** Each trip id occurs in `TripIds(qs)` once per quotation of `qs` that
      holds it. */
  lemma {:induction false} TripIdsCount(qs: seq<Quotation>, id: Id)
    ensures multiset(TripIds(qs))[id] == |Filter(qs, OnTrip(id))|
  {
    if |qs| > 0 {
      TripIdsCount(qs[1..], id);
      var head := if qs[0].tripId.Some? then [qs[0].tripId.value] else [];
      assert TripIds(qs) == head + TripIds(qs[1..]);
      assert multiset(TripIds(qs))[id] == multiset(head)[id] + multiset(TripIds(qs[1..]))[id];
    }
  }

  /** The ids of a concatenation are the concatenated ids: with the
      multiplicity clause this pins `TripIds` down completely. */
  lemma {:induction false} TripIdsAppend(a: seq<Quotation>, b: seq<Quotation>)
    ensures TripIds(a + b) == TripIds(a) + TripIds(b)
  {
    if |a| == 0 {
      assert a + b == b;
    } else {
      assert (a + b)[1..] == a[1..] + b;
      assert (a + b)[0] == a[0];
      TripIdsAppend(a[1..], b);
      var first := if a[0].tripId.Some? then [a[0].tripId.value] else [];
      assert TripIds(a + b) == first + TripIds(a[1..] + b);
      assert TripIds(a) == first + TripIds(a[1..]);
    }
  }

  /** The filter of `getVendorTripIdsByStatus`, as a test. */
  function VendorMatch(vendorId: Id, status: QuotationStatus): Quotation -> bool
  {
    (q: Quotation) => VendorFilter(q, vendorId, status)
  }

  /** The vendor filter narrowed to one trip. */
  function VendorMatchOnTrip(vendorId: Id, status: QuotationStatus, id: Id): Quotation -> bool
  {
    (q: Quotation) => VendorFilter(q, vendorId, status) && q.tripId == Some(id)
  }

  /** `getVendorTripIdsByStatus(vendorId, status)`: the trip ids of live
      quotations with that status, restricted to the vendor's own only for
      QUOTE_IN_PROGRESS and REJECTED; a trip appears once per matching
      quotation. */
  function GetVendorTripIdsByStatus(s: Table<Quotation>, vendorId: Id, status: QuotationStatus): (r: seq<Id>)
    ensures forall id :: id in r <==>
              exists j :: 0 <= j < |s.docs| && VendorFilter(s.docs[j], vendorId, status) && s.docs[j].tripId == Some(id)
    ensures forall id :: multiset(r)[id] == |Filter(s.docs, VendorMatchOnTrip(vendorId, status, id))|
  {
    var matching := Filter(s.docs, VendorMatch(vendorId, status));
    assert forall j :: 0 <= j < |matching| ==> exists k :: 0 <= k < |s.docs| && s.docs[k] == matching[j];
    assert forall id :: multiset(TripIds(matching))[id] == |Filter(s.docs, VendorMatchOnTrip(vendorId, status, id))| by {
      forall id
        ensures multiset(TripIds(matching))[id] == |Filter(s.docs, VendorMatchOnTrip(vendorId, status, id))|
      {
        TripIdsCount(matching, id);
        FilterTwice(s.docs, VendorMatch(vendorId, status), OnTrip(id), VendorMatchOnTrip(vendorId, status, id));
      }
    }
    TripIds(matching)
  }

  /** Appending one quotation to the store appends its trip id when it
      meets the vendor filter. */
  lemma AppendOneVendorTripId(docs: seq<Quotation>, q: Quotation, vendorId: Id, status: QuotationStatus)
    ensures TripIds(Filter(docs + [q], VendorMatch(vendorId, status)))
            == TripIds(Filter(docs, VendorMatch(vendorId, status)))
               + (if VendorFilter(q, vendorId, status) && q.tripId.Some? then [q.tripId.value] else [])
  {
    var p := VendorMatch(vendorId, status);
    var head := Filter(docs, p);
    var tail := Filter([q], p);
    FilterAppend(docs, [q], p);
    TripIdsAppend(head, tail);
    assert TripIds(Filter(docs + [q], p)) == TripIds(head) + TripIds(tail);
    if VendorFilter(q, vendorId, status) {
      assert tail == [q];
      TripIdsSingle(q);
    } else {
      assert tail == [];
    }
  }

  /** The trip ids of one quotation. */
  lemma TripIdsSingle(q: Quotation)
    ensures TripIds([q]) == if q.tripId.Some? then [q.tripId.value] else []
  {
    assert [q][1..] == [];
  }

  /** Creating a quotation appends its trip id to every vendor listing
      whose filter it meets, and leaves the other listings as they were. */
  lemma CreateExtendsVendorTripIds(s: Table<Quotation>, data: Quotation, now: Time, vendorId: Id, status: QuotationStatus)
    ensures GetVendorTripIdsByStatus(Create(s, data, now).0, vendorId, status)
            == GetVendorTripIdsByStatus(s, vendorId, status)
               + (if VendorFilter(data, vendorId, status) && data.tripId.Some? then [data.tripId.value] else [])
  {
    var stored := data.(id := s.nextId, createdAt := Some(now), modifiedAt := Some(now));
    assert Create(s, data, now).0.docs == s.docs + [stored];
    AppendOneVendorTripId(s.docs, stored, vendorId, status);
    assert VendorFilter(stored, vendorId, status) == VendorFilter(data, vendorId, status);
  }

  /** The filter of `getById` and `deleteById`: the user filter is added
      only when a user id is given. */
  predicate ByIdFilter(q: Quotation, id: Id, userId: Option<Id>)
  {
    q.id == id && Live(q) && (userId.Some? ==> q.userId == userId)
  }

  /** `getById(id, userId?)`. */
  function GetById(s: Table<Quotation>, id: Id, userId: Option<Id>): (r: Option<Quotation>)
    ensures r.Some? ==> r.value in s.docs && r.value.id == id && Live(r.value)
                        && (userId.Some? ==> r.value.userId == userId)
    ensures r.None? <==> forall j :: 0 <= j < |s.docs| ==> !ByIdFilter(s.docs[j], id, userId)
  {
    FindFirst(s.docs, (q: Quotation) => ByIdFilter(q, id, userId))
  }

  /** `deleteById(id, userId?)`: a soft delete of the first matching live
      quotation; true exactly when one was flipped. */
  function DeleteById(s: Table<Quotation>, id: Id, userId: Option<Id>, now: Time): (r: (Table<Quotation>, bool))
    ensures r.1 <==> GetById(s, id, userId).Some?
    ensures !r.1 ==> r.0 == s
    ensures r.0.nextId == s.nextId && |r.0.docs| == |s.docs|
    ensures r.1 ==> exists j :: 0 <= j < |s.docs| && ByIdFilter(s.docs[j], id, userId)
                                && r.0.docs[j] == s.docs[j].(isDeleted := Some(true), deletedAt := Some(now), modifiedAt := Some(now))
    ensures forall j :: 0 <= j < |s.docs| ==>
              r.0.docs[j] == s.docs[j]
              || (ByIdFilter(s.docs[j], id, userId)
                  && r.0.docs[j] == s.docs[j].(isDeleted := Some(true), deletedAt := Some(now), modifiedAt := Some(now)))
  {
    var p := (q: Quotation) => ByIdFilter(q, id, userId);
    match FirstMatch(s.docs, p)
    case None => (s, false)
    case Some(i) =>
      (Table(s.docs[i := s.docs[i].(isDeleted := Some(true), deletedAt := Some(now), modifiedAt := Some(now))], s.nextId), true)
  }

  /** A deleted quotation is gone: deleting it again returns false and it
      is no longer found. */
  lemma {:induction false} DeleteTwice(s: Table<Quotation>, id: Id, userId: Option<Id>, now: Time, later: Time)
    requires Valid(s)
    ensures var (s1, _) := DeleteById(s, id, userId, now);
            && DeleteById(s1, id, userId, later) == (s1, false)
            && GetById(s1, id, userId).None?
  {
    var (s1, ok) := DeleteById(s, id, userId, now);
    if ok {
      var i := FirstMatch(s.docs, (q: Quotation) => ByIdFilter(q, id, userId)).value;
      forall j | 0 <= j < |s1.docs|
        ensures !ByIdFilter(s1.docs[j], id, userId)
      {
        if j != i {
          assert s.docs[j].id != s.docs[i].id;
        }
      }
    }
  }

  /** `getQuotationsByTripId(tripId)`: the trip's live quotations. */
  function GetQuotationsByTripId(s: Table<Quotation>, tripId: Id): (r: seq<Quotation>)
    ensures forall q :: q in r ==> q in s.docs && q.tripId == Some(tripId) && Live(q)
    ensures forall j :: 0 <= j < |s.docs| && s.docs[j].tripId == Some(tripId) && Live(s.docs[j]) ==> s.docs[j] in r
    ensures Selects(r, s.docs, LiveOnTrip(tripId))
  {
    FilterSelects(s.docs, LiveOnTrip(tripId));
    Filter(s.docs, LiveOnTrip(tripId))
  }

  /** The filter `{ trip_id, is_deleted: false }`. */
  function LiveOnTrip(tripId: Id): Quotation -> bool
  {
    (q: Quotation) => q.tripId == Some(tripId) && Live(q)
  }

  /** No read returns a soft-deleted quotation. */
  lemma ReadsSkipDeleted(s: Table<Quotation>, userId: Id, tripId: Id, id: Id, byUser: Option<Id>)
    ensures forall q :: q in GetAllByUser(s, userId) ==> q.isDeleted != Some(true)
    ensures forall q :: q in GetQuotationsByTripId(s, tripId) ==> q.isDeleted != Some(true)
    ensures GetById(s, id, byUser).Some? ==> GetById(s, id, byUser).value.isDeleted != Some(true)
  {
  }
}

=== FILE: roles.dfy ===
/** User roles as the strings stored in tokens and user records
    (src/types/enum.ts). The controllers test for a vendor with
    `UserRole.VENDOR`, but the enum spells the member `VENDER`; reading a
    missing enum member yields `undefined`, so the test as written holds
    exactly when the caller's token carries no role. */
module Roles {
  import opened Common

  const Master: string := "MASTER"
  const Admin: string := "ADMIN"
  const SubAdmin: string := "SUB_ADMIN"
  const Marketing: string := "MARKETING"
  const Sales: string := "SALES"
  const Support: string := "SUPPORT"
  const Vender: string := "VENDER"
  const EndUser: string := "USER"

  /** `role === UserRole.VENDOR` as written. */
  predicate IsVendorAsWritten(role: Option<string>)
  {
    role.None?
  }

  /** The vendor test as evidently intended: the role is the enum's vendor
      value. */
  predicate IsVendor(role: Option<string>)
  {
    role == Some(Vender)
  }

  /** The two tests disagree exactly on real vendors, whom the written test
      rejects, and on tokens without a role (those `refresh` issues), which
      it accepts; every other role is classified alike. */
  lemma VendorTestMisclassifies(role: Option<string>)
    ensures IsVendorAsWritten(role) != IsVendor(role) <==> role.None? || role == Some(Vender)
    ensures !IsVendorAsWritten(Some(Vender)) && IsVendor(Some(Vender))
    ensures IsVendorAsWritten(None) && !IsVendor(None)
  {
  }
}

=== FILE: text.dfy ===
/** The JavaScript string operations the handlers rely on: `includes`,
    `trim`, `toUpperCase`, `split`, `join`, and number-to-decimal-text
    conversion. Strings are sequences of Unicode scalar values (`char`). */
module Text {

  /** `sub` occurs in `s` starting at index `i`. */
  ghost predicate OccursAt(s: string, sub: string, i: int)
  {
    0 <= i && i + |sub| <= |s| && s[i..i + |sub|] == sub
  }

  /** `s.includes(sub)`. */
  function Includes(s: string, sub: string): (r: bool)
    ensures r <==> exists i :: OccursAt(s, sub, i)
    decreases |s|
  {
    if |sub| > |s| then
      assert forall i :: !OccursAt(s, sub, i);
      false
    else if s[..|sub|] == sub then
      assert OccursAt(s, sub, 0);
      true
    else
      var rest := Includes(s[1..], sub);
      forall i | 1 <= i
        ensures OccursAt(s, sub, i) <==> OccursAt(s[1..], sub, i - 1)
      {
        OccursShift(s, sub, i);
      }
      assert !OccursAt(s, sub, 0);
      assert rest ==> OccursAt(s, sub, 1 + (var k :| OccursAt(s[1..], sub, k); k));
      rest
  }

  /** An occurrence at `i >= 1` is an occurrence in the tail at `i - 1`. */
  lemma OccursShift(s: string, sub: string, i: int)
    requires 1 <= i && |s| >= 1
    ensures OccursAt(s, sub, i) <==> OccursAt(s[1..], sub, i - 1)
  {
    if i + |sub| <= |s| {
      var a, b := s[i..i + |sub|], s[1..][i - 1..i - 1 + |sub|];
      assert |a| == |b|;
      assert forall k :: 0 <= k < |a| ==> a[k] == b[k];
    }
  }

  /** The characters `String.prototype.trim` and `parseInt` treat as white
      space: ECMAScript's WhiteSpace (tab, vertical tab, form feed, the byte
      order mark and every space separator of category Zs) and its
      LineTerminator (line feed, carriage return, and the line and
      paragraph separators). */
  predicate IsSpace(c: char)
  {
    || c == '\t' || c == '\U{000B}' || c == '\U{000C}' || c == '\U{FEFF}'
    || c == '\n' || c == '\r' || c == '\U{2028}' || c == '\U{2029}'
    || IsSpaceSeparator(c)
  }

  /** The Unicode space separators (general category Zs). */
  predicate IsSpaceSeparator(c: char)
  {
    || c == ' ' || c == '\U{00A0}' || c == '\U{1680}'
    || ('\U{2000}' <= c <= '\U{200A}')
    || c == '\U{202F}' || c == '\U{205F}' || c == '\U{3000}'
  }

  /** `s.trimStart()`: drops the leading white space. */
  function TrimStart(s: string): (r: string)
    ensures |r| <= |s| && r == s[|s| - |r|..]
    ensures |r| > 0 ==> !IsSpace(r[0])
    ensures forall i :: 0 <= i < |s| - |r| ==> IsSpace(s[i])
  {
    if |s| > 0 && IsSpace(s[0]) then
      var r := TrimStart(s[1..]);
      assert forall i :: 1 <= i < |s| - |r| ==> s[i] == s[1..][i - 1];
      r
    else s
  }

  /** `s.trimEnd()`: drops the trailing white space. */
  function TrimEnd(s: string): (r: string)
    ensures |r| <= |s| && r == s[..|r|]
    ensures |r| > 0 ==> !IsSpace(r[|r| - 1])
    ensures forall i :: |r| <= i < |s| ==> IsSpace(s[i])
  {
    if |s| > 0 && IsSpace(s[|s| - 1]) then TrimEnd(s[..|s| - 1]) else s
  }

  /** `r` is `s` with `i` leading and some trailing white space removed. */
  predicate TrimmedAt(s: string, r: string, i: nat)
  {
    && i + |r| <= |s| && r == s[i..i + |r|]
    && (forall k :: 0 <= k < i ==> IsSpace(s[k]))
    && (forall k :: i + |r| <= k < |s| ==> IsSpace(s[k]))
  }

  /** `s.trim()`. */
  function Trim(s: string): (r: string)
    ensures |r| <= |s|
    ensures |r| > 0 ==> !IsSpace(r[0]) && !IsSpace(r[|r| - 1])
    ensures (forall i :: 0 <= i < |s| ==> IsSpace(s[i])) <==> r == ""
    ensures exists i :: TrimmedAt(s, r, i)
  {
    var t := TrimStart(s);
    var r := TrimEnd(t);
    assert r == "" ==> t == "";
    var i := |s| - |t|;
    assert TrimmedAt(s, r, i);
    r
  }

  /** ASCII upper-casing of one character. */
  function UpperChar(c: char): (r: char)
    ensures 'a' <= c <= 'z' ==> r as int == c as int - 32
    ensures !('a' <= c <= 'z') ==> r == c
  {
    if 'a' <= c <= 'z' then (c as int - 32) as char else c
  }

  /** `s.toUpperCase()` restricted to ASCII letters. */
  function ToUpper(s: string): (r: string)
    ensures |r| == |s|
    ensures forall i :: 0 <= i < |s| ==> r[i] == UpperChar(s[i])
  {
    if |s| == 0 then "" else [UpperChar(s[0])] + ToUpper(s[1..])
  }

  /** `parts.join(sep)`. */
  function Join(parts: seq<string>, sep: string): string
  {
    if |parts| == 0 then ""
    else if |parts| == 1 then parts[0]
    else parts[0] + sep + Join(parts[1..], sep)
  }

  /** Index of the first occurrence of `c` in `s`. */
  function IndexOf(s: string, c: char): (i: nat)
    requires c in s
    ensures i < |s| && s[i] == c && c !in s[..i]
  {
    if s[0] == c then 0 else 1 + IndexOf(s[1..], c)
  }

  /** `s.split(c)` for a one-character separator: the pieces between the
      separators, which joined back with `c` give `s` again. */
  function Split(s: string, c: char): (r: seq<string>)
    ensures |r| >= 1
    ensures forall i :: 0 <= i < |r| ==> c !in r[i]
    ensures Join(r, [c]) == s
    decreases |s|
  {
    if c !in s then [s]
    else
      var i := IndexOf(s, c);
      var rest := Split(s[i + 1..], c);
      var r := [s[..i]] + rest;
      assert r[1..] == rest;
      assert s == s[..i] + [c] + s[i + 1..];
      r
  }

  /** The decimal digit of `d`. */
  function DigitChar(d: nat): (c: char)
    requires d < 10
    ensures '0' <= c <= '9' && c as int - '0' as int == d
  {
    (d + '0' as int) as char
  }

  /** `String(n)` for a non-negative integer: its decimal digits, without
      leading zeros. */
  function NatToString(n: nat): (r: string)
    ensures |r| >= 1
    ensures forall i :: 0 <= i < |r| ==> '0' <= r[i] <= '9'
    ensures |r| > 1 ==> r[0] != '0'
  {
    if n < 10 then [DigitChar(n)] else NatToString(n / 10) + [DigitChar(n % 10)]
  }

  /** `String(x)` for an integer. */
  function IntToString(x: int): (r: string)
    ensures x >= 0 ==> r == NatToString(x)
    ensures x < 0 ==> r == "-" + NatToString(-x)
  {
    if x >= 0 then NatToString(x) else "-" + NatToString(-x)
  }
}

=== FILE: trip_controller.dfy ===
/** The trip endpoints (src/controllers/trip.ts) other than the itinerary
    and place generators, which call an external language model. Every
    route runs behind the JWT middleware, so a caller is always present. */
module TripController {
  import opened Common
  import opened Pagination
  import opened TripsStore
  import QuotationsStore
  import WishlistStore
  import Roles

  /** `Math.ceil(total / limit)` for a positive limit: the number of pages
      of `limit` items that hold `total` items. */
  function TotalPages(total: nat, limit: int): (r: nat)
    requires limit >= 1
    ensures r * limit >= total
    ensures r == 0 || (r - 1) * limit < total
  {
    (total + limit - 1) / limit
  }

  /** No pages exactly when there are no items, and every item's page is
      among the counted ones. */
  lemma TotalPagesCoversItems(total: nat, limit: int, k: nat)
    requires limit >= 1
    ensures TotalPages(total, limit) == 0 <==> total == 0
    ensures k < total ==> 1 <= k / limit + 1 <= TotalPages(total, limit)
  {
    var pages := TotalPages(total, limit);
    if total == 0 {
      assert pages == (limit - 1) / limit;
    }
    if k < total {
      var q := k / limit;
      assert q * limit <= k by { assert k == q * limit + k % limit; }
      MultiplyCancel(q, pages, limit);
    }
  }

  /** A positive factor can be cancelled from a strict inequality. */
  lemma MultiplyCancel(a: int, b: int, c: int)
    requires a * c < b * c && c >= 1
    ensures a < b
  {
    assert (b - a) * c == b * c - a * c;
    assert (b - a) * c > 0;
  }

  /** The window `Window(page, limit)` of the last page starts inside the
      listing. */
  lemma LastPageStartsInside(total: nat, limit: int)
    requires limit >= 1 && total > 0
    ensures var last := TotalPages(total, limit);
            last >= 1 && Window(last, limit).skip < total <= Window(last, limit).skip + limit
  {
    var last := TotalPages(total, limit);
    assert last >= 1;
  }

  /** A page of trips as the listing endpoints return it. */
  datatype Listing = Listing(data: seq<Trip>, page: int, limit: int, total: nat, totalPages: nat)

  /** A storage listing call (`getVendorTrips`, `getUserTrips`): the trips
      and the total for a skip and a limit. */
  type ListingSource = (nat, nat) -> (seq<Trip>, nat)

  /** `getTripsHandler`, parameterised by the vendor test: vendors get the
      vendor listing and everyone else the user listing, both with the
      parsed window, and the page count is derived from the reported
      total. */
  function GetTripsWith(page: QueryParam, limit: QueryParam, role: Option<string>,
                        vendorTrips: ListingSource, userTrips: ListingSource,
                        isVendor: Option<string> -> bool): (r: Listing)
    ensures var pp := ParsePagination(page, limit);
            var listed := if isVendor(role) then vendorTrips(pp.skip, pp.limit) else userTrips(pp.skip, pp.limit);
            && r.page == pp.page && r.limit == pp.limit && r.data == listed.0 && r.total == listed.1
    ensures r.page >= 1 && r.limit >= 1 && r.totalPages == TotalPages(r.total, r.limit)
  {
    var pp := ParsePagination(page, limit);
    var listed := if isVendor(role) then vendorTrips(pp.skip, pp.limit) else userTrips(pp.skip, pp.limit);
    Listing(listed.0, pp.page, pp.limit, listed.1, TotalPages(listed.1, pp.limit))
  }

  /** `getTripsHandler` as written: a token without a role selects the
      vendor listing and a vendor's token the user listing. */
  function GetTrips(page: QueryParam, limit: QueryParam, role: Option<string>,
                    vendorTrips: ListingSource, userTrips: ListingSource): (r: Listing)
    ensures var pp := ParsePagination(page, limit);
            r.data == (if role.None? then vendorTrips(pp.skip, pp.limit) else userTrips(pp.skip, pp.limit)).0
  {
    GetTripsWith(page, limit, role, vendorTrips, userTrips, Roles.IsVendorAsWritten)
  }

  /** `getTripsHandler` with the vendor test as evidently intended. */
  function GetTripsFixed(page: QueryParam, limit: QueryParam, role: Option<string>,
                         vendorTrips: ListingSource, userTrips: ListingSource): (r: Listing)
    ensures var pp := ParsePagination(page, limit);
            r.data == (if role == Some(Roles.Vender) then vendorTrips(pp.skip, pp.limit) else userTrips(pp.skip, pp.limit)).0
  {
    GetTripsWith(page, limit, role, vendorTrips, userTrips, Roles.IsVendor)
  }

  /** The two dispatches differ only for vendors and for role-less tokens. */
  lemma TripsDispatchAgreesElsewhere(page: QueryParam, limit: QueryParam, role: Option<string>,
                                     vendorTrips: ListingSource, userTrips: ListingSource)
    requires role.Some? && role != Some(Roles.Vender)
    ensures GetTrips(page, limit, role, vendorTrips, userTrips) == GetTripsFixed(page, limit, role, vendorTrips, userTrips)
  {
  }

  /** The trip page: the response code, the trip with its live quotations,
      and the view log after the request. */
  datatype TripDetail = TripDetail(code: int, trip: Option<Trip>, quotations: seq<QuotationsStore.Quotation>,
                                   views: Table<TripView>)

  /** `getTripByIdHandler`: 400 without an id, 404 for an unknown trip;
      otherwise the view is logged when the caller has an id, and the trip
      comes back with its live quotations. */
  function GetTripById(trips: Table<Trip>, quotations: Table<QuotationsStore.Quotation>, views: Table<TripView>,
                       tripId: Option<Id>, userId: Option<Id>, now: Time): (r: TripDetail)
    ensures r.code == 400 <==> tripId.None?
    ensures r.code == 404 <==> tripId.Some? && TripsStore.GetTripById(trips, tripId.value).None?
    ensures r.code != 200 ==> r.views == views && r.trip.None? && r.quotations == []
    ensures r.code == 200 ==>
              && r.trip.Some? && r.trip.value in trips.docs && r.trip.value.id == tripId.value
              && (forall q :: q in r.quotations ==> q in quotations.docs && q.tripId == tripId && QuotationsStore.Live(q))
              && (forall j :: 0 <= j < |quotations.docs| && quotations.docs[j].tripId == tripId && QuotationsStore.Live(quotations.docs[j])
                    ==> quotations.docs[j] in r.quotations)
              && r.views == (if userId.Some? then AddTripView(views, tripId.value, userId.value, now) else views)
    ensures r.code == 200 ==> Selects(r.quotations, quotations.docs, QuotationsStore.LiveOnTrip(tripId.value))
    ensures r.code == 400 || r.code == 404 || r.code == 200
  {
    if tripId.None? then TripDetail(400, None, [], views)
    else match TripsStore.GetTripById(trips, tripId.value)
      case None => TripDetail(404, None, [], views)
      case Some(trip) =>
        var views' := if userId.Some? then AddTripView(views, trip.id, userId.value, now) else views;
        TripDetail(200, Some(trip), QuotationsStore.GetQuotationsByTripId(quotations, tripId.value), views')
  }

  /** Reading a trip changes nothing but the view log: a second read
      returns the same trip and quotations, and with a caller each read
      appends its own view. */
  lemma RereadLogsEachView(trips: Table<Trip>, quotations: Table<QuotationsStore.Quotation>, views: Table<TripView>,
                           tripId: Option<Id>, userId: Option<Id>, now: Time, later: Time)
    ensures var r1 := GetTripById(trips, quotations, views, tripId, userId, now);
            var r2 := GetTripById(trips, quotations, r1.views, tripId, userId, later);
            && r2.(views := views) == r1.(views := views)
            && (r1.code == 200 && userId.Some? ==>
                  r2.views.docs == views.docs + [TripView(views.nextId, tripId.value, userId.value, now),
                                                 TripView(views.nextId + 1, tripId.value, userId.value, later)])
            && (r1.code != 200 || userId.None? ==> r2.views == views)
  {
  }

  datatype WishlistAction = Added | Removed

  /** `addToWishlistHandler`: a toggle. */
  function ToggleWishlist(s: Table<WishlistStore.Entry>, tripId: Id, userId: Id, now: Time): (r: (Table<WishlistStore.Entry>, WishlistAction))
    ensures r.1 == Removed <==> WishlistStore.Listed(s, tripId, userId)
    ensures WishlistStore.Listed(r.0, tripId, userId) <==> !WishlistStore.Listed(s, tripId, userId)
    ensures forall e :: e in s.docs && !WishlistStore.IsPair(e, tripId, userId) ==> e in r.0.docs
    ensures r.1 == Removed ==>
              r.0.nextId == s.nextId && Selects(r.0.docs, s.docs, WishlistStore.NotPair(tripId, userId))
    ensures r.1 == Added ==>
              r.0 == Table(s.docs + [WishlistStore.Entry(s.nextId, tripId, userId, now)], s.nextId + 1)
  {
    if WishlistStore.FindOne(s, tripId, userId).Some? then (WishlistStore.Delete(s, tripId, userId), Removed)
    else (WishlistStore.Create(s, tripId, userId, now), Added)
  }

  /** Toggling an unlisted pair twice leaves the wishlist's entries as they
      were; toggling a listed pair twice lists it again. */
  lemma {:induction false} ToggleTwice(s: Table<WishlistStore.Entry>, tripId: Id, userId: Id, now: Time, later: Time)
    ensures var (s1, a1) := ToggleWishlist(s, tripId, userId, now);
            var (s2, a2) := ToggleWishlist(s1, tripId, userId, later);
            && a1 != a2
            && (WishlistStore.Listed(s2, tripId, userId) <==> WishlistStore.Listed(s, tripId, userId))
            && (!WishlistStore.Listed(s, tripId, userId) ==> s2.docs == s.docs)
  {
    var (s1, a1) := ToggleWishlist(s, tripId, userId, now);
    if !WishlistStore.Listed(s, tripId, userId) {
      var p := WishlistStore.NotPair(tripId, userId);
      var e := WishlistStore.Entry(s.nextId, tripId, userId, now);
      assert s1.docs == s.docs + [e];
      FilterAppend(s.docs, [e], p);
      FilterKeepsAll(s.docs, p);
      assert Filter([e], p) == [];
    }
  }

  /** The trip ids of wishlist entries, in order. */
  function TripIdsOf(entries: seq<WishlistStore.Entry>): (r: seq<Id>)
    ensures |r| == |entries|
    ensures forall j :: 0 <= j < |entries| ==> r[j] == entries[j].tripId
  {
    if |entries| == 0 then [] else [entries[0].tripId] + TripIdsOf(entries[1..])
  }

  /** A trip id is among the ids of the user's wishlist entries exactly
      when the pair is wishlisted. */
  lemma WishlistedIds(wishlist: Table<WishlistStore.Entry>, userId: Id, tripId: Id)
    ensures tripId in TripIdsOf(WishlistStore.GetAllByUser(wishlist, userId))
            <==> WishlistStore.Listed(wishlist, tripId, userId)
  {
    IdsOfUserEntries(wishlist.docs, WishlistStore.GetAllByUser(wishlist, userId), userId, tripId);
  }

  /** `WishlistedIds` for any `mine` holding exactly the user's entries. */
  lemma IdsOfUserEntries(docs: seq<WishlistStore.Entry>, mine: seq<WishlistStore.Entry>, userId: Id, tripId: Id)
    requires forall e :: e in mine ==> e in docs && e.userId == userId
    requires forall j :: 0 <= j < |docs| && docs[j].userId == userId ==> docs[j] in mine
    ensures tripId in TripIdsOf(mine) <==> exists j :: 0 <= j < |docs| && WishlistStore.IsPair(docs[j], tripId, userId)
  {
    var ids := TripIdsOf(mine);
    if tripId in ids {
      var k :| 0 <= k < |ids| && ids[k] == tripId;
      assert mine[k] in docs;
      var i :| 0 <= i < |docs| && docs[i] == mine[k];
      assert WishlistStore.IsPair(docs[i], tripId, userId);
    }
    if exists j :: 0 <= j < |docs| && WishlistStore.IsPair(docs[j], tripId, userId) {
      var i :| 0 <= i < |docs| && WishlistStore.IsPair(docs[i], tripId, userId);
      assert docs[i] in mine;
      var k :| 0 <= k < |mine| && mine[k] == docs[i];
      assert ids[k] == tripId;
    }
  }

  /** The trips a user has wishlisted. */
  ghost function WishlistedBy(wishlist: Table<WishlistStore.Entry>, userId: Id): Trip -> bool
  {
    (t: Trip) => WishlistStore.Listed(wishlist, t.id, userId)
  }

  /** `getWishlistedTripsHandler`: every trip the caller has wishlisted
      (the paging options are dropped by the storage), with its count. The
      empty-list branch of the source cannot be taken: an array is always
      truthy. */
  function WishlistedTrips(wishlist: Table<WishlistStore.Entry>, trips: Table<Trip>, userId: Id,
                           page: QueryParam, limit: QueryParam): (r: Listing)
    ensures r.page == ParsePagination(page, limit).page && r.limit == ParsePagination(page, limit).limit
    ensures forall t :: t in r.data ==> t in trips.docs && WishlistStore.Listed(wishlist, t.id, userId)
    ensures forall j :: 0 <= j < |trips.docs| && WishlistStore.Listed(wishlist, trips.docs[j].id, userId) ==> trips.docs[j] in r.data
    ensures r.total == |r.data| && r.totalPages == TotalPages(r.total, r.limit)
    ensures Selects(r.data, trips.docs, WishlistedBy(wishlist, userId))
  {
    var pp := ParsePagination(page, limit);
    var mine := WishlistStore.GetAllByUser(wishlist, userId);
    var ids := TripIdsOf(mine);
    var data := FindByIds(trips, ids);
    forall t | t in data
      ensures WishlistStore.Listed(wishlist, t.id, userId)
    {
      WishlistedIds(wishlist, userId, t.id);
    }
    forall j | 0 <= j < |trips.docs| && WishlistStore.Listed(wishlist, trips.docs[j].id, userId)
      ensures trips.docs[j] in data
    {
      WishlistedIds(wishlist, userId, trips.docs[j].id);
    }
    forall t: Trip
      ensures IdIn(ids)(t) == WishlistedBy(wishlist, userId)(t)
    {
      WishlistedIds(wishlist, userId, t.id);
    }
    SelectsSameTest(data, trips.docs, IdIn(ids), WishlistedBy(wishlist, userId));
    Listing(data, pp.page, pp.limit, |data|, TotalPages(|data|, pp.limit))
  }

  /** `myCreatedTripsHandler`: the trips whose creator is the caller's
      `ObjectId` (paging options dropped), with their count. */
  function MyCreatedTrips(trips: Table<Trip>, userId: Id, page: QueryParam, limit: QueryParam): (r: Listing)
    ensures r.page == ParsePagination(page, limit).page && r.limit == ParsePagination(page, limit).limit
    ensures forall t :: t in r.data ==> t in trips.docs && t.creator == Some(ObjectIdRef(userId))
    ensures forall j :: 0 <= j < |trips.docs| && trips.docs[j].creator == Some(ObjectIdRef(userId)) ==> trips.docs[j] in r.data
    ensures r.total == |r.data| && r.totalPages == TotalPages(r.total, r.limit)
    ensures Selects(r.data, trips.docs, CreatedBy(userId))
  {
    var pp := ParsePagination(page, limit);
    var data := FindByCreator(trips, userId);
    Listing(data, pp.page, pp.limit, |data|, TotalPages(|data|, pp.limit))
  }

  /** A trip whose creator was stored as text, as the copy made for a
      quotation is, never appears among its creator's trips. */
  lemma TextCreatorNotListed(trips: Table<Trip>, userId: Id, page: QueryParam, limit: QueryParam, t: Trip)
    requires t.creator == Some(TextRef(userId))
    ensures t !in MyCreatedTrips(trips, userId, page, limit).data
  {
  }
}

=== FILE: trips_store.dfy ===
/** The `trips` collection (src/storage/trip.ts) as the controllers use it.

    The controllers call `getTripById`, `addTripView`, `count`,
    `getVendorTrips` and `getUserTrips`, which src/storage/trip.ts does not
    define; `getTripById` is given the meaning of the defined `findById`,
    `addTripView` appends a view record, `count` counts the documents the
    same filter finds, and the two listing calls are inputs of the trip
    controller. The defined `find` takes only a filter, so the paging
    options the controller passes are dropped. */
module TripsStore {
  import opened Common

  /** A trip's `creator`: an `ObjectId`, or the caller's id as a plain
      string, which is what a trip duplicated for a quotation stores. Both
      print as the same text. */
  datatype Owner = ObjectIdRef(id: Id) | TextRef(id: Id)

  datatype Trip = Trip(
    id: Id,
    creator: Option<Owner>,
    userId: Option<Owner>,
    details: string,
    createdAt: Option<Time>,
    modifiedAt: Option<Time>)

  datatype TripView = TripView(id: Id, tripId: Id, userId: Id, viewedAt: Time)

  /** `create(data)`: stores the data with both timestamps set to `now`;
      returns the data with the new `_id`, without the stored timestamps. */
  function Create(s: Table<Trip>, data: Trip, now: Time): (r: (Table<Trip>, Trip))
    ensures r.0.docs == s.docs + [data.(id := s.nextId, createdAt := Some(now), modifiedAt := Some(now))]
    ensures r.0.nextId == s.nextId + 1
    ensures r.1 == data.(id := s.nextId)
  {
    (Table(s.docs + [data.(id := s.nextId, createdAt := Some(now), modifiedAt := Some(now))], s.nextId + 1),
     data.(id := s.nextId))
  }

  /** `getTripById(id)` (abstract, as `findById`): the first trip with that
      `_id`. */
  function GetTripById(s: Table<Trip>, id: Id): (r: Option<Trip>)
    ensures r.Some? ==> r.value in s.docs && r.value.id == id
    ensures r.None? <==> forall j :: 0 <= j < |s.docs| ==> s.docs[j].id != id
  {
    FindFirst(s.docs, (t: Trip) => t.id == id)
  }

  /** `find({ _id: { $in: ids } })`: the trips whose id is listed, in store
      order. */
  function FindByIds(s: Table<Trip>, ids: seq<Id>): (r: seq<Trip>)
    ensures forall t :: t in r ==> t in s.docs && t.id in ids
    ensures forall j :: 0 <= j < |s.docs| && s.docs[j].id in ids ==> s.docs[j] in r
    ensures Selects(r, s.docs, IdIn(ids))
  {
    FilterSelects(s.docs, IdIn(ids));
    Filter(s.docs, IdIn(ids))
  }

  /** The filter `{ _id: { $in: ids } }`. */
  function IdIn(ids: seq<Id>): Trip -> bool
  {
    (t: Trip) => t.id in ids
  }

  /** `find({ creator: ObjectId(user) })`: a creator stored as text does
      not match. */
  function FindByCreator(s: Table<Trip>, user: Id): (r: seq<Trip>)
    ensures forall t :: t in r ==> t in s.docs && t.creator == Some(ObjectIdRef(user))
    ensures forall j :: 0 <= j < |s.docs| && s.docs[j].creator == Some(ObjectIdRef(user)) ==> s.docs[j] in r
    ensures Selects(r, s.docs, CreatedBy(user))
  {
    FilterSelects(s.docs, CreatedBy(user));
    Filter(s.docs, CreatedBy(user))
  }

  /** The filter `{ creator: ObjectId(user) }`. */
  function CreatedBy(user: Id): Trip -> bool
  {
    (t: Trip) => t.creator == Some(ObjectIdRef(user))
  }

  /** `addTripView(tripId, userId)` (abstract): records one view. */
  function AddTripView(views: Table<TripView>, tripId: Id, userId: Id, now: Time): (r: Table<TripView>)
    ensures r.docs == views.docs + [TripView(views.nextId, tripId, userId, now)] && r.nextId == views.nextId + 1
  {
    Table(views.docs + [TripView(views.nextId, tripId, userId, now)], views.nextId + 1)
  }
}

=== FILE: user_controller.dfy ===
/** The profile handlers (src/controllers/user.ts): `getUser` and
    `updateUser`, as the status code they answer with and the body they
    send. The caller's id is what the authentication middleware stored on
    the request; a missing one is `None`. */
module UserController {
  import opened Common
  import opened Text
  import opened UsersStore

  datatype Reply = Reply(code: int, user: Option<User>)

  /** `getUser`: 401 without a caller id, 404 when the storage returns no
      user, otherwise 200 with exactly the stored user. */
  function GetUser(s: Store, userId: Option<Id>): (r: Reply)
    ensures userId.None? ==> r == Reply(401, None)
    ensures userId.Some? && GetUserById(s, userId.value).None? ==> r == Reply(404, None)
    ensures r.code == 200 <==> userId.Some? && GetUserById(s, userId.value).Some?
    ensures r.code == 200 ==> r.user == GetUserById(s, userId.value)
  {
    if userId.None? then Reply(401, None)
    else
      var u := GetUserById(s, userId.value);
      if u.None? then Reply(404, None) else Reply(200, u)
  }

  /** The text whose presence in a storage error makes `updateUser` answer
      404. */
  const NotFoundMarker: string := "No matching user found"

  /** The status `updateUser` answers a thrown error with. */
  function ErrorCode(message: string): (code: int)
    ensures code == 404 <==> Includes(message, NotFoundMarker)
    ensures code != 404 ==> code == 500
  {
    if Includes(message, NotFoundMarker) then 404 else 500
  }

  /** `updateUser` over a given storage update: 401 without a caller id;
      the storage's error mapped by `ErrorCode`; otherwise 200 with exactly
      the updated document. */
  function UpdateUserReply(userId: Option<Id>, result: Result<User>): (r: Reply)
    ensures userId.None? ==> r == Reply(401, None)
    ensures userId.Some? && result.Ok? ==> r == Reply(200, Some(result.value))
    ensures userId.Some? && result.Err? ==> r == Reply(ErrorCode(result.error), None)
  {
    if userId.None? then Reply(401, None)
    else match result
      case Ok(u) => Reply(200, Some(u))
      case Err(msg) => Reply(ErrorCode(msg), None)
  }

  /** `updateUser` as written. */
  function UpdateUserHandler(s: Store, userId: Option<Id>, d: UserPatch, now: Time): (r: (Store, Reply))
    ensures userId.None? ==> r == (s, Reply(401, None))
    ensures userId.Some? ==> r.1 == UpdateUserReply(userId, UpdateUser(s, userId.value, d, now).1)
    ensures userId.Some? ==> r.0 == UpdateUser(s, userId.value, d, now).0
  {
    if userId.None? then (s, Reply(401, None))
    else
      var (s1, result) := UpdateUser(s, userId.value, d, now);
      (s1, UpdateUserReply(userId, result))
  }

  /** The storage's message does not contain the marker: it has no letter
      `s`, which the marker does. */
  lemma AsWrittenMessageLacksMarker()
    ensures !Includes(NoMatchAsWritten, NotFoundMarker)
  {
    var msg, marker := NoMatchAsWritten, NotFoundMarker;
    assert marker[13] == 's';
    assert 's' !in msg;
    forall i | 0 <= i
      ensures !OccursAt(msg, marker, i)
    {
      if i + |marker| <= |msg| {
        assert msg[i..i + |marker|][13] == msg[i + 13];
      }
    }
  }

  /** As written, the 404 branch of `updateUser` is dead: a caller whose user
      is missing or soft-deleted gets 500. */
  lemma MissingUserGets500(s: Store, id: Id, d: UserPatch, now: Time)
    requires GetUserById(s, id).None?
    ensures UpdateUserHandler(s, Some(id), d, now) == (s, Reply(500, None))
  {
    AsWrittenMessageLacksMarker();
  }

  /** `updateUser` over the storage update that throws the intended
      message. */
  function UpdateUserHandlerFixed(s: Store, userId: Option<Id>, d: UserPatch, now: Time): (r: (Store, Reply))
    ensures userId.None? ==> r == (s, Reply(401, None))
    ensures userId.Some? ==> r.1 == UpdateUserReply(userId, UpdateUserFixed(s, userId.value, d, now).1)
    ensures userId.Some? ==> r.0 == UpdateUserFixed(s, userId.value, d, now).0
  {
    if userId.None? then (s, Reply(401, None))
    else
      var (s1, result) := UpdateUserFixed(s, userId.value, d, now);
      (s1, UpdateUserReply(userId, result))
  }

  /** With the intended message, a missing or soft-deleted user gets 404
      and nothing changes, while a live user is updated as before. */
  lemma MissingUserGets404(s: Store, id: Id, d: UserPatch, now: Time)
    ensures GetUserById(s, id).None? ==> UpdateUserHandlerFixed(s, Some(id), d, now) == (s, Reply(404, None))
    ensures GetUserById(s, id).Some? ==> UpdateUserHandlerFixed(s, Some(id), d, now) == UpdateUserHandler(s, Some(id), d, now)
  {
    var msg, marker := NoMatchIntended, NotFoundMarker;
    assert msg[..|marker|] == marker;
    assert OccursAt(msg, marker, 0);
  }
}

=== FILE: users_store.dfy ===
/** The `users` collection (src/storage/user.ts) and the user record
    (src/models/User.ts). Roles are kept as the strings stored in the
    database, because the code compares them against an enum member that
    does not exist (see `Roles`). */
module UsersStore {
  import opened Common

  datatype User = User(
    id: Id,
    name: Option<string>,
    mobile: Option<string>,
    mobileVerified: Option<bool>,
    email: Option<string>,
    emailVerified: Option<bool>,
    isVerified: Option<bool>,
    googleId: Option<string>,
    role: Option<string>,
    status: Option<string>,
    source: Option<string>,
    isDeleted: Option<bool>,
    createdAt: Option<Time>,
    modifiedAt: Option<Time>,
    other: map<string, string>)

  datatype Store = Store(docs: seq<User>, nextId: nat)

  function IdOf(u: User): Id { u.id }

  ghost predicate Valid(s: Store)
  {
    DistinctIds(s.docs, IdOf, s.nextId)
  }

  /** The filter `{ _id: id, is_deleted: false }`: a document without the
      flag does not match `false`. */
  predicate LiveWithId(u: User, id: Id)
  {
    u.id == id && u.isDeleted == Some(false)
  }

  /** `getUserById(id)`: the user with that `_id` unless soft-deleted. */
  function GetUserById(s: Store, id: Id): (r: Option<User>)
    ensures r.Some? ==> r.value in s.docs && r.value.id == id && r.value.isDeleted == Some(false)
    ensures r.None? <==> forall j :: 0 <= j < |s.docs| ==> !LiveWithId(s.docs[j], id)
  {
    FindFirst(s.docs, (u: User) => LiveWithId(u, id))
  }

  /** The request body of a profile update. The route runs the validator
      chain but never reads its result, so whatever the body carries is
      `$set`: each `Some` field, including `is_deleted`, `role` and
      `created_at`, and every field outside the modelled schema (`other`,
      e.g. `description` or `picture`). `modified_at` is always overwritten,
      and `_id` is immutable, so neither is a patch field. */
  datatype UserPatch = UserPatch(
    name: Option<string>,
    mobile: Option<string>,
    mobileVerified: Option<bool>,
    email: Option<string>,
    emailVerified: Option<bool>,
    isVerified: Option<bool>,
    googleId: Option<string>,
    role: Option<string>,
    status: Option<string>,
    source: Option<string>,
    isDeleted: Option<bool>,
    createdAt: Option<Time>,
    other: map<string, string>)

  /** The body sets `is_deleted: true`. */
  predicate SetsDeleted(d: UserPatch)
  {
    d.isDeleted.Some? && d.isDeleted.value
  }

  /** A `$set` field: the new value when the body carries one, the stored
      value otherwise. */
  predicate Overwrites<T(==)>(patch: Option<T>, before: Option<T>, after: Option<T>)
  {
    after == if patch.Some? then patch else before
  }

  function Pick<T>(patch: Option<T>, before: Option<T>): Option<T>
  {
    if patch.Some? then patch else before
  }

  /** The document after `$set: { ...data, modified_at: now }`. */
  function ApplyPatch(u: User, d: UserPatch, now: Time): (r: User)
    ensures r.id == u.id && r.modifiedAt == Some(now)
    ensures Overwrites(d.name, u.name, r.name) && Overwrites(d.mobile, u.mobile, r.mobile)
    ensures Overwrites(d.mobileVerified, u.mobileVerified, r.mobileVerified)
    ensures Overwrites(d.email, u.email, r.email) && Overwrites(d.emailVerified, u.emailVerified, r.emailVerified)
    ensures Overwrites(d.isVerified, u.isVerified, r.isVerified) && Overwrites(d.googleId, u.googleId, r.googleId)
    ensures Overwrites(d.role, u.role, r.role) && Overwrites(d.status, u.status, r.status)
    ensures Overwrites(d.source, u.source, r.source) && Overwrites(d.isDeleted, u.isDeleted, r.isDeleted)
    ensures Overwrites(d.createdAt, u.createdAt, r.createdAt)
    ensures forall k :: k in r.other <==> k in u.other || k in d.other
    ensures forall k :: k in d.other ==> r.other[k] == d.other[k]
    ensures forall k :: k in u.other && k !in d.other ==> r.other[k] == u.other[k]
  {
    User(u.id, Pick(d.name, u.name), Pick(d.mobile, u.mobile), Pick(d.mobileVerified, u.mobileVerified),
         Pick(d.email, u.email), Pick(d.emailVerified, u.emailVerified), Pick(d.isVerified, u.isVerified),
         Pick(d.googleId, u.googleId), Pick(d.role, u.role), Pick(d.status, u.status),
         Pick(d.source, u.source), Pick(d.isDeleted, u.isDeleted), Pick(d.createdAt, u.createdAt),
         Some(now), u.other + d.other)
  }

  /** Applying the same body twice at the same instant is applying it once. */
  lemma ApplyPatchIdempotent(u: User, d: UserPatch, now: Time)
    ensures ApplyPatch(ApplyPatch(u, d, now), d, now) == ApplyPatch(u, d, now)
  {
    var once := ApplyPatch(u, d, now);
    assert once.other + d.other == once.other;
  }

  /** The error `updateUser` throws when no live user has the id. */
  const NoMatchAsWritten: string := "No matching trip found to update"

  /** `updateUser(id, data)`, parameterised by the message it throws when
      nothing matches: `findOneAndUpdate` on the live user with that id,
      returning the document after the update. */
  function UpdateUserWith(s: Store, id: Id, d: UserPatch, now: Time, noMatch: string): (r: (Store, Result<User>))
    ensures r.0.nextId == s.nextId && |r.0.docs| == |s.docs|
    ensures GetUserById(s, id).None? <==> r.1.Err?
    ensures r.1.Err? ==> r.0 == s && r.1.error == noMatch
    ensures r.1.Ok? ==>
              && r.1.value == ApplyPatch(GetUserById(s, id).value, d, now)
              && r.1.value in r.0.docs
    ensures r.1.Ok? && !SetsDeleted(d) ==> GetUserById(r.0, id) == Some(r.1.value)
    ensures forall j :: 0 <= j < |s.docs| ==> r.0.docs[j] == s.docs[j] || LiveWithId(s.docs[j], id)
    ensures Valid(s) ==> Valid(r.0)
  {
    var live := (u: User) => LiveWithId(u, id);
    match FirstMatch(s.docs, live)
    case None => (s, Err(noMatch))
    case Some(i) =>
      var u := ApplyPatch(s.docs[i], d, now);
      var docs := s.docs[i := u];
      assert docs[i] == u;
      assert !SetsDeleted(d) ==> FirstMatch(docs, live) == Some(i) by {
        if !SetsDeleted(d) {
          FirstMatchKept(s.docs, live, i, u);
        }
      }
      ReplaceSameId(s.docs, IdOf, s.nextId, i, u);
      (Store(docs, s.nextId), Ok(u))
  }

  /** `updateUser(id, data)` as written. */
  function UpdateUser(s: Store, id: Id, d: UserPatch, now: Time): (r: (Store, Result<User>))
    ensures GetUserById(s, id).None? ==> r == (s, Err(NoMatchAsWritten))
    ensures GetUserById(s, id).Some? ==>
              && r.1.Ok?
              && r.1.value == ApplyPatch(GetUserById(s, id).value, d, now)
              && (!SetsDeleted(d) ==> GetUserById(r.0, id) == Some(r.1.value))
  {
    UpdateUserWith(s, id, d, now, NoMatchAsWritten)
  }

  /** The message the update evidently means to throw: the one the user
      controller looks for. */
  const NoMatchIntended: string := "No matching user found to update"

  /** `updateUser(id, data)` throwing the intended message. */
  function UpdateUserFixed(s: Store, id: Id, d: UserPatch, now: Time): (r: (Store, Result<User>))
    ensures GetUserById(s, id).None? ==> r == (s, Err(NoMatchIntended))
    ensures GetUserById(s, id).Some? ==> r == UpdateUser(s, id, d, now)
  {
    UpdateUserWith(s, id, d, now, NoMatchIntended)
  }

  /** A soft-deleted user is neither returned nor modified. */
  lemma DeletedUserUntouched(s: Store, id: Id, d: UserPatch, now: Time)
    requires forall j :: 0 <= j < |s.docs| && s.docs[j].id == id ==> s.docs[j].isDeleted == Some(true)
    ensures GetUserById(s, id).None?
    ensures UpdateUser(s, id, d, now).0 == s
  {
  }

  /** A profile update whose body carries `is_deleted: true` succeeds and
      soft-deletes the caller: afterwards no live user has the id, so every
      later read and update of it fails. */
  lemma SelfDeleteHidesUser(s: Store, id: Id, d: UserPatch, now: Time)
    requires Valid(s) && GetUserById(s, id).Some? && SetsDeleted(d)
    ensures UpdateUser(s, id, d, now).1.Ok?
    ensures GetUserById(UpdateUser(s, id, d, now).0, id).None?
    ensures UpdateUser(UpdateUser(s, id, d, now).0, id, d, now).1 == Err(NoMatchAsWritten)
  {
    var r := UpdateUser(s, id, d, now);
    var i := FirstMatch(s.docs, (u: User) => LiveWithId(u, id)).value;
    assert r.0.docs == s.docs[i := ApplyPatch(s.docs[i], d, now)];
    forall j | 0 <= j < |r.0.docs|
      ensures !LiveWithId(r.0.docs[j], id)
    {
      if j != i {
        assert s.docs[j].id != s.docs[i].id;
      }
    }
  }
}

=== FILE: wishlist_store.dfy ===
/** The `wishlist` collection (src/storage/wishlist.ts). The trip
    controller also calls `findOne` and `delete`, which the storage does not
    define: `findOne` returns the first entry matching the filter and
    `delete` removes every entry matching it. */
module WishlistStore {
  import opened Common

  datatype Entry = Entry(id: Id, tripId: Id, userId: Id, createdAt: Time)

  predicate IsPair(e: Entry, tripId: Id, userId: Id)
  {
    e.tripId == tripId && e.userId == userId
  }

  /** The pair is wishlisted. */
  ghost predicate Listed(s: Table<Entry>, tripId: Id, userId: Id)
  {
    exists j :: 0 <= j < |s.docs| && IsPair(s.docs[j], tripId, userId)
  }

  /** `create({ trip_id, user_id })`. */
  function Create(s: Table<Entry>, tripId: Id, userId: Id, now: Time): (r: Table<Entry>)
    ensures r.docs == s.docs + [Entry(s.nextId, tripId, userId, now)] && r.nextId == s.nextId + 1
    ensures Listed(r, tripId, userId)
  {
    var r := Table(s.docs + [Entry(s.nextId, tripId, userId, now)], s.nextId + 1);
    assert IsPair(r.docs[|s.docs|], tripId, userId);
    r
  }

  /** `findOne({ trip_id, user_id })` (abstract). */
  function FindOne(s: Table<Entry>, tripId: Id, userId: Id): (r: Option<Entry>)
    ensures r.Some? <==> Listed(s, tripId, userId)
    ensures r.Some? ==> r.value in s.docs && IsPair(r.value, tripId, userId)
  {
    FindFirst(s.docs, (e: Entry) => IsPair(e, tripId, userId))
  }

  /** `delete({ trip_id, user_id })` (abstract): removes every entry for the
      pair and keeps all others, in order. */
  function Delete(s: Table<Entry>, tripId: Id, userId: Id): (r: Table<Entry>)
    ensures r.nextId == s.nextId
    ensures !Listed(r, tripId, userId)
    ensures forall e :: e in s.docs && !IsPair(e, tripId, userId) ==> e in r.docs
    ensures forall e :: e in r.docs ==> e in s.docs
    ensures Selects(r.docs, s.docs, NotPair(tripId, userId))
  {
    var r := Table(Filter(s.docs, NotPair(tripId, userId)), s.nextId);
    assert forall j :: 0 <= j < |r.docs| ==> !IsPair(r.docs[j], tripId, userId);
    FilterSelects(s.docs, NotPair(tripId, userId));
    r
  }

  /** The entries `delete({ trip_id, user_id })` keeps. */
  function NotPair(tripId: Id, userId: Id): Entry -> bool
  {
    (e: Entry) => !IsPair(e, tripId, userId)
  }

  /** `getAllByUser(userId)`: the user's entries, in store order. */
  function GetAllByUser(s: Table<Entry>, userId: Id): (r: seq<Entry>)
    ensures forall e :: e in r ==> e in s.docs && e.userId == userId
    ensures forall j :: 0 <= j < |s.docs| && s.docs[j].userId == userId ==> s.docs[j] in r
    ensures Selects(r, s.docs, OfUser(userId))
  {
    FilterSelects(s.docs, OfUser(userId));
    Filter(s.docs, OfUser(userId))
  }

  /** The filter `{ user_id }`. */
  function OfUser(userId: Id): Entry -> bool
  {
    (e: Entry) => e.userId == userId
  }
}
